=== FILE: README.md ===
# Storefront decision logic, modelled in Dafny

This project models the decision logic of a small Android clothing shop. The app is
written in Kotlin with Jetpack Compose and keeps its data in Cloud Firestore. Each
screen does its deciding inside UI callbacks. Here that logic is lifted into pure
functions over immutable records, and the properties the screens promise are proved.

The records (`model/Product.kt`, `CartItem.kt`, `Order.kt`, `Address.kt`, `Review.kt`,
`User.kt`) become datatypes in `Model`:

- Prices are whole VND.
- Timestamps are milliseconds.
- A nullable field is an `Option`.
- A store read is an input, and a store write is the function's result.

The modules, one per screen:

| module | screen | what it covers |
|---|---|---|
| `Catalog` | product list | search and category filtering, the sort keys, the new-arrivals strip |
| `BestSellers` | product list | the best-sellers strip |
| `Facets` | filter dialog | the category, brand, material, size and colour facets |
| `FilterDialog` | filter dialog | the `FilterOptions` record and its chip, price and sort updates |
| `Cart` | cart | the cart total, quantity changes and removal |
| `Checkout` | checkout | default address, order construction, stock decrement, the pickup-time dialog |
| `ProductDetails` | product page | preselection, add-to-cart guard, quantity selector, review eligibility, rating mean, review dialog, favourites |
| `AdminForm` | admin product form | save and edit |
| `OrderStatus` | admin orders | the order status machine, the status filter, the labels |
| `Register` | registration | the validation cascade and the user record |
| `Profile` | profile | the profile card and its three change dialogs |
| `Router` | `MainActivity.kt` | the `Screen` state machine |

Shared helpers mirror the Kotlin library behaviour the screens rely on:

- `Seqs`: `filter`, `take`, `distinct`, `flatMap`, `indexOf`.
- `Sorting`: stable `sortedBy`.
- `Text`: `isBlank`, `trim`, `contains(ignoreCase)`, `split`, `joinToString`, string order.
- `Numbers`: 32-bit `Int` wrap-around, `toIntOrNull`, number rendering.

## Model

| member | source | states |
|---|---|---|
| Catalog.FilterProducts | app/src/main/java/com/example/thigiuaki/ProductListScreen.kt:88-103 | a product survives, with its multiplicity, exactly when the query is blank or occurs (ignoring case) in name, description, category or type, and no category is chosen or the category matches exactly; a blank query and no category keep the list unchanged |
| Catalog.SortProducts | app/src/main/java/com/example/thigiuaki/ProductListScreen.kt:106-111 | the result is a permutation of the input; "price_asc" gives non-decreasing prices, "price_desc" non-increasing prices, "name" non-decreasing names; any other key leaves the order as it was |
| Catalog.SortProductsStable | app/src/main/java/com/example/thigiuaki/ProductListScreen.kt:106-111 | products with equal sort keys keep their relative order |
| Catalog.ListProducts | app/src/main/java/com/example/thigiuaki/ProductListScreen.kt:87-114 | the displayed list holds exactly the input products that match the query and category, each as often as in the input; every shown product has the chosen category |
| Catalog.NewArrivals | app/src/main/java/com/example/thigiuaki/ProductListScreen.kt:57-60 | at most 10 products, all from the catalog with a creation time no older than 30 days (inclusive), newest first, each shown no more often than it occurs among those products; any qualifying product left out means the strip is full and its last entry is at least as new |
| Catalog.NewArrivalsRanked | app/src/main/java/com/example/thigiuaki/ProductListScreen.kt:57-60 | the strip is sorted newest first and only a full strip omits a qualifying product |
| BestSellers.ItemQuantity | app/src/main/java/com/example/thigiuaki/ProductListScreen.kt:72 | the quantity counted is always a 32-bit `Int` value, and a missing quantity counts 0 |
| BestSellers.DeliveredItems | app/src/main/java/com/example/thigiuaki/ProductListScreen.kt:63-70 | the items considered are exactly those of orders whose status is "delivered" |
| BestSellers.DeliveredItemsAppend | app/src/main/java/com/example/thigiuaki/ProductListScreen.kt:68-70 | the items of two runs of orders are those of the first run followed by those of the second, so with DeliveredItemsSingle the items are those of the delivered orders, in document order, repeats kept |
| BestSellers.DeliveredItemsSingle | app/src/main/java/com/example/thigiuaki/ProductListScreen.kt:63-70 | one order contributes all its items in order when its status is "delivered", and nothing otherwise |
| BestSellers.TallyIds | app/src/main/java/com/example/thigiuaki/ProductListScreen.kt:67-75 | the tally has one entry per distinct product id (a missing id counts as ""), in first-seen order |
| BestSellers.TallyCounts | app/src/main/java/com/example/thigiuaki/ProductListScreen.kt:67-75 | each entry's count is the sum of the quantities of the items with that product id, wrapped to 32 bits as Kotlin `Int` addition wraps |
| BestSellers.SalesPerProduct | app/src/main/java/com/example/thigiuaki/ProductListScreen.kt:67-75 | the sales looked up for any id equal the wrapped sum of its quantities over the delivered items (every item of every delivered order, repeats kept, by DeliveredItemsAppend and DeliveredItemsSingle), and the tally has no repeated id |
| BestSellers.RankedTies | app/src/main/java/com/example/thigiuaki/ProductListScreen.kt:76 | the ranking is stable: ids with equal sales keep their first-seen order |
| BestSellers.FoundProducts | app/src/main/java/com/example/thigiuaki/ProductListScreen.kt:77-78 | only catalog products whose id was ranked appear, so ids with no catalog product are skipped; every ranked id that has one contributes it |
| BestSellers.BestSellersOrdered | app/src/main/java/com/example/thigiuaki/ProductListScreen.kt:63-79 | at most 10 products, all from the catalog, in non-increasing units sold; every shown product was sold in a delivered order, and no product is shown twice |
| BestSellers.RankedIds | app/src/main/java/com/example/thigiuaki/ProductListScreen.kt:67-76 | ranking the sales tally by count lists only keys of the tally, each at most once |
| BestSellers.OnProductsSnapshot | app/src/main/java/com/example/thigiuaki/ProductListScreen.kt:36-84 | an error changes nothing; an empty snapshot empties the catalog but keeps both strips; otherwise the catalog is the snapshot, the new-arrivals strip is recomputed from it, and the best-sellers strip is recomputed when the orders query answers and kept when it fails |
| BestSellers.SnapshotListsStrips | app/src/main/java/com/example/thigiuaki/ProductListScreen.kt:49-79 | after a non-empty snapshot whose orders query answers, both strips show only products of the new catalog |
| BestSellers.EmptySnapshotKeepsStrips | app/src/main/java/com/example/thigiuaki/ProductListScreen.kt:43-46 | after an empty snapshot the catalog is empty, and the strips show only catalog products exactly when both were already empty; anything they showed stays on screen |
| BestSellers.FoundDistinct | app/src/main/java/com/example/thigiuaki/ProductListScreen.kt:77-78 | looking up ranked keys that occur once each yields products that occur once each |
| BestSellers.BestSellersComplete | app/src/main/java/com/example/thigiuaki/ProductListScreen.kt:76-79 | a catalog product that was sold but is not shown means the strip is full and its tenth entry sold at least as many units |
| Facets.DistinctNonBlank | app/src/main/java/com/example/thigiuaki/ProductListScreen.kt:116-118 | the category row has no repeats and no blank entry, holds exactly the non-blank values given, and keeps their first-seen order |
| Facets.AttributeFacet | app/src/main/java/com/example/thigiuaki/EnhancedFilterDialog.kt:35-45 | the category, brand and material facets hold each non-blank value some product has, once, in first-seen order |
| Facets.ListFacet | app/src/main/java/com/example/thigiuaki/EnhancedFilterDialog.kt:47-53 | the size and colour facets are the repeat-free, blank-free union of all products' lists, in first-seen order |
| FilterDialog.DefaultOptions | app/src/main/java/com/example/thigiuaki/EnhancedFilterDialog.kt:13-23 | a fresh filter has no category, sub-category, brand, material or price bound, no sizes or colours, and sorts by "name" |
| FilterDialog.ClickChip | app/src/main/java/com/example/thigiuaki/EnhancedFilterDialog.kt:78-84 | clicking the selected value clears the selection, and clicking any other value selects it |
| FilterDialog.Toggle | app/src/main/java/com/example/thigiuaki/EnhancedFilterDialog.kt:180-186 | a size or colour chip appends an unchosen value at the end; for a chosen value it cuts out the first occurrence and keeps the rest in order; either way the contents change by exactly that value |
| FilterDialog.RemoveFirstCut | app/src/main/java/com/example/thigiuaki/EnhancedFilterDialog.kt:183 | `list - v` removes the first occurrence of a present value and keeps the elements before and after it in order |
| FilterDialog.RemoveFirstAbsent | app/src/main/java/com/example/thigiuaki/EnhancedFilterDialog.kt:183 | `list - v` leaves a list without `v` unchanged |
| FilterDialog.ToggleFlips | app/src/main/java/com/example/thigiuaki/EnhancedFilterDialog.kt:180-186 | on a repeat-free list the clicked value's membership flips, every other value keeps its membership, and the list stays repeat-free |
| FilterDialog.ToggleTwice | app/src/main/java/com/example/thigiuaki/EnhancedFilterDialog.kt:180-186 | toggling an absent value twice gives back the original list |
| FilterDialog.PriceBound | app/src/main/java/com/example/thigiuaki/EnhancedFilterDialog.kt:150-162 | empty or non-numeric price text gives no bound, and the rendering of any whole number reads back as that number |
| FilterDialog.Apply | app/src/main/java/com/example/thigiuaki/EnhancedFilterDialog.kt:72-239 | each chip, price or sort action sets its own field as described and leaves every other field of the filter unchanged |
| Cart.TotalAppend | app/src/main/java/com/example/thigiuaki/CartScreen.kt:64 | the total of price times quantity is additive over concatenated carts, so it is the sum of the line amounts |
| Cart.Remove | app/src/main/java/com/example/thigiuaki/CartScreen.kt:152-153 | removal keeps exactly the lines with a different id, and no line with that id remains |
| Cart.RemoveExact | app/src/main/java/com/example/thigiuaki/CartScreen.kt:152-153 | with unique line ids, removing a line's id deletes that line alone, in place |
| Cart.SetQuantity | app/src/main/java/com/example/thigiuaki/CartScreen.kt:158-167 | a positive quantity is written to the matching lines only, and zero or less deletes the line |
| Cart.SetQuantityReplaces | app/src/main/java/com/example/thigiuaki/CartScreen.kt:158-164 | with unique ids, a positive quantity changes that line's quantity and nothing else |
| Cart.TotalAfterSetQuantity | app/src/main/java/com/example/thigiuaki/CartScreen.kt:64 | after a positive quantity change the total moves by the price times the quantity difference |
| Cart.TotalAfterRemove | app/src/main/java/com/example/thigiuaki/CartScreen.kt:64 | after a removal the total drops by exactly the removed line's amount |
| Cart.MinusAtOneRemoves | app/src/main/java/com/example/thigiuaki/CartScreen.kt:235 | "−" on a line of quantity 1 deletes it |
| Cart.StepsAdjustByOne | app/src/main/java/com/example/thigiuaki/CartScreen.kt:235-246 | with unique line ids, "+" on a line holding 0 to 2^31−2 units (a new line holds 1) gives that line one more unit and changes nothing else, while "+" at the 32-bit limit wraps to a negative request and deletes the line; "−" on a line holding 2 to 2^31−1 units gives it one unit fewer and changes nothing else |
| Checkout.DefaultAddress | app/src/main/java/com/example/thigiuaki/CheckoutScreen.kt:56 | the shipping address is the first address marked default, else the first address, else an empty address |
| Checkout.PlaceOrder | app/src/main/java/com/example/thigiuaki/CheckoutScreen.kt:63-114 | no order when full name, phone, street or city is blank; otherwise the item snapshot copies the cart line by line, subtotal and total equal the cart total, status and payment status are "pending", the order is unprocessed, the shipping address is the six-field snapshot of the chosen address (so it is complete), the user, delivery type, payment method, notes and order date are copied, creation is stamped now, and the pickup time is the parsed time exactly for store pickup with non-blank, parsed text |
| Checkout.SnapshotAddress | app/src/main/java/com/example/thigiuaki/CheckoutScreen.kt:85-92 | the stored address copies full name, phone, street, city, district and ward, leaves id and owner empty and the default flag off, and is complete exactly when the chosen address is |
| Checkout.SnapshotTotal | app/src/main/java/com/example/thigiuaki/CheckoutScreen.kt:61-84 | the snapshot's items total the same as the cart |
| Checkout.OrderTotalMatchesItems | app/src/main/java/com/example/thigiuaki/CheckoutScreen.kt:61-84 | a placed order's recorded total equals the total of its own items |
| Checkout.StockAfterOrder | app/src/main/java/com/example/thigiuaki/CheckoutScreen.kt:124-131 | with the line write-backs run one after another, products not in the cart keep their stock; each ordered product's stock becomes old stock (missing counts 0) minus all units ordered of it, with no lower bound, in 32-bit arithmetic |
| Checkout.RacedAgreesWhenDistinct | app/src/main/java/com/example/thigiuaki/CheckoutScreen.kt:124-131 | when no product is on two lines, the write-back with every read answered first gives the same stock as the serial one |
| Checkout.LostUpdate | app/src/main/java/com/example/thigiuaki/CheckoutScreen.kt:124-131 | two one-unit lines of a product with stock 5 leave 3 when run serially but 4 when both reads answer first |
| Checkout.PickupDialogBounded | app/src/main/java/com/example/thigiuaki/CheckoutScreen.kt:420-458 | whatever buttons are pressed, the hour stays in 0..23 and the minute in {0, 15, 30, 45} |
| ProductDetails.Preselect | app/src/main/java/com/example/thigiuaki/ProductDetailsScreen.kt:63-64 | size and colour start at the first entry of the product's lists, or "" for an empty list |
| ProductDetails.PreselectEnables | app/src/main/java/com/example/thigiuaki/ProductDetailsScreen.kt:212-219 | with the preselection, add-to-cart is enabled exactly when the first size and first colour are both non-blank |
| ProductDetails.QuantityNeverBelowOne | app/src/main/java/com/example/thigiuaki/ProductDetailsScreen.kt:43-207 | starting at 1, no sequence of "−" and "+" presses brings the quantity below 1 |
| ProductDetails.DaysIn | app/src/main/java/com/example/thigiuaki/ProductDetailsScreen.kt:94-96 | elapsed milliseconds become whole days rounded toward zero |
| ProductDetails.CanReview | app/src/main/java/com/example/thigiuaki/ProductDetailsScreen.kt:82-107 | review is allowed exactly when user and product ids are non-blank, some delivered order of the user contains the product, has a delivery time and was delivered at most 7 whole days ago, and the user has no review of the product |
| ProductDetails.FutureDeliveryEligible | app/src/main/java/com/example/thigiuaki/ProductDetailsScreen.kt:94-97 | a delivery time in the future counts as within the window |
| ProductDetails.RatingUpdate | app/src/main/java/com/example/thigiuaki/ProductDetailsScreen.kt:586-597 | nothing is written when no review has a rating; otherwise the review count is the number of present ratings and the rating times the count is their sum (the present ratings being every `getLong("rating")?.toInt()` in document order, by PresentRatingsAppend and PresentRatingsSingle) |
| ProductDetails.PresentRatingsAppend | app/src/main/java/com/example/thigiuaki/ProductDetailsScreen.kt:586-588 | the ratings read from two runs of review documents are those of the first run followed by those of the second |
| ProductDetails.PresentRatingsSingle | app/src/main/java/com/example/thigiuaki/ProductDetailsScreen.kt:586-588 | a document with a rating contributes that rating as a 32-bit `Int`, and one without contributes nothing; with PresentRatingsAppend, every present rating is counted once, in document order |
| ProductDetails.RatingWithinStars | app/src/main/java/com/example/thigiuaki/ProductDetailsScreen.kt:586-597 | when every rating is between 1 and 5 the mean is between 1.0 and 5.0 |
| ProductDetails.ReviewStep | app/src/main/java/com/example/thigiuaki/ProductDetailsScreen.kt:547-606 | a star click sets the rating to that star, other events keep it, and submit starts loading only when enabled |
| ProductDetails.ReviewDialogRating | app/src/main/java/com/example/thigiuaki/ProductDetailsScreen.kt:531-556 | from the initial 5 the dialog's rating stays within 1..5 |
| ProductDetails.ToggleFavorite | app/src/main/java/com/example/thigiuaki/ProductDetailsScreen.kt:141-163 | without a user nothing happens; a favourite product loses every matching record and the flag drops, and otherwise one record is added and the flag rises |
| ProductDetails.ToggleKeepsFlag | app/src/main/java/com/example/thigiuaki/ProductDetailsScreen.kt:144-163 | if the flag agreed with the stored records before the toggle it agrees after |
| AdminForm.ParseList | app/src/main/java/com/example/thigiuaki/AdminScreen.kt:289-301 | all-blank text gives the defaults; otherwise the result is the entry list of the text, whose members are exactly the trimmed non-blank pieces between commas, each non-blank, trimmed and comma-free |
| AdminForm.EntriesCons | app/src/main/java/com/example/thigiuaki/AdminScreen.kt:289-290 | the entries keep the order of their pieces, one per non-blank piece with repeats kept: a first comma-free piece contributes its trimmed self, or nothing when blank, ahead of the entries of the rest |
| AdminForm.EntriesPiece | app/src/main/java/com/example/thigiuaki/AdminScreen.kt:289-290 | comma-free text yields its trimmed self, or nothing when blank |
| AdminForm.SaveProduct | app/src/main/java/com/example/thigiuaki/AdminScreen.kt:282-303 | save is refused for a blank name or a price (non-numeric as 0) not above 0; otherwise the id is kept when editing and "" when new, the price is the parsed price, text fields are trimmed, the image is the typed URL or the preset, non-numeric stock is 0, and sizes and colours are parsed with their defaults |
| AdminForm.LoadForm | app/src/main/java/com/example/thigiuaki/AdminScreen.kt:393-404 | the edit button fills the form from the product: name, type, category, description and image are copied, sizes and colours are joined with commas, the price and stock texts read back as the product's numbers, and the preset menu keeps its label and URL |
| AdminForm.ParseJoined | app/src/main/java/com/example/thigiuaki/AdminScreen.kt:401-402 | joining clean entries with commas and parsing gives the same list |
| AdminForm.EditRoundTrip | app/src/main/java/com/example/thigiuaki/AdminScreen.kt:282-303 | loading a product already in the form's shape into any form and saving it reproduces its id, name, price, type, category, image, description, sizes, colours and stock |
| AdminForm.ChoosePreset | app/src/main/java/com/example/thigiuaki/AdminScreen.kt:169-176 | picking a menu entry sets the shown label and the preset URL to that entry, and changes nothing else |
| AdminForm.ClearForm | app/src/main/java/com/example/thigiuaki/AdminScreen.kt:312-322 | after a save succeeds, every text field and the menu label return to their first values, but the preset URL keeps the last pick |
| AdminForm.PresetShown | app/src/main/java/com/example/thigiuaki/AdminScreen.kt:48-61 | the first form shows the preset it uses, so does every menu pick, and the edit button keeps whether the two agree |
| AdminForm.ClearedMenuAgrees | app/src/main/java/com/example/thigiuaki/AdminScreen.kt:333-342 | after a reset the menu shows the preset used exactly when the last pick was the first preset; otherwise it reads "Ảnh mặc định 1" while saves use the picked URL |
| OrderStatus.Actions | app/src/main/java/com/example/thigiuaki/AdminOrderManagementScreen.kt:199-222 | a pending order offers only the move to "confirmed", a confirmed one only the move to "delivered", other statuses none; "mark processed" keeps the status and is offered exactly when the order is unprocessed; every button sets processed |
| OrderStatus.Apply | app/src/main/java/com/example/thigiuaki/AdminOrderManagementScreen.kt:117-131 | the status and flag are written; moving to "confirmed" stamps the confirmation time and moving to "delivered" the delivery time; nothing else changes |
| OrderStatus.ActionPreserves | app/src/main/java/com/example/thigiuaki/AdminOrderManagementScreen.kt:117-222 | from a reachable order every offered button leads to a reachable order, and a non-pending order is always processed |
| OrderStatus.StampsOnlyOnAdvance | app/src/main/java/com/example/thigiuaki/AdminOrderManagementScreen.kt:124-130 | from a reachable order, a confirmation stamp is written only when a pending order is confirmed and a delivery stamp only when a confirmed order is delivered |
| OrderStatus.PressRunConsistent | app/src/main/java/com/example/thigiuaki/AdminOrderManagementScreen.kt:117-222 | any run of clicks on any of the offered buttons, at non-decreasing times, keeps the order reachable, so delivery is stamped no earlier than confirmation |
| OrderStatus.ListOrders | app/src/main/java/com/example/thigiuaki/AdminOrderManagementScreen.kt:29-34 | exactly the orders with a creation time and, when a status is chosen, that status, newest first |
| OrderStatus.ListOrdersStable | app/src/main/java/com/example/thigiuaki/AdminOrderManagementScreen.kt:30 | orders with equal creation times keep their input order; the input lists orders by descending document id, which is how the store breaks ties of a descending sort |
| OrderStatus.LabelsAgree | app/src/main/java/com/example/thigiuaki/AdminOrderManagementScreen.kt:72-91 | each status chip carries the same label as the badge of its orders, and the three lifecycle labels differ from each other |
| Register.FirstFailure | app/src/main/java/com/example/thigiuaki/RegisterScreen.kt:38-43 | the first failing check of an ordered list is reported, and none only when all pass |
| Register.ValidateReportsFirst | app/src/main/java/com/example/thigiuaki/RegisterScreen.kt:38-43 | the message set is that of the first failing check among blank name, blank email, blank password, password under 6 characters and mismatched confirmation |
| Register.HandleRegister | app/src/main/java/com/example/thigiuaki/RegisterScreen.kt:34-45 | sign-up starts only when all checks pass, with the trimmed email and password, and the spinner runs exactly then |
| Register.UserRecord | app/src/main/java/com/example/thigiuaki/RegisterScreen.kt:51-56 | the user document has the trimmed name, email and phone and role "user" |
| Register.OnFailure | app/src/main/java/com/example/thigiuaki/RegisterScreen.kt:63-71 | a failed sign-up or document write shows an error and stops the spinner |
| Register.PaddedPasswordSent | app/src/main/java/com/example/thigiuaki/RegisterScreen.kt:42-45 | as written, with a name and email given, any trimmed, non-blank five-character password followed by one space (and confirmed) passes every check, and the sign-up receives the five characters alone |
| Register.ShortPasswordSent | app/src/main/java/com/example/thigiuaki/RegisterScreen.kt:42-45 | as written, "abcde " passes the length check and is sent as a five-character password |
| Register.HandleRegisterTrimmed | app/src/main/java/com/example/thigiuaki/RegisterScreen.kt:42-45 | with the length check on the trimmed password, every password sent has at least 6 characters |
| Profile.DisplayNeverBlank | app/src/main/java/com/example/thigiuaki/ui/screens/ProfileScreen.kt:100-111 | a blank name or phone shows "Chưa cập nhật"; a blank email falls back to the account email, then to the placeholder |
| Profile.ChangePasswordClick | app/src/main/java/com/example/thigiuaki/ui/screens/ProfileScreen.kt:229-236 | the mismatch is reported before the length, and reauthentication starts only for matching passwords of at least 6 characters |
| Profile.PasswordRulesAgree | app/src/main/java/com/example/thigiuaki/ui/screens/ProfileScreen.kt:229-236 | the dialog accepts the same non-blank passwords as registration, but reports the mismatch where registration reports the length |
| Profile.ChangePhoneClick | app/src/main/java/com/example/thigiuaki/ui/screens/ProfileScreen.kt:406-412 | a blank phone gives an error and no update, and otherwise the phone is written as typed |
| Profile.EmailChangeShown | app/src/main/java/com/example/thigiuaki/ui/screens/ProfileScreen.kt:159-166 | after an email change the enabled button allowed, the card shows the new email and the other lines are unchanged |
| Profile.PhoneChangeShown | app/src/main/java/com/example/thigiuaki/ui/screens/ProfileScreen.kt:169-177 | after a phone change the card shows the new phone and the other lines are unchanged |
| Profile.CurrentEmailMatchesCard | app/src/main/java/com/example/thigiuaki/ui/screens/ProfileScreen.kt:106-161 | the email dialog's current email is the one on the card, except where the card shows the placeholder |
| Router.StepEdges | app/src/main/java/com/example/thigiuaki/MainActivity.kt:62-196 | logout goes to role selection; the admin login goes to the manager for role "admin" and home otherwise; the customer login goes home; placing an order goes home; every back edge goes to its fixed screen |
| Router.CheckoutNeedsCart | app/src/main/java/com/example/thigiuaki/MainActivity.kt:128-132 | checkout is entered only with a non-empty cart, and otherwise the screen stays |
| Router.AddToCartWrites | app/src/main/java/com/example/thigiuaki/MainActivity.kt:146-160 | add-to-cart with a signed-in user writes one line of quantity 1 with the product's id, name, image and price, the chosen size and colour and the user id, then goes home; without a user nothing happens; no other event writes |
| Router.GuardedEntries | app/src/main/java/com/example/thigiuaki/MainActivity.kt:95-197 | the manager is entered only from the admin login with role "admin"; the cart and order-history screens are entered only by going back |
| Router.AdminNeedsAdminRole | app/src/main/java/com/example/thigiuaki/MainActivity.kt:58-101 | any run from the start screen that reaches the manager contains a login with role "admin" |
| Router.WritesAreSingleUnits | app/src/main/java/com/example/thigiuaki/MainActivity.kt:146-158 | every cart line a run writes has quantity 1 and belongs to a user who was signed in during the run |

## Findings

| source | as written | input that shows it | evidently intended | confidence | as-written member | corrected member |
|---|---|---|---|---|---|---|
| app/src/main/java/com/example/thigiuaki/RegisterScreen.kt:42-45 | the 6-character check reads the password as typed, but sign-up sends `password.trim()` | password and confirmation "abcde " | the password sent has at least 6 characters, as the message promises | medium, not executed | Register.PaddedPasswordSent | Register.HandleRegisterTrimmed |
| app/src/main/java/com/example/thigiuaki/CheckoutScreen.kt:124-131 | every stock `get` is issued before any `update`, so two lines of one product both read the old stock and the second write replaces the first | two one-unit lines of a product with stock 5: 4 is written, not 3 | the stock drops by all units ordered of each product | low, not executed; depends on the reads answering before the writes | Checkout.LostUpdate | Checkout.StockAfterOrder |

## Left out

- Firestore, FirebaseAuth and Coil calls, and the registration of listeners. Their results are parameters and their writes are results.
- Async failure callbacks, except where they set a visible error. Each chain is modelled on its success path.
- Compose layout and theming; App Check.
- The screens `WishlistScreen`, `AdminStatisticsScreen`, `LoginScreen`, `ForgotPasswordScreen`, `MessageScreen`, `OrderHistoryScreen`, `AdminCustomerManagementScreen`, `AdminReviewManagementScreen` and `CustomerHomeScreen`. They only display data or coordinate callbacks.
- Floating point:
  - Prices and totals are whole VND, not `Double`.
  - The rating mean is a Dafny `real`.
  - `toDoubleOrNull` is read on integer text only (sign and digits). Decimals, exponents, surrounding whitespace and "NaN" give no number here, where Kotlin would parse some of them.
  - Rendering a `Double` (Kotlin writes "120000.0") is modelled as integer text.
- Text:
  - `contains(ignoreCase = true)` folds ASCII letters only.
  - `String.length` counts code points, not UTF-16 units.
  - String order is code-point order, not UTF-16 order.
- Numbers.ToIntOrNull: reads ASCII digits only. Kotlin's `toIntOrNull` accepts every Unicode decimal digit, so "１２" (full-width) or "٣" (Arabic-Indic) typed as stock gives 12 or 3 there, but stock 0 here. The digit tables are not modelled.
- The best-sellers callback finds products in `products` as it is when the orders query answers. The model uses the snapshot's list, which differs only when another snapshot arrives before that answer.
- Clocks: the current time, the formatted `orderDate` and the parsed pickup time are parameters.
- Concurrency:
  - The stock read-then-write after an order is modelled as one serial pass. Concurrent orders can interleave in the app.
  - Checkout.RacedStock covers only the schedule where every read answers before any write. Other interleavings of one order's reads and writes are not modelled.
  - Clearing the cart after an order is a store delete, not modelled.
- The order id, and document ids in general, are assigned by the store. A new order's id is left "".
- Applying `FilterOptions` to the product list. The dialog builds the record but the shown code never applies it.
- The quantity chosen on the product page is not passed to add-to-cart in the source, and is not used here either.
- `set()` of an edited product replaces the document, so rating, review count and creation time return to their defaults. The model reproduces that rather than keeping them.
- Stock may go negative, as in the source.
- Two admin orders screen details: the order-id prefix shown on a card, and the badge colours.
- Profile: the password and email dialogs stay loading when no signed-in user with an email exists. The email dialog also stays loading when the final profile write fails. These are async paths.
- ProductDetails.QuantityNeverBelowOne: proved only for fewer than 2^31 − 1 presses, because "+" wraps around at the 32-bit limit as Kotlin `Int` does.
- Cart.Total: its own contract states only the empty case. The sum is characterised by Cart.TotalAppend and Cart.TotalCons.
- Checkout.StockAfterOrder: holds for the serial pass only. In the app one order's lines race when two of them share a product, and the stock then likely drops by the last such line's quantity alone (see Findings). Checkout.RacedAgreesWhenDistinct shows the two agree when no product repeats.
- OrderStatus.Actions: reads `isProcessed` as stored. Firestore's object mapper names the Kotlin property `isProcessed` "processed", while the app writes the field "isProcessed" (AdminOrderManagementScreen.kt:121, CheckoutScreen.kt:96), so `toObject` most likely always reads false. The card would then always offer "mark processed", which on a delivered order stamps `deliveredAt` again.
- Checkout.DefaultAddress: reads `isDefault` as stored. For the same mapper reason the field "isDefault" written at CheckoutScreen.kt:385 most likely reads back false, and the first address would then always be chosen.
- Router.Step: a callback the current screen is not given is a no-op. The app cannot deliver such a callback at all.

=== FILE: adminform.dfy ===
/** The product form of AdminScreen.kt: what the save button builds from the
    text fields, and what the edit button loads back into them. */
module AdminForm {
  import opened Wrappers
  import opened Model
  import opened Seqs
  import opened Numbers
  import opened Text

  /** The preset images offered when no URL is typed, label to URL. */
  const IMAGE_OPTIONS: seq<(string, string)> := [
    ("Ảnh mặc định 1", "https://img.icons8.com/ios-filled/200/camera.png"),
    ("Ảnh mặc định 2", "https://img.icons8.com/ios-filled/200/gallery.png"),
    ("Ảnh mặc định 3", "https://img.icons8.com/ios-filled/200/compass.png")]

  /** The text fields of the form, with the label the preset menu shows and
      the preset URL a save falls back to; the two are separate state. */
  datatype ProductForm = ProductForm(
    name: string,
    price: string,
    productType: string,
    category: string,
    description: string,
    stock: string,
    sizes: string,
    colors: string,
    imageUrl: string,
    presetLabel: string,
    presetUrl: string)

  /** The form as first shown: the first preset, labelled and selected. */
  const INITIAL_FORM := ProductForm("", "", "", "", "", "", "S,M,L,XL", "Black,White,Blue", "",
    IMAGE_OPTIONS[0].0, IMAGE_OPTIONS[0].1)

  /** Picking entry `k` of the preset menu sets both its label and its URL. */
  function ChoosePreset(f: ProductForm, k: nat): (r: ProductForm)
    requires k < |IMAGE_OPTIONS|
    ensures (r.presetLabel, r.presetUrl) == IMAGE_OPTIONS[k]
    ensures r.(presetLabel := f.presetLabel, presetUrl := f.presetUrl) == f
  {
    f.(presetLabel := IMAGE_OPTIONS[k].0, presetUrl := IMAGE_OPTIONS[k].1)
  }

  /** The reset run after a successful save and by the cancel button: the
      text fields and the menu label return to their first values, but the
      preset URL is not reset. */
  function ClearForm(f: ProductForm): (r: ProductForm)
    ensures r.(presetUrl := IMAGE_OPTIONS[0].1) == INITIAL_FORM
    ensures r.presetUrl == f.presetUrl
  {
    INITIAL_FORM.(presetUrl := f.presetUrl)
  }

  /** The menu shows the label of the preset a save would use. */
  predicate MenuAgrees(f: ProductForm) {
    exists k :: 0 <= k < |IMAGE_OPTIONS| && IMAGE_OPTIONS[k] == (f.presetLabel, f.presetUrl)
  }

  /** The first form and every menu pick show the preset that is used, and
      the edit button keeps whatever the menu showed. */
  lemma PresetShown(f: ProductForm, k: nat, p: Product)
    requires k < |IMAGE_OPTIONS|
    ensures MenuAgrees(INITIAL_FORM)
    ensures MenuAgrees(ChoosePreset(f, k))
    ensures MenuAgrees(LoadForm(f, p)) <==> MenuAgrees(f)
  {
    assert IMAGE_OPTIONS[0] == (INITIAL_FORM.presetLabel, INITIAL_FORM.presetUrl);
    assert IMAGE_OPTIONS[k] == (ChoosePreset(f, k).presetLabel, ChoosePreset(f, k).presetUrl);
  }

  /** After a reset the menu shows the first preset, and agrees with the URL
      a save uses exactly when that URL is the first preset's: after picking
      preset 2 or 3 and saving, the menu reads "Ảnh mặc định 1" while the
      next save still uses the picked URL. */
  lemma ClearedMenuAgrees(f: ProductForm)
    ensures MenuAgrees(ClearForm(f)) <==> f.presetUrl == IMAGE_OPTIONS[0].1
  {
    var r := ClearForm(f);
    if MenuAgrees(r) {
      var k :| 0 <= k < |IMAGE_OPTIONS| && IMAGE_OPTIONS[k] == (r.presetLabel, r.presetUrl);
      assert IMAGE_OPTIONS[k].0 == IMAGE_OPTIONS[0].0;
      assert IMAGE_OPTIONS[1].0 != IMAGE_OPTIONS[0].0 && IMAGE_OPTIONS[2].0 != IMAGE_OPTIONS[0].0;
    } else {
      assert IMAGE_OPTIONS[0] != (r.presetLabel, r.presetUrl);
    }
  }

  function TrimAll(xs: seq<string>): (r: seq<string>)
    ensures |r| == |xs|
    ensures forall i :: 0 <= i < |xs| ==> r[i] == Trim(xs[i])
  {
    if |xs| == 0 then []
    else
      [Trim(xs[0])] + TrimAll(xs[1..])
  }

  predicate NotBlank(s: string) {
    !IsBlank(s)
  }

  /** A list entry that survives a join, split, trim and blank filter unchanged. */
  predicate CleanEntry(s: string) {
    !IsBlank(s) && IsTrimmed(s) && ',' !in s
  }

  /** The entries the text yields before the defaults step. */
  function Entries(text: string): seq<string> {
    Filter(TrimAll(Split(text)), NotBlank)
  }

  lemma EntryHasPiece(text: string, x: string)
    requires x in Entries(text)
    ensures exists piece :: piece in Split(text) && !IsBlank(piece) && Trim(piece) == x
  {
    var pieces := Split(text);
    FilterMembership(TrimAll(pieces), NotBlank, x);
    var i := IndexOf(TrimAll(pieces), x);
    assert pieces[i] in pieces;
  }

  lemma PieceGivesEntry(text: string, piece: string)
    requires piece in Split(text) && !IsBlank(piece)
    ensures Trim(piece) in Entries(text)
  {
    var pieces := Split(text);
    var i := IndexOf(pieces, piece);
    assert TrimAll(pieces)[i] == Trim(piece);
    FilterMembership(TrimAll(pieces), NotBlank, Trim(piece));
  }

  /** The entries are exactly the trimmed non-blank pieces between commas. */
  lemma EntriesMembers(text: string)
    ensures forall x :: x in Entries(text) <==>
      exists piece :: piece in Split(text) && !IsBlank(piece) && Trim(piece) == x
  {
    forall x | x in Entries(text)
      ensures exists piece :: piece in Split(text) && !IsBlank(piece) && Trim(piece) == x
    {
      EntryHasPiece(text, x);
    }
    forall piece | piece in Split(text) && !IsBlank(piece)
      ensures Trim(piece) in Entries(text)
    {
      PieceGivesEntry(text, piece);
    }
  }

  /** Every entry is non-blank, trimmed and free of commas. */
  lemma EntriesClean(text: string)
    ensures forall i :: 0 <= i < |Entries(text)| ==> CleanEntry(Entries(text)[i])
  {
    var pieces := Split(text);
    var trimmed := TrimAll(pieces);
    forall k | 0 <= k < |Entries(text)|
      ensures CleanEntry(Entries(text)[k])
    {
      var x := Entries(text)[k];
      FilterMembership(trimmed, NotBlank, x);
      var i :| 0 <= i < |pieces| && trimmed[i] == x;
      assert ',' !in pieces[i];
    }
  }

  /** No entry survives exactly when every piece is blank. */
  lemma EntriesEmpty(text: string)
    ensures |Entries(text)| == 0 <==> forall piece :: piece in Split(text) ==> IsBlank(piece)
  {
    EntriesMembers(text);
    if |Entries(text)| > 0 {
      assert Entries(text)[0] in Entries(text);
    }
    if exists piece :: piece in Split(text) && !IsBlank(piece) {
      var piece :| piece in Split(text) && !IsBlank(piece);
      assert Trim(piece) in Entries(text);
    }
  }

  /** Text without a comma yields its trimmed self, or nothing when blank. */
  lemma EntriesPiece(a: string)
    requires ',' !in a
    ensures Entries(a) == if IsBlank(a) then [] else [Trim(a)]
  {
    TrimBlank(a);
    assert Split(a) == [a];
    assert TrimAll([a]) == [Trim(a)];
    assert Filter([Trim(a)], NotBlank)
      == (if NotBlank(Trim(a)) then [Trim(a)] + Filter([], NotBlank) else Filter([], NotBlank));
  }

  /** Entries come out in the order their pieces appear, one per non-blank
      piece, repeats kept: the first piece contributes its trimmed self
      ahead of everything the rest of the text yields. */
  lemma EntriesCons(a: string, rest: string)
    requires ',' !in a
    ensures Entries(a + "," + rest) == (if IsBlank(a) then [] else [Trim(a)]) + Entries(rest)
  {
    var tail := TrimAll(Split(rest));
    calc {
      Entries(a + "," + rest);
      { SplitCons(a, rest); }
      Filter(TrimAll([a] + Split(rest)), NotBlank);
      { TrimAllCons(a, Split(rest)); }
      Filter([Trim(a)] + tail, NotBlank);
      { FilterAppend([Trim(a)], tail, NotBlank); }
      Filter([Trim(a)], NotBlank) + Entries(rest);
      { EntriesPiece(a); }
      (if IsBlank(a) then [] else [Trim(a)]) + Entries(rest);
    }
  }

  lemma TrimAllCons(a: string, xs: seq<string>)
    ensures TrimAll([a] + xs) == [Trim(a)] + TrimAll(xs)
  {
    assert ([a] + xs)[1..] == xs;
  }

  /** `text.split(",").map { it.trim() }.filter { it.isNotBlank() }`, with
      `defaults` in place of an empty result. */
  function ParseList(text: string, defaults: seq<string>): (r: seq<string>)
    ensures (forall piece :: piece in Split(text) ==> IsBlank(piece)) ==> r == defaults
    ensures (exists piece :: piece in Split(text) && !IsBlank(piece)) ==>
      forall x :: x in r <==> exists piece :: piece in Split(text) && !IsBlank(piece) && Trim(piece) == x
    ensures (exists piece :: piece in Split(text) && !IsBlank(piece)) ==>
      forall i :: 0 <= i < |r| ==> CleanEntry(r[i])
    ensures (exists piece :: piece in Split(text) && !IsBlank(piece)) ==> r == Entries(text)
  {
    EntriesMembers(text);
    EntriesClean(text);
    EntriesEmpty(text);
    var kept := Entries(text);
    if |kept| == 0 then defaults else kept
  }

  /** `toDoubleOrNull() ?: 0.0` on the price field, over whole amounts. */
  function PriceValue(text: string): int {
    ParseInteger(text).GetOr(0)
  }

  /** The save button: nothing happens for a blank name or a price that is
      not positive (non-numeric counts as 0); otherwise the product written
      with `set` or `add`, every other field at its declared default. */
  function SaveProduct(f: ProductForm, editing: Option<Product>): (r: Option<Product>)
    ensures r.None? <==> IsBlank(f.name) || PriceValue(f.price) <= 0
    ensures r.Some? ==> r.value.id == (if editing.Some? then editing.value.id else "")
    ensures r.Some? ==> r.value.price == PriceValue(f.price)
    ensures r.Some? ==> r.value.price > 0 && !IsBlank(r.value.name) && IsTrimmed(r.value.name)
    ensures r.Some? ==> r.value.name == Trim(f.name) && r.value.productType == Trim(f.productType)
    ensures r.Some? ==> r.value.category == Trim(f.category) && r.value.description == Trim(f.description)
    ensures r.Some? ==> r.value.imageUrl == (if IsBlank(f.imageUrl) then f.presetUrl else f.imageUrl)
    ensures r.Some? ==> r.value.stock == ToIntOrNull(f.stock).GetOr(0) && InInt32(r.value.stock)
    ensures r.Some? ==> r.value.sizes == ParseList(f.sizes, DEFAULT_SIZES)
    ensures r.Some? ==> r.value.colors == ParseList(f.colors, DEFAULT_COLORS)
    ensures r.Some? ==> r.value.rating == 0.0 && r.value.reviewCount == 0 && r.value.createdAt.None?
  {
    var price := PriceValue(f.price);
    if IsBlank(f.name) || price <= 0 then None
    else
      Some(EmptyProduct.(
        id := if editing.Some? then editing.value.id else "",
        name := Trim(f.name),
        price := price,
        productType := Trim(f.productType),
        category := Trim(f.category),
        imageUrl := if !IsBlank(f.imageUrl) then f.imageUrl else f.presetUrl,
        description := Trim(f.description),
        sizes := ParseList(f.sizes, DEFAULT_SIZES),
        colors := ParseList(f.colors, DEFAULT_COLORS),
        stock := ToIntOrNull(f.stock).GetOr(0)))
  }

  /** The edit button on the current form: the product's fields rendered
      into the text fields; the preset menu keeps its label and URL. */
  function LoadForm(f: ProductForm, p: Product): (r: ProductForm)
    ensures ParseInteger(r.price) == Some(p.price) && ParseInteger(r.stock) == Some(p.stock)
    ensures r.name == p.name && r.imageUrl == p.imageUrl
    ensures r.productType == p.productType && r.category == p.category && r.description == p.description
    ensures r.sizes == Join(p.sizes) && r.colors == Join(p.colors)
    ensures r.presetLabel == f.presetLabel && r.presetUrl == f.presetUrl
  {
    ProductForm(p.name, IntToString(p.price), p.productType, p.category, p.description,
      IntToString(p.stock), Join(p.sizes), Join(p.colors), p.imageUrl, f.presetLabel, f.presetUrl)
  }

  predicate CleanList(xs: seq<string>) {
    |xs| > 0 && forall i :: 0 <= i < |xs| ==> CleanEntry(xs[i])
  }

  /** Joining clean entries and parsing them back gives the same list. */
  lemma ParseJoined(xs: seq<string>, defaults: seq<string>)
    requires CleanList(xs)
    ensures ParseList(Join(xs), defaults) == xs
  {
    SplitJoin(xs);
    assert TrimAll(xs) == xs;
    FilterAll(xs, NotBlank);
    assert Entries(Join(xs)) == xs;
  }

  /** Loading a product and saving the form unchanged reproduces its id,
      name, price, type, category, description, image, stock, sizes and
      colours, when these are already in the shape the form produces. */
  lemma EditRoundTrip(f: ProductForm, p: Product)
    requires !IsBlank(p.name) && p.price > 0 && InInt32(p.stock)
    requires IsTrimmed(p.name) && IsTrimmed(p.productType) && IsTrimmed(p.category) && IsTrimmed(p.description)
    requires !IsBlank(p.imageUrl)
    requires CleanList(p.sizes) && CleanList(p.colors)
    ensures SaveProduct(LoadForm(f, p), Some(p)).Some?
    ensures SaveProduct(LoadForm(f, p), Some(p)).value == EmptyProduct.(
      id := p.id, name := p.name, price := p.price, productType := p.productType,
      category := p.category, imageUrl := p.imageUrl, description := p.description,
      sizes := p.sizes, colors := p.colors, stock := p.stock)
  {
    ParseJoined(p.sizes, DEFAULT_SIZES);
    ParseJoined(p.colors, DEFAULT_COLORS);
    IntRoundTrip(p.stock);
  }
}

=== FILE: bestsellers.dfy ===
/** The "best sellers" strip of ProductListScreen.kt: quantities summed per
    product over delivered orders, ranked, matched against the catalog and
    cut to ten. */
module BestSellers {
  import opened Wrappers
  import opened Model
  import opened Numbers
  import opened Seqs
  import opened Sorting
  import Catalog

  /** One element of an order document's `items` array, as the listener
      reads it with casts: `productId` is `Some` when the field holds a
      string, `quantity` is `Some(v)` when it holds a `Long` v. */
  datatype ItemDoc = ItemDoc(productId: Option<string>, quantity: Option<int>)

  /** An order document; a missing `items` array is the empty sequence. */
  datatype OrderDoc = OrderDoc(status: string, items: seq<ItemDoc>)

  /** `item["productId"] as? String ?: ""`. */
  function ItemKey(it: ItemDoc): string {
    it.productId.GetOr("")
  }

  /** `(item["quantity"] as? Long)?.toInt() ?: 0`. */
  function ItemQuantity(it: ItemDoc): (q: int)
    ensures InInt32(q)
    ensures it.quantity.None? ==> q == 0
  {
    match it.quantity
    case Some(v) => Wrap32(v)
    case None => 0
  }

  /** The items of the orders matching `whereEqualTo("status", "delivered")`,
      in document order. */
  function DeliveredItems(orders: seq<OrderDoc>): (items: seq<ItemDoc>)
    ensures forall it :: it in items <==>
      exists o :: o in orders && o.status == STATUS_DELIVERED && it in o.items
  {
    if |orders| == 0 then []
    else
      var init := orders[..|orders| - 1];
      var last := orders[|orders| - 1];
      assert orders == init + [last];
      DeliveredItems(init) + (if last.status == STATUS_DELIVERED then last.items else [])
  }

  /** The delivered items of two runs of orders are those of the first run
      followed by those of the second. */
  lemma {:induction false} DeliveredItemsAppend(a: seq<OrderDoc>, b: seq<OrderDoc>)
    ensures DeliveredItems(a + b) == DeliveredItems(a) + DeliveredItems(b)
    decreases |b|
  {
    if |b| > 0 {
      var init := b[..|b| - 1];
      var last := b[|b| - 1];
      assert (a + b)[..|a + b| - 1] == a + init;
      assert (a + b)[|a + b| - 1] == last;
      DeliveredItemsAppend(a, init);
      var extra := if last.status == STATUS_DELIVERED then last.items else [];
      calc {
        DeliveredItems(a + b);
        DeliveredItems(a + init) + extra;
        (DeliveredItems(a) + DeliveredItems(init)) + extra;
        DeliveredItems(a) + (DeliveredItems(init) + extra);
        DeliveredItems(a) + DeliveredItems(b);
      }
    } else {
      assert a + b == a;
    }
  }

  /** One order contributes all its items, in order, when delivered and
      nothing otherwise. */
  lemma DeliveredItemsSingle(o: OrderDoc)
    ensures DeliveredItems([o]) == if o.status == STATUS_DELIVERED then o.items else []
  {
    assert [o][..0] == [];
  }

  /** One entry of the `productSales` map. */
  datatype Sale = Sale(productId: string, count: int)

  function SaleIds(t: seq<Sale>): (ids: seq<string>)
    ensures |ids| == |t|
    ensures forall i :: 0 <= i < |t| ==> ids[i] == t[i].productId
  {
    seq(|t|, i requires 0 <= i < |t| => t[i].productId)
  }

  function ItemKeys(items: seq<ItemDoc>): (ks: seq<string>)
    ensures |ks| == |items|
    ensures forall i :: 0 <= i < |items| ==> ks[i] == ItemKey(items[i])
  {
    seq(|items|, i requires 0 <= i < |items| => ItemKey(items[i]))
  }

  /** `productSales[id] = (productSales[id] ?: 0) + q` on an insertion-ordered
      map: the entry for `id` is updated in place with 32-bit `Int` addition,
      a new key is appended. */
  function Bump(t: seq<Sale>, id: string, q: int): (r: seq<Sale>)
    ensures SaleIds(r) == if id in SaleIds(t) then SaleIds(t) else SaleIds(t) + [id]
    ensures forall i :: 0 <= i < |t| ==>
      r[i].count == (if i == IndexOf(SaleIds(t), id) then Wrap32(t[i].count + q) else t[i].count)
    ensures id !in SaleIds(t) ==> r[|t|].count == Wrap32(q)
  {
    var k := IndexOf(SaleIds(t), id);
    if k < |t| then
      var r := t[k := Sale(id, Wrap32(t[k].count + q))];
      assert SaleIds(r) == SaleIds(t);
      r
    else
      var r := t + [Sale(id, Wrap32(0 + q))];
      assert SaleIds(r) == SaleIds(t) + [id];
      r
  }

  /** The `productSales` map after the listener's two nested `forEach` loops. */
  function Tally(items: seq<ItemDoc>): seq<Sale> {
    if |items| == 0 then []
    else
      var last := items[|items| - 1];
      Bump(Tally(items[..|items| - 1]), ItemKey(last), ItemQuantity(last))
  }

  /** Total of the quantities of the items with key `id`, with no wrap-around. */
  ghost function QuantityFor(items: seq<ItemDoc>, id: string): int {
    if |items| == 0 then 0
    else
      var last := items[|items| - 1];
      QuantityFor(items[..|items| - 1], id) + (if ItemKey(last) == id then ItemQuantity(last) else 0)
  }

  lemma {:induction false} QuantityForAbsent(items: seq<ItemDoc>, id: string)
    requires id !in ItemKeys(items)
    ensures QuantityFor(items, id) == 0
  {
    if |items| > 0 {
      var init := items[..|items| - 1];
      assert ItemKeys(init) == ItemKeys(items)[..|items| - 1];
      QuantityForAbsent(init, id);
    }
  }

  /** The tally has one entry per product key, in the order the keys first
      appear. */
  lemma {:induction false} TallyIds(items: seq<ItemDoc>)
    ensures SaleIds(Tally(items)) == Distinct(ItemKeys(items))
  {
    if |items| > 0 {
      var init := items[..|items| - 1];
      TallyIds(init);
      assert ItemKeys(items)[..|items| - 1] == ItemKeys(init);
    }
  }

  /** The tally's keys are repeat-free and are exactly the items' keys. */
  lemma TallyKeys(items: seq<ItemDoc>)
    ensures NoDuplicates(SaleIds(Tally(items)))
    ensures forall x :: x in SaleIds(Tally(items)) <==> x in ItemKeys(items)
  {
    TallyIds(items);
  }

  /** Every entry of `t` holds the 32-bit sum of its key's quantities in `items`. */
  ghost predicate CountsMatch(t: seq<Sale>, items: seq<ItemDoc>) {
    forall i :: 0 <= i < |t| ==> t[i].count == Wrap32(QuantityFor(items, t[i].productId))
  }

  /** One `forEach` step, the last item's, keeps every entry equal to its
      key's wrapped sum. */
  lemma BumpCounts(t: seq<Sale>, items: seq<ItemDoc>)
    requires |items| > 0
    requires NoDuplicates(SaleIds(t))
    requires forall x :: x in SaleIds(t) <==> x in ItemKeys(items[..|items| - 1])
    requires CountsMatch(t, items[..|items| - 1])
    ensures CountsMatch(Bump(t, ItemKey(items[|items| - 1]), ItemQuantity(items[|items| - 1])), items)
  {
    var init := items[..|items| - 1];
    var k := ItemKey(items[|items| - 1]);
    var q := ItemQuantity(items[|items| - 1]);
    var ids := SaleIds(t);
    var r := Bump(t, k, q);
    forall i | 0 <= i < |r|
      ensures r[i].count == Wrap32(QuantityFor(items, r[i].productId))
    {
      assert QuantityFor(items, r[i].productId)
        == QuantityFor(init, r[i].productId) + (if k == r[i].productId then q else 0);
      assert SaleIds(r)[i] == r[i].productId;
      if i < |t| {
        assert ids[i] == r[i].productId;
        if t[i].productId == k {
          assert IndexOf(ids, k) == i;
          Wrap32Add(QuantityFor(init, k), q);
        } else {
          assert IndexOf(ids, k) != i;
        }
      } else {
        assert k !in ItemKeys(init);
        QuantityForAbsent(init, k);
      }
    }
  }

  /** Each tally entry holds the 32-bit sum of its key's quantities. */
  lemma {:induction false} TallyCounts(items: seq<ItemDoc>)
    ensures CountsMatch(Tally(items), items)
  {
    if |items| > 0 {
      var init := items[..|items| - 1];
      TallyCounts(init);
      TallyKeys(init);
      BumpCounts(Tally(init), items);
    }
  }

  /** `productSales[id] ?: 0`. */
  function SalesOf(t: seq<Sale>, id: string): int {
    if |t| == 0 then 0
    else if t[0].productId == id then t[0].count
    else SalesOf(t[1..], id)
  }

  lemma {:induction false} SalesOfEntry(t: seq<Sale>, i: nat)
    requires NoDuplicates(SaleIds(t))
    requires i < |t|
    ensures SalesOf(t, t[i].productId) == t[i].count
  {
    if i > 0 {
      assert SaleIds(t[1..]) == SaleIds(t)[1..];
      assert SaleIds(t)[0] != SaleIds(t)[i];
      SalesOfEntry(t[1..], i - 1);
    }
  }

  lemma {:induction false} SalesOfAbsent(t: seq<Sale>, id: string)
    requires id !in SaleIds(t)
    ensures SalesOf(t, id) == 0
  {
    if |t| > 0 {
      assert SaleIds(t[1..]) == SaleIds(t)[1..];
      SalesOfAbsent(t[1..], id);
    }
  }

  /** The units sold of product `id`: the sum, wrapped to 32 bits, of the
      quantities of every delivered item with that key; a missing or
      non-`Long` quantity adds 0 and a missing product id counts under "". */
  lemma SalesPerProduct(orders: seq<OrderDoc>, id: string)
    ensures SalesOf(Tally(DeliveredItems(orders)), id) == Wrap32(QuantityFor(DeliveredItems(orders), id))
    ensures NoDuplicates(SaleIds(Tally(DeliveredItems(orders))))
  {
    var items := DeliveredItems(orders);
    var t := Tally(items);
    TallyIds(items);
    TallyCounts(items);
    if id in SaleIds(t) {
      var i :| 0 <= i < |t| && SaleIds(t)[i] == id;
      SalesOfEntry(t, i);
    } else {
      SalesOfAbsent(t, id);
      QuantityForAbsent(items, id);
    }
  }

  /** `sortedByDescending { it.second }`. */
  predicate CountGe(a: Sale, b: Sale) {
    a.count >= b.count
  }

  lemma CountOrder()
    ensures TotalPreorder(CountGe)
  {
  }

  /** `products.find { it.id == id }`. */
  function FindProduct(ps: seq<Product>, id: string): (r: Option<Product>)
    ensures r.Some? ==> r.value in ps && r.value.id == id
    ensures r.None? ==> forall p :: p in ps ==> p.id != id
  {
    if |ps| == 0 then None
    else if ps[0].id == id then Some(ps[0])
    else FindProduct(ps[1..], id)
  }

  /** `listOfNotNull`. */
  function OptionSeq<T(!new)>(o: Option<T>): (r: seq<T>)
    ensures |r| <= 1
    ensures forall x :: x in r <==> o == Some(x)
  {
    match o
    case Some(x) => [x]
    case None => []
  }

  function FoundHead(ps: seq<Product>, id: string): seq<Product> {
    OptionSeq(FindProduct(ps, id))
  }

  /** `mapNotNull { id -> products.find { it.id == id } }`: ranked ids that
      are no longer in the catalog are skipped. */
  function FoundProducts(ranked: seq<Sale>, ps: seq<Product>): (r: seq<Product>)
    ensures forall i :: 0 <= i < |r| ==>
      r[i] in ps && r[i].id in SaleIds(ranked)
    ensures forall k :: 0 <= k < |ranked| && FindProduct(ps, ranked[k].productId).Some? ==>
      FindProduct(ps, ranked[k].productId).value in r
  {
    if |ranked| == 0 then []
    else
      var rest := FoundProducts(ranked[1..], ps);
      var head := FoundHead(ps, ranked[0].productId);
      assert SaleIds(ranked) == [ranked[0].productId] + SaleIds(ranked[1..]);
      assert forall k :: 1 <= k < |ranked| ==> ranked[k] == ranked[1..][k - 1];
      head + rest
  }

  /** The ranked ids: sales entries, highest count first. */
  function Ranked(orders: seq<OrderDoc>): seq<Sale> {
    SortBy(Tally(DeliveredItems(orders)), CountGe)
  }

  const BEST_SELLERS_LIMIT: nat := 10

  /** `bestSellingProducts`. */
  function BestSellers(orders: seq<OrderDoc>, ps: seq<Product>): seq<Product> {
    Take(FoundProducts(Ranked(orders), ps), BEST_SELLERS_LIMIT)
  }

  /** Entries with equal counts keep the order in which their keys were
      first met: the ranking is stable over the tally. */
  lemma RankedTies(orders: seq<OrderDoc>, e: Sale)
    ensures Ties(Ranked(orders), CountGe, e) == Ties(Tally(DeliveredItems(orders)), CountGe, e)
    ensures SaleIds(Tally(DeliveredItems(orders))) == Distinct(ItemKeys(DeliveredItems(orders)))
  {
    CountOrder();
    SortByStable(Tally(DeliveredItems(orders)), CountGe, e);
    TallyIds(DeliveredItems(orders));
  }

  /** Every product found for the tail of a ranking sells no more than the
      ranking's head. */
  lemma FoundBelowHead(ranked: seq<Sale>, ps: seq<Product>, sales: string -> int)
    requires |ranked| > 0
    requires forall k :: 0 <= k < |ranked| ==> sales(ranked[k].productId) == ranked[k].count
    requires SortedBy(ranked, CountGe)
    ensures forall p :: p in FoundProducts(ranked[1..], ps) ==> sales(ranked[0].productId) >= sales(p.id)
  {
    var rest := FoundProducts(ranked[1..], ps);
    forall p | p in rest
      ensures sales(ranked[0].productId) >= sales(p.id)
    {
      var m :| 0 <= m < |rest| && rest[m] == p;
      var k :| 0 <= k < |ranked[1..]| && SaleIds(ranked[1..])[k] == p.id;
      assert ranked[1..][k] == ranked[k + 1];
      assert CountGe(ranked[0], ranked[k + 1]);
    }
  }

  lemma PrependDominant(found: Option<Product>, id: string, rest: seq<Product>, sales: string -> int)
    requires found.Some? ==> found.value.id == id
    requires forall p :: p in rest ==> sales(id) >= sales(p.id)
    requires forall i, j :: 0 <= i < j < |rest| ==> sales(rest[i].id) >= sales(rest[j].id)
    ensures forall i, j :: 0 <= i < j < |OptionSeq(found) + rest| ==>
      sales((OptionSeq(found) + rest)[i].id) >= sales((OptionSeq(found) + rest)[j].id)
  {
    var r := OptionSeq(found) + rest;
    forall i, j | 0 <= i < j < |r|
      ensures sales(r[i].id) >= sales(r[j].id)
    {
      if found.Some? {
        assert r[j] == rest[j - 1];
        if i > 0 {
          assert r[i] == rest[i - 1];
        }
      } else {
        assert r == rest;
      }
    }
  }

  /** Products found along a ranking come out in non-increasing sales order. */
  lemma {:induction false} FoundRanked(ranked: seq<Sale>, ps: seq<Product>, sales: string -> int)
    requires forall k :: 0 <= k < |ranked| ==> sales(ranked[k].productId) == ranked[k].count
    requires SortedBy(ranked, CountGe)
    ensures forall i, j :: 0 <= i < j < |FoundProducts(ranked, ps)| ==>
      sales(FoundProducts(ranked, ps)[i].id) >= sales(FoundProducts(ranked, ps)[j].id)
  {
    if |ranked| > 0 {
      var rest := FoundProducts(ranked[1..], ps);
      assert forall k :: 0 <= k < |ranked[1..]| ==> ranked[1..][k] == ranked[k + 1];
      FoundRanked(ranked[1..], ps, sales);
      FoundBelowHead(ranked, ps, sales);
      PrependDominant(FindProduct(ps, ranked[0].productId), ranked[0].productId, rest, sales);
      assert FoundProducts(ranked, ps) == FoundHead(ps, ranked[0].productId) + rest;
    }
  }

  /** Units sold of product `id` according to the tally. */
  function UnitsSold(orders: seq<OrderDoc>, id: string): int {
    SalesOf(Tally(DeliveredItems(orders)), id)
  }

  /** The ranking lists every sold key once, highest count first, each with
      its units sold. */
  lemma RankedSales(orders: seq<OrderDoc>)
    ensures SortedBy(Ranked(orders), CountGe)
    ensures forall k :: 0 <= k < |Ranked(orders)| ==>
      UnitsSold(orders, Ranked(orders)[k].productId) == Ranked(orders)[k].count
    ensures forall id :: id in ItemKeys(DeliveredItems(orders)) <==> id in SaleIds(Ranked(orders))
    ensures NoDuplicates(SaleIds(Ranked(orders)))
  {
    var items := DeliveredItems(orders);
    TallyKeys(items);
    SortedTally(Tally(items));
  }

  lemma SortedTally(t: seq<Sale>)
    requires NoDuplicates(SaleIds(t))
    ensures SortedBy(SortBy(t, CountGe), CountGe)
    ensures forall k :: 0 <= k < |SortBy(t, CountGe)| ==>
      SalesOf(t, SortBy(t, CountGe)[k].productId) == SortBy(t, CountGe)[k].count
    ensures forall id :: id in SaleIds(t) <==> id in SaleIds(SortBy(t, CountGe))
    ensures NoDuplicates(SaleIds(SortBy(t, CountGe)))
  {
    var ranked := SortBy(t, CountGe);
    RankedIds(t, ranked);
    CountOrder();
    SortBySorted(t, CountGe);
    forall k | 0 <= k < |ranked|
      ensures SalesOf(t, ranked[k].productId) == ranked[k].count
    {
      assert multiset(ranked)[ranked[k]] > 0;
      var i :| 0 <= i < |t| && t[i] == ranked[k];
      SalesOfEntry(t, i);
    }
    forall id | id in SaleIds(t)
      ensures id in SaleIds(ranked)
    {
      var i :| 0 <= i < |t| && SaleIds(t)[i] == id;
      assert multiset(ranked)[t[i]] > 0;
      var k :| 0 <= k < |ranked| && ranked[k] == t[i];
      assert SaleIds(ranked)[k] == id;
    }
  }

  /** A reordering of a tally lists the same keys, each still once. */
  lemma RankedIds(t: seq<Sale>, ranked: seq<Sale>)
    requires NoDuplicates(SaleIds(t)) && multiset(ranked) == multiset(t)
    ensures forall id :: id in SaleIds(ranked) ==> id in SaleIds(t)
    ensures NoDuplicates(SaleIds(ranked))
  {
    assert NoDuplicates(t) by {
      forall i, j | 0 <= i < j < |t| ensures t[i] != t[j] {
        assert SaleIds(t)[i] != SaleIds(t)[j];
      }
    }
    NoDuplicatesPermutation(t, ranked);
    forall k | 0 <= k < |ranked|
      ensures exists i :: 0 <= i < |t| && t[i] == ranked[k]
    {
      assert multiset(t)[ranked[k]] > 0;
    }
    forall id | id in SaleIds(ranked)
      ensures id in SaleIds(t)
    {
      var k :| 0 <= k < |ranked| && SaleIds(ranked)[k] == id;
      var i :| 0 <= i < |t| && t[i] == ranked[k];
      assert SaleIds(t)[i] == id;
    }
    forall k, l | 0 <= k < l < |ranked|
      ensures SaleIds(ranked)[k] != SaleIds(ranked)[l]
    {
      var i :| 0 <= i < |t| && t[i] == ranked[k];
      var j :| 0 <= j < |t| && t[j] == ranked[l];
      assert i != j;
      assert SaleIds(t)[i] != SaleIds(t)[j] by {
        if i < j {
          assert SaleIds(t)[i] != SaleIds(t)[j];
        } else {
          assert SaleIds(t)[j] != SaleIds(t)[i];
        }
      }
    }
  }

  predicate DistinctIds(r: seq<Product>) {
    forall i, j :: 0 <= i < j < |r| ==> r[i].id != r[j].id
  }

  lemma PrependDistinct(head: seq<Product>, id: string, rest: seq<Product>)
    requires |head| <= 1 && forall i :: 0 <= i < |head| ==> head[i].id == id
    requires DistinctIds(rest) && forall j :: 0 <= j < |rest| ==> rest[j].id != id
    ensures DistinctIds(head + rest)
  {
    var r := head + rest;
    forall i, j | 0 <= i < j < |r|
      ensures r[i].id != r[j].id
    {
      assert r[j] == rest[j - |head|];
      if i >= |head| {
        assert r[i] == rest[i - |head|];
      }
    }
  }

  /** Ranked keys that occur once each give products that occur once each. */
  lemma {:induction false} FoundDistinct(ranked: seq<Sale>, ps: seq<Product>)
    requires NoDuplicates(SaleIds(ranked))
    ensures DistinctIds(FoundProducts(ranked, ps))
  {
    if |ranked| > 0 {
      var id := ranked[0].productId;
      var rest := FoundProducts(ranked[1..], ps);
      assert SaleIds(ranked) == [id] + SaleIds(ranked[1..]);
      FoundDistinct(ranked[1..], ps);
      assert forall j :: 0 <= j < |rest| ==> rest[j].id in SaleIds(ranked[1..]);
      PrependDistinct(FoundHead(ps, id), id, rest);
    }
  }

  /** What the strip shows: at most ten catalog products, by non-increasing
      units sold. */
  lemma BestSellersOrdered(orders: seq<OrderDoc>, ps: seq<Product>)
    ensures |BestSellers(orders, ps)| <= BEST_SELLERS_LIMIT
    ensures forall i :: 0 <= i < |BestSellers(orders, ps)| ==> BestSellers(orders, ps)[i] in ps
    ensures forall i, j :: 0 <= i < j < |BestSellers(orders, ps)| ==>
      UnitsSold(orders, BestSellers(orders, ps)[i].id) >= UnitsSold(orders, BestSellers(orders, ps)[j].id)
    ensures forall i :: 0 <= i < |BestSellers(orders, ps)| ==>
      BestSellers(orders, ps)[i].id in ItemKeys(DeliveredItems(orders))
    ensures forall i, j :: 0 <= i < j < |BestSellers(orders, ps)| ==>
      BestSellers(orders, ps)[i].id != BestSellers(orders, ps)[j].id
  {
    var found := FoundProducts(Ranked(orders), ps);
    RankedSales(orders);
    FoundRanked(Ranked(orders), ps, id => UnitsSold(orders, id));
    FoundDistinct(Ranked(orders), ps);
    assert forall i :: 0 <= i < |BestSellers(orders, ps)| ==> BestSellers(orders, ps)[i] == found[i];
  }

  /** A product that sold and is in the catalog but is not shown lost its
      place to ten shown products selling at least as many units. */
  lemma BestSellersComplete(orders: seq<OrderDoc>, ps: seq<Product>, p: Product)
    requires p in ps && p.id in ItemKeys(DeliveredItems(orders))
    requires forall i :: 0 <= i < |BestSellers(orders, ps)| ==> BestSellers(orders, ps)[i].id != p.id
    ensures |BestSellers(orders, ps)| == BEST_SELLERS_LIMIT
    ensures UnitsSold(orders, BestSellers(orders, ps)[BEST_SELLERS_LIMIT - 1].id) >= UnitsSold(orders, p.id)
  {
    var ranked := Ranked(orders);
    var found := FoundProducts(ranked, ps);
    var r := BestSellers(orders, ps);
    RankedSales(orders);
    var le := (a: Product, b: Product) => UnitsSold(orders, a.id) >= UnitsSold(orders, b.id);
    FoundRanked(ranked, ps, id => UnitsSold(orders, id));
    assert SortedBy(found, le);
    var k :| 0 <= k < |ranked| && SaleIds(ranked)[k] == p.id;
    var q := FindProduct(ps, p.id).value;
    assert q in found;
    assert q !in r;
    TakeOfSorted(found, BEST_SELLERS_LIMIT, le, q);
  }

  /** What the products listener of the product list writes: the catalog
      and the two strips drawn from it. */
  datatype ProductListState = ProductListState(
    products: seq<Product>,
    newProducts: seq<Product>,
    bestSelling: seq<Product>)

  /** One call of the products listener. `snapshot` is None for an error
      and otherwise the products read; `orders` is the answer of the
      delivered-orders query, None when it fails (there is no failure
      listener). An error changes nothing. An empty snapshot clears the
      catalog and returns early, so neither strip is recomputed. */
  function OnProductsSnapshot(st: ProductListState, snapshot: Option<seq<Product>>, now: int,
                              orders: Option<seq<OrderDoc>>): (r: ProductListState)
    ensures snapshot.None? ==> r == st
    ensures snapshot == Some([]) ==>
      r.products == [] && r.newProducts == st.newProducts && r.bestSelling == st.bestSelling
    ensures snapshot.Some? && |snapshot.value| > 0 ==>
      r.products == snapshot.value
      && r.newProducts == Catalog.NewArrivals(snapshot.value, now)
      && r.bestSelling == (if orders.Some? then BestSellers(orders.value, snapshot.value) else st.bestSelling)
  {
    match snapshot
    case None => st
    case Some(list) =>
      if |list| == 0 then st.(products := [])
      else
        ProductListState(list, Catalog.NewArrivals(list, now),
          if orders.Some? then BestSellers(orders.value, list) else st.bestSelling)
  }

  /** Both strips show only products of the current catalog. */
  predicate StripsListed(st: ProductListState) {
    (forall i :: 0 <= i < |st.newProducts| ==> st.newProducts[i] in st.products)
    && (forall i :: 0 <= i < |st.bestSelling| ==> st.bestSelling[i] in st.products)
  }

  /** A non-empty snapshot whose orders query answers leaves both strips
      drawn from the new catalog, whatever they showed before. */
  lemma SnapshotListsStrips(st: ProductListState, list: seq<Product>, now: int, orders: seq<OrderDoc>)
    requires |list| > 0
    ensures StripsListed(OnProductsSnapshot(st, Some(list), now, Some(orders)))
  {
    BestSellersOrdered(orders, list);
  }

  /** An empty snapshot leaves the catalog empty, so the strips are drawn
      from it only when both were already empty: products shown in a strip
      before stay shown after every product is gone. */
  lemma EmptySnapshotKeepsStrips(st: ProductListState, now: int, orders: Option<seq<OrderDoc>>)
    ensures OnProductsSnapshot(st, Some([]), now, orders).products == []
    ensures StripsListed(OnProductsSnapshot(st, Some([]), now, orders))
        <==> st.newProducts == [] && st.bestSelling == []
  {
    var r := OnProductsSnapshot(st, Some([]), now, orders);
    if |st.newProducts| > 0 {
      assert r.newProducts[0] !in r.products;
    }
    if |st.bestSelling| > 0 {
      assert r.bestSelling[0] !in r.products;
    }
  }
}

=== FILE: cart.dfy ===
/** The shopping cart of CartScreen.kt: its total and the quantity and
    removal updates its item cards send to the `cart` collection. */
module Cart {
  import opened Model
  import opened Numbers
  import opened Seqs

  /** What one cart line contributes: `price * quantity`. */
  function LineAmount(it: CartItem): int {
    it.price * it.quantity
  }

  /** `cartItems.sumOf { it.price * it.quantity }`. */
  function Total(items: seq<CartItem>): (t: int)
    ensures |items| == 0 ==> t == 0
  {
    if |items| == 0 then 0 else LineAmount(items[0]) + Total(items[1..])
  }

  /** The total of two carts placed one after the other is the sum of their totals. */
  lemma {:induction false} TotalAppend(a: seq<CartItem>, b: seq<CartItem>)
    ensures Total(a + b) == Total(a) + Total(b)
  {
    if |a| == 0 {
      assert a + b == b;
    } else {
      assert (a + b)[1..] == a[1..] + b;
      TotalAppend(a[1..], b);
    }
  }

  lemma TotalCons(x: CartItem, s: seq<CartItem>)
    ensures Total([x] + s) == LineAmount(x) + Total(s)
  {
    assert ([x] + s)[1..] == s;
  }

  /** Replacing one line changes the total by the difference of the two lines. */
  lemma {:induction false} TotalReplace(items: seq<CartItem>, i: nat, it: CartItem)
    requires i < |items|
    ensures Total(items[i := it]) == Total(items) - LineAmount(items[i]) + LineAmount(it)
  {
    if i > 0 {
      assert items[i := it][1..] == items[1..][i - 1 := it];
      TotalReplace(items[1..], i - 1, it);
    }
  }

  function Ids(items: seq<CartItem>): (ids: seq<string>)
    ensures |ids| == |items|
    ensures forall i :: 0 <= i < |items| ==> ids[i] == items[i].id
  {
    seq(|items|, i requires 0 <= i < |items| => items[i].id)
  }

  /** `document(id).delete()`, seen through the cart listener: every line
      with that document id disappears and the rest keep their order. */
  function Remove(items: seq<CartItem>, id: string): (r: seq<CartItem>)
    ensures forall it :: it in r <==> it in items && it.id != id
    ensures id !in Ids(r)
  {
    var keep := (it: CartItem) => it.id != id;
    var r := Filter(items, keep);
    forall it ensures it in r <==> it in items && it.id != id {
      FilterMembership(items, keep, it);
    }
    r
  }

  /** With unique document ids, removing a line's id takes out exactly that
      line and leaves the others in place. */
  lemma RemoveExact(items: seq<CartItem>, i: nat)
    requires NoDuplicates(Ids(items)) && i < |items|
    ensures Remove(items, items[i].id) == items[..i] + items[i + 1..]
  {
    var id := items[i].id;
    var keep := (it: CartItem) => it.id != id;
    var pre := items[..i];
    var post := items[i + 1..];
    assert items == pre + [items[i]] + post;
    forall k | 0 <= k < |pre| ensures keep(pre[k]) {
      assert Ids(items)[k] != Ids(items)[i];
    }
    forall k | 0 <= k < |post| ensures keep(post[k]) {
      assert post[k] == items[i + 1 + k];
      assert Ids(items)[i + 1 + k] != Ids(items)[i];
    }
    assert Remove(items, id) == Filter(items, keep);
    calc {
      Filter(items, keep);
      { FilterAppend(pre + [items[i]], post, keep); }
      Filter(pre + [items[i]], keep) + Filter(post, keep);
      { FilterAppend(pre, [items[i]], keep); }
      Filter(pre, keep) + Filter([items[i]], keep) + Filter(post, keep);
      { FilterAll(pre, keep); FilterAll(post, keep); assert Filter([items[i]], keep) == []; }
      pre + [] + post;
      { assert pre + [] == pre; }
      pre + post;
    }
  }

  /** `onQuantityChange(n)` on the line with document id `id`: a positive
      quantity is written to that line only, anything else deletes it. */
  function SetQuantity(items: seq<CartItem>, id: string, n: int): (r: seq<CartItem>)
    ensures n > 0 ==> |r| == |items|
    ensures n > 0 ==> forall i :: 0 <= i < |items| ==>
      r[i].id == items[i].id
      && (items[i].id == id ==> r[i] == items[i].(quantity := n))
      && (items[i].id != id ==> r[i] == items[i])
    ensures n <= 0 ==> r == Remove(items, id)
  {
    if n > 0 then
      seq(|items|, i requires 0 <= i < |items| =>
        if items[i].id == id then items[i].(quantity := n) else items[i])
    else Remove(items, id)
  }

  /** With unique document ids, a positive quantity change rewrites exactly
      one line. */
  lemma SetQuantityReplaces(items: seq<CartItem>, i: nat, n: int)
    requires NoDuplicates(Ids(items)) && i < |items| && n > 0
    ensures SetQuantity(items, items[i].id, n) == items[i := items[i].(quantity := n)]
  {
    var r := SetQuantity(items, items[i].id, n);
    forall k | 0 <= k < |items| ensures r[k] == items[i := items[i].(quantity := n)][k] {
      if k != i {
        assert Ids(items)[k] != Ids(items)[i];
      }
    }
  }

  /** With unique document ids, a positive quantity change moves the total
      by exactly the changed line's difference. */
  lemma TotalAfterSetQuantity(items: seq<CartItem>, i: nat, n: int)
    requires NoDuplicates(Ids(items)) && i < |items| && n > 0
    ensures Total(SetQuantity(items, items[i].id, n))
      == Total(items) - LineAmount(items[i]) + LineAmount(items[i].(quantity := n))
  {
    var it := items[i].(quantity := n);
    SetQuantityReplaces(items, i, n);
    TotalReplace(items, i, it);
  }

  /** Dropping the line at `i` takes exactly its amount off the total. */
  lemma TotalWithout(items: seq<CartItem>, i: nat)
    requires i < |items|
    ensures Total(items[..i] + items[i + 1..]) == Total(items) - LineAmount(items[i])
  {
    var x := items[i];
    SplitAt(items, i);
    TotalAppend(items[..i] + [x], items[i + 1..]);
    TotalAppend(items[..i], [x]);
    TotalCons(x, []);
    assert [x] + [] == [x];
    TotalAppend(items[..i], items[i + 1..]);
  }

  /** With unique document ids, removing a line takes exactly its amount off
      the total. */
  lemma TotalAfterRemove(items: seq<CartItem>, i: nat)
    requires NoDuplicates(Ids(items)) && i < |items|
    ensures Total(Remove(items, items[i].id)) == Total(items) - LineAmount(items[i])
  {
    RemoveExact(items, i);
    TotalWithout(items, i);
  }

  /** The quantity a card's "+" button requests: one more, in 32-bit `Int`. */
  function PlusRequest(it: CartItem): int {
    Wrap32(it.quantity + 1)
  }

  /** The quantity a card's "−" button requests: one fewer, in 32-bit `Int`. */
  function MinusRequest(it: CartItem): int {
    Wrap32(it.quantity - 1)
  }

  /** "−" on a line holding one unit deletes the line. */
  lemma MinusAtOneRemoves(items: seq<CartItem>, i: nat)
    requires i < |items| && items[i].quantity == 1
    ensures items[i].id !in Ids(SetQuantity(items, items[i].id, MinusRequest(items[i])))
    ensures SetQuantity(items, items[i].id, MinusRequest(items[i])) == Remove(items, items[i].id)
  {
  }

  /** "+" on a line holding 0..2^31-2 units rewrites that line alone with one
      unit more, and on a line at the 32-bit limit wraps to a negative request
      that deletes the line; "−" on a line holding 2..2^31-1 units rewrites that
      line alone with one unit fewer. */
  lemma StepsAdjustByOne(items: seq<CartItem>, i: nat)
    requires NoDuplicates(Ids(items)) && i < |items|
    ensures 0 <= items[i].quantity < INT_MAX ==>
      SetQuantity(items, items[i].id, PlusRequest(items[i]))
        == items[i := items[i].(quantity := items[i].quantity + 1)]
    ensures items[i].quantity == INT_MAX ==>
      SetQuantity(items, items[i].id, PlusRequest(items[i])) == Remove(items, items[i].id)
    ensures 1 < items[i].quantity <= INT_MAX ==>
      SetQuantity(items, items[i].id, MinusRequest(items[i]))
        == items[i := items[i].(quantity := items[i].quantity - 1)]
  {
    var q := items[i].quantity;
    if 0 <= q < INT_MAX {
      SetQuantityReplaces(items, i, q + 1);
    }
    if q == INT_MAX {
      assert PlusRequest(items[i]) == INT_MIN;
    }
    if 1 < q <= INT_MAX {
      SetQuantityReplaces(items, i, q - 1);
    }
  }
}

=== FILE: catalog.dfy ===
/** The shopper's product list (ProductListScreen.kt): search and category
    filtering, sorting, and the "new arrivals" strip. */
module Catalog {
  import opened Wrappers
  import opened Model
  import opened Text
  import opened Seqs
  import opened Sorting

  /** The search box matches the name, description, category or type,
      ignoring case. */
  predicate MatchesQuery(p: Product, q: string) {
    || ContainsIgnoreCase(p.name, q)
    || ContainsIgnoreCase(p.description, q)
    || ContainsIgnoreCase(p.category, q)
    || ContainsIgnoreCase(p.productType, q)
  }

  /** When a product is listed: the query is blank or occurs in one of the
      four fields, and no category is selected or the category is exactly it. */
  ghost predicate Listed(p: Product, q: string, category: Option<string>) {
    && (IsBlank(q) || Occurs(p.name, q) || Occurs(p.description, q)
                   || Occurs(p.category, q) || Occurs(p.productType, q))
    && (category.None? || p.category == category.value)
  }

  function SearchFilter(ps: seq<Product>, q: string): (r: seq<Product>)
    ensures forall p {:trigger multiset(r)[p]} ::
      multiset(r)[p] == (if IsBlank(q) || MatchesQuery(p, q) then multiset(ps)[p] else 0)
    ensures IsBlank(q) ==> r == ps
  {
    if IsBlank(q) then ps else Filter(ps, (p: Product) => MatchesQuery(p, q))
  }

  function CategoryFilter(ps: seq<Product>, category: Option<string>): (r: seq<Product>)
    ensures forall p {:trigger multiset(r)[p]} ::
      multiset(r)[p] == (if category.None? || p.category == category.value then multiset(ps)[p] else 0)
    ensures category.None? ==> r == ps
  {
    match category
    case None => ps
    case Some(c) => Filter(ps, (p: Product) => p.category == c)
  }

  /** The `filtered` list before sorting: each product is kept, as often as
      it occurs in the input, exactly when it is listed. */
  function FilterProducts(ps: seq<Product>, q: string, category: Option<string>): (r: seq<Product>)
    ensures forall p {:trigger multiset(r)[p]} ::
      multiset(r)[p] == (if Listed(p, q, category) then multiset(ps)[p] else 0)
    ensures IsBlank(q) && category.None? ==> r == ps
  {
    CategoryFilter(SearchFilter(ps, q), category)
  }

  predicate PriceLe(a: Product, b: Product) {
    a.price <= b.price
  }

  predicate PriceGe(a: Product, b: Product) {
    a.price >= b.price
  }

  predicate NameLe(a: Product, b: Product) {
    StrLe(a.name, b.name)
  }

  lemma ProductOrders()
    ensures TotalPreorder(PriceLe)
    ensures TotalPreorder(PriceGe)
    ensures TotalPreorder(NameLe)
  {
    forall a: Product, b: Product ensures NameLe(a, b) || NameLe(b, a) {
      StrLeTotal(a.name, b.name);
    }
    forall a: Product, b: Product, c: Product | NameLe(a, b) && NameLe(b, c)
      ensures NameLe(a, c)
    {
      StrLeTransitive(a.name, b.name, c.name);
    }
  }

  /** The `when (sortBy)` block: "price_asc", "price_desc" and "name" sort
      stably by that key; any other key keeps the filtered order. */
  function SortProducts(ps: seq<Product>, sortBy: string): (r: seq<Product>)
    ensures multiset(r) == multiset(ps)
    ensures sortBy == "price_asc" ==> forall i, j :: 0 <= i < j < |r| ==> r[i].price <= r[j].price
    ensures sortBy == "price_desc" ==> forall i, j :: 0 <= i < j < |r| ==> r[i].price >= r[j].price
    ensures sortBy == "name" ==> forall i, j :: 0 <= i < j < |r| ==> StrLe(r[i].name, r[j].name)
    ensures sortBy !in {"price_asc", "price_desc", "name"} ==> r == ps
  {
    ProductOrders();
    SortBySorted(ps, PriceLe);
    SortBySorted(ps, PriceGe);
    SortBySorted(ps, NameLe);
    if sortBy == "price_asc" then SortBy(ps, PriceLe)
    else if sortBy == "price_desc" then SortBy(ps, PriceGe)
    else if sortBy == "name" then SortBy(ps, NameLe)
    else ps
  }

  /** Products with equal sort keys stay in their filtered order. */
  lemma SortProductsStable(ps: seq<Product>, sortBy: string, x: Product)
    ensures sortBy == "price_asc" ==> Ties(SortProducts(ps, sortBy), PriceLe, x) == Ties(ps, PriceLe, x)
    ensures sortBy == "price_desc" ==> Ties(SortProducts(ps, sortBy), PriceGe, x) == Ties(ps, PriceGe, x)
    ensures sortBy == "name" ==> Ties(SortProducts(ps, sortBy), NameLe, x) == Ties(ps, NameLe, x)
  {
    ProductOrders();
    SortByStable(ps, PriceLe, x);
    SortByStable(ps, PriceGe, x);
    SortByStable(ps, NameLe, x);
  }

  /** `filteredProducts`: filtered, then sorted. */
  function ListProducts(ps: seq<Product>, q: string, category: Option<string>, sortBy: string): (r: seq<Product>)
    ensures forall p {:trigger multiset(r)[p]} ::
      multiset(r)[p] == (if Listed(p, q, category) then multiset(ps)[p] else 0)
    ensures forall p :: p in r <==> p in ps && Listed(p, q, category)
    ensures forall i :: 0 <= i < |r| ==> category.None? || r[i].category == category.value
    ensures IsBlank(q) && category.None? && sortBy !in {"price_asc", "price_desc", "name"} ==> r == ps
  {
    var r := SortProducts(FilterProducts(ps, q, category), sortBy);
    assert forall p :: p in r <==> multiset(r)[p] > 0;
    assert forall p :: p in ps <==> multiset(ps)[p] > 0;
    assert forall i :: 0 <= i < |r| ==> multiset(r)[r[i]] > 0;
    r
  }

  /** 30 days in milliseconds: `30L * 24 * 60 * 60 * 1000`. */
  const THIRTY_DAYS_MS: int := 30 * 24 * 60 * 60 * 1000
  const NEW_ARRIVALS_LIMIT: nat := 10

  /** Created no earlier than 30 days before `now`; undated products never qualify. */
  predicate IsNewArrival(p: Product, now: int) {
    p.createdAt.Some? && p.createdAt.value >= now - THIRTY_DAYS_MS
  }

  /** `sortedByDescending { createdAt }`: a missing timestamp sorts as the
      smallest value, so it comes last. */
  predicate CreatedGe(a: Product, b: Product) {
    match (a.createdAt, b.createdAt)
    case (_, None) => true
    case (None, Some(_)) => false
    case (Some(x), Some(y)) => x >= y
  }

  lemma CreatedOrder()
    ensures TotalPreorder(CreatedGe)
  {
  }

  function RecentProducts(ps: seq<Product>, now: int): (r: seq<Product>)
    ensures forall p {:trigger multiset(r)[p]} ::
      multiset(r)[p] == (if IsNewArrival(p, now) then multiset(ps)[p] else 0)
  {
    Filter(ps, (p: Product) => IsNewArrival(p, now))
  }

  /** `newProducts`: the ten most recently created products of the last 30 days. */
  function NewArrivals(ps: seq<Product>, now: int): (r: seq<Product>)
    ensures |r| <= NEW_ARRIVALS_LIMIT
    ensures forall i :: 0 <= i < |r| ==> r[i] in ps && IsNewArrival(r[i], now)
    ensures forall i, j :: 0 <= i < j < |r| ==> CreatedGe(r[i], r[j])
    ensures forall p :: p in ps && IsNewArrival(p, now) && p !in r ==>
      |r| == NEW_ARRIVALS_LIMIT && CreatedGe(r[NEW_ARRIVALS_LIMIT - 1], p)
    ensures multiset(r) <= multiset(RecentProducts(ps, now))
  {
    NewArrivalsMembers(ps, now);
    NewArrivalsRanked(ps, now);
    Take(SortBy(RecentProducts(ps, now), CreatedGe), NEW_ARRIVALS_LIMIT)
  }

  lemma NewArrivalsMembers(ps: seq<Product>, now: int)
    ensures forall p :: p in Take(SortBy(RecentProducts(ps, now), CreatedGe), NEW_ARRIVALS_LIMIT) ==>
      p in ps && IsNewArrival(p, now)
  {
    var sorted := SortBy(RecentProducts(ps, now), CreatedGe);
    forall p | p in Take(sorted, NEW_ARRIVALS_LIMIT)
      ensures p in ps && IsNewArrival(p, now)
    {
      assert p in sorted;
      assert multiset(sorted)[p] > 0;
      assert multiset(ps)[p] > 0;
    }
  }

  lemma NewArrivalsRanked(ps: seq<Product>, now: int)
    ensures SortedBy(Take(SortBy(RecentProducts(ps, now), CreatedGe), NEW_ARRIVALS_LIMIT), CreatedGe)
    ensures forall p :: p in ps && IsNewArrival(p, now) && p !in Take(SortBy(RecentProducts(ps, now), CreatedGe), NEW_ARRIVALS_LIMIT) ==>
      |Take(SortBy(RecentProducts(ps, now), CreatedGe), NEW_ARRIVALS_LIMIT)| == NEW_ARRIVALS_LIMIT
      && CreatedGe(Take(SortBy(RecentProducts(ps, now), CreatedGe), NEW_ARRIVALS_LIMIT)[NEW_ARRIVALS_LIMIT - 1], p)
  {
    var recent := RecentProducts(ps, now);
    var sorted := SortBy(recent, CreatedGe);
    CreatedOrder();
    SortBySorted(recent, CreatedGe);
    forall p | p in ps && IsNewArrival(p, now) && p !in Take(sorted, NEW_ARRIVALS_LIMIT)
      ensures |Take(sorted, NEW_ARRIVALS_LIMIT)| == NEW_ARRIVALS_LIMIT
      ensures CreatedGe(Take(sorted, NEW_ARRIVALS_LIMIT)[NEW_ARRIVALS_LIMIT - 1], p)
    {
      assert multiset(ps)[p] > 0;
      assert multiset(sorted)[p] > 0;
      TakeOfSorted(sorted, NEW_ARRIVALS_LIMIT, CreatedGe, p);
    }
  }
}

=== FILE: checkout.dfy ===
/** CheckoutScreen.kt: the default shipping address, the order record built
    by `handlePlaceOrder`, the stock written back after ordering and the
    pickup-time dialog. */
module Checkout {
  import opened Wrappers
  import opened Model
  import opened Numbers
  import opened Text
  import opened Cart
  import opened Seqs

  /** `addrList.firstOrNull { it.isDefault }`. */
  function FirstDefault(addrs: seq<Address>): (r: Option<Address>)
    ensures r.Some? ==> r.value.isDefault && r.value in addrs
    ensures r.None? ==> forall a :: a in addrs ==> !a.isDefault
    ensures r.Some? ==>
      exists k :: 0 <= k < |addrs| && addrs[k] == r.value && forall j :: 0 <= j < k ==> !addrs[j].isDefault
  {
    if |addrs| == 0 then None
    else if addrs[0].isDefault then Some(addrs[0])
    else
      var r := FirstDefault(addrs[1..]);
      if r.Some? then
        var k :| 0 <= k < |addrs[1..]| && addrs[1..][k] == r.value
          && forall j :: 0 <= j < k ==> !addrs[1..][j].isDefault;
        assert addrs[k + 1] == r.value;
        r
      else r
  }

  /** The address preselected for shipping: the first default address, else
      the first address, else `Address()`. */
  function DefaultAddress(addrs: seq<Address>): (a: Address)
    ensures (exists b :: b in addrs && b.isDefault) ==>
      && a.isDefault
      && exists k :: 0 <= k < |addrs| && addrs[k] == a && forall j :: 0 <= j < k ==> !addrs[j].isDefault
    ensures (forall b :: b in addrs ==> !b.isDefault) && |addrs| > 0 ==> a == addrs[0]
    ensures |addrs| == 0 ==> a == EmptyAddress
  {
    match FirstDefault(addrs)
    case Some(d) => d
    case None => if |addrs| > 0 then addrs[0] else EmptyAddress
  }

  /** The four address fields an order cannot do without. */
  predicate AddressComplete(a: Address) {
    !IsBlank(a.fullName) && !IsBlank(a.phone) && !IsBlank(a.street) && !IsBlank(a.city)
  }

  /** What the checkout screen holds when "place order" is pressed. */
  datatype CheckoutForm = CheckoutForm(
    userId: string,
    cart: seq<CartItem>,
    address: Address,
    deliveryType: string,
    pickupText: string,
    orderNotes: string,
    paymentMethod: string)

  /** A cart line as the order stores it: the seven copied fields, with the
      document id and the owner left at their defaults. */
  function SnapshotItem(it: CartItem): CartItem {
    CartItem("", it.productId, it.productName, it.productImageUrl, it.price, it.quantity,
      it.selectedSize, it.selectedColor, "")
  }

  /** `s` is the stored copy of cart line `it`. */
  predicate CopiesLine(s: CartItem, it: CartItem) {
    && s.productId == it.productId && s.productName == it.productName
    && s.productImageUrl == it.productImageUrl && s.price == it.price
    && s.quantity == it.quantity && s.selectedSize == it.selectedSize
    && s.selectedColor == it.selectedColor
  }

  function Snapshot(cart: seq<CartItem>): (items: seq<CartItem>)
    ensures |items| == |cart|
    ensures forall i :: 0 <= i < |cart| ==> CopiesLine(items[i], cart[i])
  {
    seq(|cart|, i requires 0 <= i < |cart| => SnapshotItem(cart[i]))
  }

  /** `s` carries the six delivery fields of `a`. */
  predicate CopiesAddress(s: Address, a: Address) {
    && s.fullName == a.fullName && s.phone == a.phone && s.street == a.street
    && s.city == a.city && s.district == a.district && s.ward == a.ward
  }

  /** The `shippingAddress` map: six fields copied, id, default flag and
      owner at their defaults. */
  function SnapshotAddress(a: Address): (r: Address)
    ensures CopiesAddress(r, a)
    ensures r.id == "" && !r.isDefault && r.userId == ""
    ensures AddressComplete(r) <==> AddressComplete(a)
  {
    Address("", a.fullName, a.phone, a.street, a.city, a.district, a.ward, false, "")
  }

  const DELIVERY_PICKUP := "store_pickup"

  /** `pickupTime` is written only for a store pickup with non-blank text
      that the date format accepts; `parsed` is what `dateFormat.parse`
      returned for that text. */
  function PickupTime(deliveryType: string, pickupText: string, parsed: Option<int>): (r: Option<int>)
    ensures r.Some? <==> deliveryType == DELIVERY_PICKUP && !IsBlank(pickupText) && parsed.Some?
    ensures r.Some? ==> r == parsed
  {
    if deliveryType == DELIVERY_PICKUP && !IsBlank(pickupText) then parsed else None
  }

  /** `handlePlaceOrder`: nothing when a required address field is blank,
      otherwise the order document as read back from the store. `now` is
      `Timestamp.now()`, `orderDate` its formatted text and `parsedPickup`
      the parse of the pickup text. */
  function PlaceOrder(f: CheckoutForm, now: int, orderDate: string, parsedPickup: Option<int>): (r: Option<Order>)
    ensures r.None? <==> !AddressComplete(f.address)
    ensures r.Some? ==> |r.value.items| == |f.cart|
    ensures r.Some? ==> forall i :: 0 <= i < |f.cart| ==> CopiesLine(r.value.items[i], f.cart[i])
    ensures r.Some? ==> r.value.subtotal == Total(f.cart) && r.value.totalAmount == Total(f.cart)
    ensures r.Some? ==> r.value.status == STATUS_PENDING && !r.value.isProcessed
    ensures r.Some? ==> r.value.paymentStatus == "pending"
    ensures r.Some? ==> r.value.deliveryType == f.deliveryType && r.value.paymentMethod == f.paymentMethod
    ensures r.Some? ==> r.value.userId == f.userId && r.value.createdAt == Some(now)
    ensures r.Some? ==> (r.value.pickupTime.Some? <==>
      f.deliveryType == DELIVERY_PICKUP && !IsBlank(f.pickupText) && parsedPickup.Some?)
    ensures r.Some? ==> r.value.pickupTime == PickupTime(f.deliveryType, f.pickupText, parsedPickup)
    ensures r.Some? ==> r.value.shippingAddress == SnapshotAddress(f.address)
    ensures r.Some? ==> CopiesAddress(r.value.shippingAddress, f.address) && AddressComplete(r.value.shippingAddress)
    ensures r.Some? ==> r.value.orderNotes == f.orderNotes && r.value.orderDate == orderDate
    ensures r.Some? ==> r.value.confirmedAt.None? && r.value.deliveredAt.None?
  {
    if !AddressComplete(f.address) then None
    else
      Some(Order(
        id := "",
        userId := f.userId,
        items := Snapshot(f.cart),
        subtotal := Total(f.cart),
        shippingCost := 0,
        tax := 0,
        discount := 0,
        couponCode := "",
        totalAmount := Total(f.cart),
        shippingAddress := SnapshotAddress(f.address),
        deliveryType := f.deliveryType,
        pickupTime := PickupTime(f.deliveryType, f.pickupText, parsedPickup),
        orderNotes := f.orderNotes,
        status := STATUS_PENDING,
        isProcessed := false,
        paymentMethod := f.paymentMethod,
        paymentStatus := "pending",
        trackingNumber := "",
        createdAt := Some(now),
        confirmedAt := None,
        packedAt := None,
        shippedAt := None,
        deliveredAt := None,
        cancelledAt := None,
        orderDate := orderDate,
        canCancel := true,
        canReturn := false))
  }

  lemma {:induction false} SnapshotTotal(cart: seq<CartItem>)
    ensures Total(Snapshot(cart)) == Total(cart)
  {
    if |cart| > 0 {
      assert Snapshot(cart)[1..] == Snapshot(cart[1..]);
      SnapshotTotal(cart[1..]);
    }
  }

  /** The order is priced from its own items: the stored lines add up to the
      stored subtotal and total. */
  lemma OrderTotalMatchesItems(f: CheckoutForm, now: int, orderDate: string, parsedPickup: Option<int>)
    requires AddressComplete(f.address)
    ensures Total(PlaceOrder(f, now, orderDate, parsedPickup).value.items)
      == PlaceOrder(f, now, orderDate, parsedPickup).value.subtotal
    ensures PlaceOrder(f, now, orderDate, parsedPickup).value.totalAmount
      == PlaceOrder(f, now, orderDate, parsedPickup).value.subtotal
  {
    SnapshotTotal(f.cart);
  }

  /** The `stock` field of every product document that exists. */
  type Stock = map<string, Option<int>>

  /** One line's write-back: `(getLong("stock")?.toInt() ?: 0) - quantity`,
      in `Int` arithmetic; `update` on a missing document writes nothing. */
  function DecrementLine(stock: Stock, it: CartItem): Stock {
    if it.productId in stock then
      var current := match stock[it.productId] case Some(v) => Wrap32(v) case None => 0;
      stock[it.productId := Some(Wrap32(current - it.quantity))]
    else stock
  }

  /** The stock after the order, with the per-line read-then-write steps run
      one after another in cart order. */
  function DecrementStock(stock: Stock, cart: seq<CartItem>): Stock {
    if |cart| == 0 then stock
    else DecrementLine(DecrementStock(stock, cart[..|cart| - 1]), cart[|cart| - 1])
  }

  /** Units of product `pid` in the cart. */
  function Ordered(cart: seq<CartItem>, pid: string): int {
    if |cart| == 0 then 0
    else
      var last := cart[|cart| - 1];
      Ordered(cart[..|cart| - 1], pid) + (if last.productId == pid then last.quantity else 0)
  }

  predicate InCart(cart: seq<CartItem>, pid: string) {
    exists i :: 0 <= i < |cart| && cart[i].productId == pid
  }

  /** After ordering, every existing product in the cart holds its old stock
      (missing → 0) less the units ordered, in 32-bit `Int` arithmetic and
      with no lower bound; other products and missing documents are left
      alone. */
  lemma {:induction false} StockAfterOrder(stock: Stock, cart: seq<CartItem>)
    ensures DecrementStock(stock, cart).Keys == stock.Keys
    ensures forall pid :: pid in stock && !InCart(cart, pid) ==>
      DecrementStock(stock, cart)[pid] == stock[pid]
    ensures forall pid :: pid in stock && InCart(cart, pid) ==>
      DecrementStock(stock, cart)[pid] == Some(Wrap32(stock[pid].GetOr(0) - Ordered(cart, pid)))
  {
    if |cart| > 0 {
      var init := cart[..|cart| - 1];
      var last := cart[|cart| - 1];
      StockAfterOrder(stock, init);
      var s := DecrementStock(stock, init);
      forall pid | pid in stock
        ensures !InCart(cart, pid) ==> DecrementStock(stock, cart)[pid] == stock[pid]
        ensures InCart(cart, pid) ==>
          DecrementStock(stock, cart)[pid] == Some(Wrap32(stock[pid].GetOr(0) - Ordered(cart, pid)))
      {
        assert forall i :: 0 <= i < |init| ==> init[i] == cart[i];
        if last.productId == pid {
          if InCart(init, pid) {
            Wrap32Add(stock[pid].GetOr(0) - Ordered(init, pid), -last.quantity);
          } else {
            assert Ordered(init, pid) == 0 by { OrderedAbsent(init, pid); }
            Wrap32Add(stock[pid].GetOr(0), -last.quantity);
          }
        } else if InCart(cart, pid) {
          var i :| 0 <= i < |cart| && cart[i].productId == pid;
          assert i < |init|;
        }
      }
    }
  }

  lemma {:induction false} OrderedAbsent(cart: seq<CartItem>, pid: string)
    requires !InCart(cart, pid)
    ensures Ordered(cart, pid) == 0
  {
    if |cart| > 0 {
      var init := cart[..|cart| - 1];
      assert forall i :: 0 <= i < |init| ==> init[i] == cart[i];
      OrderedAbsent(init, pid);
    }
  }

  /** The stock a line reads: `getLong("stock")?.toInt() ?: 0`. */
  function ReadStock(stock: Stock, pid: string): int
    requires pid in stock
  {
    match stock[pid] case Some(v) => Wrap32(v) case None => 0
  }

  /** One line's write-back computed from the stock as `before` held it and
      written over `stock`. */
  function DecrementLineFrom(before: Stock, stock: Stock, it: CartItem): Stock {
    if it.productId in before then stock[it.productId := Some(Wrap32(ReadStock(before, it.productId) - it.quantity))]
    else stock
  }

  /** The write-back as the listeners are issued: every `get` is sent before
      any `update`, so when the reads all answer first each line reads the
      stock as it was before the order and a later line's write replaces an
      earlier one's for the same product. */
  function RacedStock(stock: Stock, cart: seq<CartItem>): Stock {
    if |cart| == 0 then stock
    else DecrementLineFrom(stock, RacedStock(stock, cart[..|cart| - 1]), cart[|cart| - 1])
  }

  function ProductIds(cart: seq<CartItem>): (ids: seq<string>)
    ensures |ids| == |cart|
    ensures forall i :: 0 <= i < |cart| ==> ids[i] == cart[i].productId
  {
    seq(|cart|, i requires 0 <= i < |cart| => cart[i].productId)
  }

  /** Two lines of one product, one unit each, on a stock of 5: run one
      after the other the writes leave 3, but with both reads answered first
      the second write leaves 4, so one unit is never taken off. */
  lemma LostUpdate()
    ensures var stock := map["p" := Some(5)];
      var line := CartItem("", "p", "", "", 0, 1, "", "", "");
      DecrementStock(stock, [line, line]) == map["p" := Some(3)]
      && RacedStock(stock, [line, line]) == map["p" := Some(4)]
  {
    var stock := map["p" := Some(5)];
    var line := CartItem("", "p", "", "", 0, 1, "", "", "");
    assert [line, line][..1] == [line];
    assert [line][..0] == [];
    assert DecrementStock(stock, []) == stock && RacedStock(stock, []) == stock;
    var one := DecrementStock(stock, [line]);
    assert one == DecrementLine(stock, line);
    assert Wrap32(5) == 5 && Wrap32(4) == 4 && Wrap32(3) == 3;
    assert one["p"] == Some(4);
    assert DecrementStock(stock, [line, line]) == DecrementLine(one, line);
    var raced := RacedStock(stock, [line]);
    assert raced == DecrementLineFrom(stock, stock, line);
    assert RacedStock(stock, [line, line]) == DecrementLineFrom(stock, raced, line);
  }

  /** When no product is on two lines the two schedules agree: each line's
      product is untouched until its own write. */
  lemma {:induction false} RacedAgreesWhenDistinct(stock: Stock, cart: seq<CartItem>)
    requires NoDuplicates(ProductIds(cart))
    ensures RacedStock(stock, cart) == DecrementStock(stock, cart)
  {
    if |cart| > 0 {
      var init := cart[..|cart| - 1];
      var last := cart[|cart| - 1];
      assert ProductIds(init) == ProductIds(cart)[..|cart| - 1];
      RacedAgreesWhenDistinct(stock, init);
      forall i | 0 <= i < |init|
        ensures init[i].productId != last.productId
      {
        assert ProductIds(cart)[i] != ProductIds(cart)[|cart| - 1];
      }
      StockAfterOrder(stock, init);
    }
  }

  /** The hour and minute chosen in `PickupTimeDialog`. */
  datatype PickupClock = PickupClock(hour: int, minute: int)

  const PICKUP_START := PickupClock(14, 30)

  /** An hour of the day and a quarter-hour minute. */
  predicate ValidClock(c: PickupClock) {
    0 <= c.hour <= 23 && c.minute in {0, 15, 30, 45}
  }

  datatype ClockButton = HourDown | HourUp | MinuteDown | MinuteUp

  /** A "−" or "+" press; each is ignored at its bound. */
  function Press(c: PickupClock, b: ClockButton): (r: PickupClock)
    ensures ValidClock(c) ==> ValidClock(r)
    ensures b.HourDown? || b.HourUp? ==> r.minute == c.minute
    ensures b.MinuteDown? || b.MinuteUp? ==> r.hour == c.hour
  {
    match b
    case HourDown => if c.hour > 0 then c.(hour := c.hour - 1) else c
    case HourUp => if c.hour < 23 then c.(hour := c.hour + 1) else c
    case MinuteDown => if c.minute > 0 then c.(minute := c.minute - 15) else c
    case MinuteUp => if c.minute < 45 then c.(minute := c.minute + 15) else c
  }

  function PressAll(c: PickupClock, bs: seq<ClockButton>): PickupClock
    decreases |bs|
  {
    if |bs| == 0 then c else PressAll(Press(c, bs[0]), bs[1..])
  }

  /** Whatever buttons are pressed, the dialog offers an hour in 0..23 and a
      minute in {0, 15, 30, 45}. */
  lemma {:induction false} PickupClockBounded(c: PickupClock, bs: seq<ClockButton>)
    requires ValidClock(c)
    ensures ValidClock(PressAll(c, bs))
    decreases |bs|
  {
    if |bs| > 0 {
      PickupClockBounded(Press(c, bs[0]), bs[1..]);
    }
  }

  lemma PickupDialogBounded(bs: seq<ClockButton>)
    ensures ValidClock(PressAll(PICKUP_START, bs))
  {
    PickupClockBounded(PICKUP_START, bs);
  }
}

=== FILE: facets.dfy ===
/** The filter facets offered to the shopper: the distinct, non-blank values
    of a product attribute, in the order they are first met in the catalog
    (EnhancedFilterDialog.kt and the category row of ProductListScreen.kt). */
module Facets {
  import opened Model
  import opened Seqs
  import opened Text

  /** `values.distinct().filter { it.isNotBlank() }`. */
  function DistinctNonBlank(values: seq<string>): (r: seq<string>)
    ensures NoDuplicates(r)
    ensures forall v :: v in r <==> v in values && !IsBlank(v)
    ensures forall i, j :: 0 <= i < j < |r| ==> IndexOf(values, r[i]) < IndexOf(values, r[j])
  {
    var d := Distinct(values);
    var r := Filter(d, (v: string) => !IsBlank(v));
    FilterKeepsOrder(d, (v: string) => !IsBlank(v), (a: string, b: string) => a != b);
    FilterKeepsOrder(d, (v: string) => !IsBlank(v),
      (a: string, b: string) => IndexOf(values, a) < IndexOf(values, b));
    forall v ensures v in r <==> v in values && !IsBlank(v) {
      FilterMembership(d, (v: string) => !IsBlank(v), v);
    }
    r
  }

  /** The single-valued attributes with a facet. */
  datatype Attribute = Category | Brand | Material

  function AttributeOf(p: Product, a: Attribute): string {
    match a
    case Category => p.category
    case Brand => p.brand
    case Material => p.material
  }

  /** `products.map { it.<attribute> }`. */
  function AttributeValues(ps: seq<Product>, a: Attribute): (vs: seq<string>)
    ensures |vs| == |ps|
    ensures forall i :: 0 <= i < |ps| ==> vs[i] == AttributeOf(ps[i], a)
  {
    seq(|ps|, i requires 0 <= i < |ps| => AttributeOf(ps[i], a))
  }

  /** The `categories`, `brands` and `materials` facets: every non-blank value
      some product has, once each, in first-seen order. */
  function AttributeFacet(ps: seq<Product>, a: Attribute): (r: seq<string>)
    ensures NoDuplicates(r)
    ensures forall v :: v in r <==> !IsBlank(v) && exists p :: p in ps && AttributeOf(p, a) == v
    ensures forall i, j :: 0 <= i < j < |r| ==>
      IndexOf(AttributeValues(ps, a), r[i]) < IndexOf(AttributeValues(ps, a), r[j])
  {
    var vs := AttributeValues(ps, a);
    forall v ensures v in vs <==> exists p :: p in ps && AttributeOf(p, a) == v {
      if v in vs {
        var i :| 0 <= i < |vs| && vs[i] == v;
        assert ps[i] in ps;
      }
    }
    DistinctNonBlank(vs)
  }

  /** The list-valued attributes with a facet. */
  datatype ListAttribute = Sizes | Colors

  function ListOf(p: Product, a: ListAttribute): seq<string> {
    match a
    case Sizes => p.sizes
    case Colors => p.colors
  }

  /** `products.flatMap { it.<attribute> }`. */
  function ListValues(ps: seq<Product>, a: ListAttribute): (vs: seq<string>)
    ensures forall v :: v in vs <==> exists p :: p in ps && v in ListOf(p, a)
  {
    var lists := seq(|ps|, i requires 0 <= i < |ps| => ListOf(ps[i], a));
    var vs := Flatten(lists);
    forall v ensures v in vs <==> exists p :: p in ps && v in ListOf(p, a) {
      if v in vs {
        var i :| 0 <= i < |lists| && v in lists[i];
        assert ps[i] in ps;
      }
      if exists p :: p in ps && v in ListOf(p, a) {
        var p :| p in ps && v in ListOf(p, a);
        var i :| 0 <= i < |ps| && ps[i] == p;
        assert lists[i] == ListOf(p, a);
      }
    }
    vs
  }

  /** The `allSizes` and `allColors` facets: the union of all products'
      lists, without blanks or repeats, in first-seen order. */
  function ListFacet(ps: seq<Product>, a: ListAttribute): (r: seq<string>)
    ensures NoDuplicates(r)
    ensures forall v :: v in r <==> !IsBlank(v) && exists p :: p in ps && v in ListOf(p, a)
    ensures forall i, j :: 0 <= i < j < |r| ==>
      IndexOf(ListValues(ps, a), r[i]) < IndexOf(ListValues(ps, a), r[j])
  {
    DistinctNonBlank(ListValues(ps, a))
  }
}

=== FILE: filterdialog.dfy ===
/** The state of EnhancedFilterDialog.kt: the `FilterOptions` record and the
    updates its chips and price fields make to it. */
module FilterDialog {
  import opened Wrappers
  import opened Seqs
  import opened Numbers
  import opened Facets

  /** `FilterOptions`; the price bounds are whole VND amounts. */
  datatype FilterOptions = FilterOptions(
    category: Option<string>,
    subCategory: Option<string>,
    brand: Option<string>,
    material: Option<string>,
    minPrice: Option<int>,
    maxPrice: Option<int>,
    sizes: seq<string>,
    colors: seq<string>,
    sortBy: string)

  /** `FilterOptions()` with every default argument. */
  function DefaultOptions(): (f: FilterOptions)
    ensures f.category.None? && f.subCategory.None? && f.brand.None? && f.material.None?
    ensures f.minPrice.None? && f.maxPrice.None?
    ensures f.sizes == [] && f.colors == []
    ensures f.sortBy == "name"
  {
    FilterOptions(None, None, None, None, None, None, [], [], "name")
  }

  /** The value a single-valued attribute is restricted to. */
  function Selected(f: FilterOptions, a: Attribute): Option<string> {
    match a
    case Category => f.category
    case Brand => f.brand
    case Material => f.material
  }

  /** The values a multi-valued attribute is restricted to. */
  function Chosen(f: FilterOptions, a: ListAttribute): seq<string> {
    match a
    case Sizes => f.sizes
    case Colors => f.colors
  }

  /** Clicking the chip of value `v`: `if (current == v) null else v`. */
  function ClickChip(current: Option<string>, v: string): (r: Option<string>)
    ensures r.None? <==> current == Some(v)
    ensures r.Some? ==> r.value == v
  {
    if current == Some(v) then None else Some(v)
  }

  /** Kotlin `list - element`: drops the first occurrence only. */
  function RemoveFirst(xs: seq<string>, v: string): (r: seq<string>)
    ensures multiset(r) == if v in xs then multiset(xs) - multiset{v} else multiset(xs)
  {
    if |xs| == 0 then []
    else if xs[0] == v then
      assert xs == [v] + xs[1..];
      xs[1..]
    else
      assert xs == [xs[0]] + xs[1..];
      [xs[0]] + RemoveFirst(xs[1..], v)
  }

  /** Without an occurrence nothing is removed. */
  lemma {:induction false} RemoveFirstAbsent(xs: seq<string>, v: string)
    requires v !in xs
    ensures RemoveFirst(xs, v) == xs
  {
    if |xs| > 0 {
      RemoveFirstAbsent(xs[1..], v);
      assert xs == [xs[0]] + xs[1..];
    }
  }

  /** Removing `v` from `pre + [v] + post`, where `pre` holds no `v`,
      leaves `pre + post`. */
  lemma {:induction false} RemoveFirstSplit(pre: seq<string>, v: string, post: seq<string>)
    requires v !in pre
    ensures RemoveFirst(pre + [v] + post, v) == pre + post
  {
    var xs := pre + [v] + post;
    if |pre| == 0 {
      assert xs[1..] == post;
    } else {
      assert xs[0] == pre[0];
      assert xs[1..] == pre[1..] + [v] + post;
      RemoveFirstSplit(pre[1..], v, post);
      ConsAppend(pre, post);
    }
  }

  /** The first occurrence is cut out and the rest keeps its order. */
  lemma RemoveFirstCut(xs: seq<string>, v: string)
    requires v in xs
    ensures RemoveFirst(xs, v) == xs[..IndexOf(xs, v)] + xs[IndexOf(xs, v) + 1..]
  {
    var k := IndexOf(xs, v);
    SplitAt(xs, k);
    RemoveFirstSplit(xs[..k], v, xs[k + 1..]);
  }

  /** A size or colour chip: `if (list.contains(v)) list - v else list + v`. */
  function Toggle(xs: seq<string>, v: string): (r: seq<string>)
    ensures multiset(r) == if v in xs then multiset(xs) - multiset{v} else multiset(xs) + multiset{v}
    ensures v !in xs ==> r == xs + [v]
    ensures v in xs ==> r == xs[..IndexOf(xs, v)] + xs[IndexOf(xs, v) + 1..]
  {
    if v in xs then
      RemoveFirstCut(xs, v);
      RemoveFirst(xs, v)
    else xs + [v]
  }

  /** On a list without repeats a chip flips the membership of its own
      value, leaves every other value as it was, and keeps the list free of
      repeats. */
  lemma ToggleFlips(xs: seq<string>, v: string)
    requires NoDuplicates(xs)
    ensures v in Toggle(xs, v) <==> v !in xs
    ensures forall w :: w != v ==> (w in Toggle(xs, v) <==> w in xs)
    ensures NoDuplicates(Toggle(xs, v))
  {
    var r := Toggle(xs, v);
    MultisetNoDuplicates(xs);
    assert forall w :: w in r <==> multiset(r)[w] > 0;
    assert forall w :: w in xs <==> multiset(xs)[w] > 0;
    forall w ensures multiset(r)[w] <= 1 {
    }
    NoDuplicatesMultiset(r);
  }

  lemma RemoveFirstAppended(xs: seq<string>, v: string)
    requires v !in xs
    ensures RemoveFirst(xs + [v], v) == xs
  {
    RemoveFirstSplit(xs, v, []);
    assert xs + [v] + [] == xs + [v];
    assert xs + [] == xs;
  }

  /** Clicking a chip whose value is not selected, and clicking it again,
      restores the list. */
  lemma ToggleTwice(xs: seq<string>, v: string)
    requires v !in xs
    ensures Toggle(Toggle(xs, v), v) == xs
  {
    RemoveFirstAppended(xs, v);
  }

  /** `toDoubleOrNull()` on the price fields, over whole amounts: text that
      is not a number gives no bound. */
  function PriceBound(text: string): (r: Option<int>)
    ensures |text| == 0 ==> r.None?
    ensures (exists i :: 0 < i < |text| && !IsDigit(text[i])) ==> r.None?
    ensures |text| > 0 && !IsDigit(text[0]) && text[0] != '+' && text[0] != '-' ==> r.None?
    ensures forall n :: text == IntToString(n) ==> r == Some(n)
  {
    ParseInteger(text)
  }

  /** What the shopper can do in the dialog. */
  datatype Action =
    | ClearAttribute(a: Attribute)           // the "Tất cả" chip
    | ClickAttribute(a: Attribute, v: string)
    | EditMinPrice(text: string)
    | EditMaxPrice(text: string)
    | ClickListValue(la: ListAttribute, v: string)
    | ChooseSort(key: string)

  /** The fields of `FilterOptions`. */
  datatype Field = CategoryField | SubCategoryField | BrandField | MaterialField
    | MinPriceField | MaxPriceField | SizesField | ColorsField | SortField

  function AttributeField(a: Attribute): Field {
    match a
    case Category => CategoryField
    case Brand => BrandField
    case Material => MaterialField
  }

  function ListField(la: ListAttribute): Field {
    match la
    case Sizes => SizesField
    case Colors => ColorsField
  }

  /** The one field an action writes. */
  function Target(act: Action): Field {
    match act
    case ClearAttribute(a) => AttributeField(a)
    case ClickAttribute(a, _) => AttributeField(a)
    case EditMinPrice(_) => MinPriceField
    case EditMaxPrice(_) => MaxPriceField
    case ClickListValue(la, _) => ListField(la)
    case ChooseSort(_) => SortField
  }

  /** `f` and `g` agree on every field but `field`. */
  predicate AgreeExcept(f: FilterOptions, g: FilterOptions, field: Field) {
    && (field != CategoryField ==> f.category == g.category)
    && (field != SubCategoryField ==> f.subCategory == g.subCategory)
    && (field != BrandField ==> f.brand == g.brand)
    && (field != MaterialField ==> f.material == g.material)
    && (field != MinPriceField ==> f.minPrice == g.minPrice)
    && (field != MaxPriceField ==> f.maxPrice == g.maxPrice)
    && (field != SizesField ==> f.sizes == g.sizes)
    && (field != ColorsField ==> f.colors == g.colors)
    && (field != SortField ==> f.sortBy == g.sortBy)
  }

  function SetSelected(f: FilterOptions, a: Attribute, v: Option<string>): FilterOptions {
    match a
    case Category => f.(category := v)
    case Brand => f.(brand := v)
    case Material => f.(material := v)
  }

  function SetChosen(f: FilterOptions, la: ListAttribute, vs: seq<string>): (g: FilterOptions)
    ensures Chosen(g, la) == vs
    ensures AgreeExcept(f, g, ListField(la))
  {
    match la
    case Sizes => f.(sizes := vs)
    case Colors => f.(colors := vs)
  }

  /** `filters = filters.copy(...)` for one click or edit. */
  function Apply(f: FilterOptions, act: Action): (g: FilterOptions)
    ensures AgreeExcept(f, g, Target(act))
    ensures act.ClearAttribute? ==> Selected(g, act.a) == None
    ensures act.ClickAttribute? ==>
      (Selected(g, act.a).None? <==> Selected(f, act.a) == Some(act.v))
      && (Selected(g, act.a).Some? ==> Selected(g, act.a).value == act.v)
    ensures act.EditMinPrice? ==> g.minPrice == PriceBound(act.text)
    ensures act.EditMaxPrice? ==> g.maxPrice == PriceBound(act.text)
    ensures act.ClickListValue? ==>
      multiset(Chosen(g, act.la)) ==
        if act.v in Chosen(f, act.la) then multiset(Chosen(f, act.la)) - multiset{act.v}
        else multiset(Chosen(f, act.la)) + multiset{act.v}
    ensures act.ClickListValue? ==> Chosen(g, act.la) == Toggle(Chosen(f, act.la), act.v)
    ensures act.ChooseSort? ==> g.sortBy == act.key
  {
    match act
    case ClearAttribute(a) => SetSelected(f, a, None)
    case ClickAttribute(a, v) => SetSelected(f, a, ClickChip(Selected(f, a), v))
    case EditMinPrice(text) => f.(minPrice := PriceBound(text))
    case EditMaxPrice(text) => f.(maxPrice := PriceBound(text))
    case ClickListValue(la, v) =>
      var chosen := Toggle(Chosen(f, la), v);
      SetChosen(f, la, chosen)
    case ChooseSort(key) => f.(sortBy := key)
  }
}

=== FILE: model.dfy ===
/** The store's records as the app reads them (the records under `model/`). Prices and
    money are whole VND, timestamps are milliseconds since the epoch, and a
    nullable field is an `Option`. */
module Model {
  import opened Wrappers

  /** A catalog entry (model/Product.kt). The Kotlin property `type` is
      `productType` here. */
  datatype Product = Product(
    id: string,
    name: string,
    price: int,
    productType: string,
    category: string,
    subCategory: string,
    brand: string,
    material: string,
    imageUrl: string,
    images: seq<string>,
    description: string,
    sizes: seq<string>,
    colors: seq<string>,
    stock: int,
    rating: real,
    reviewCount: int,
    hasVariants: bool,
    createdAt: Option<int>,
    updatedAt: Option<int>,
    isActive: bool,
    tags: seq<string>)

  const DEFAULT_SIZES: seq<string> := ["S", "M", "L", "XL"]
  const DEFAULT_COLORS: seq<string> := ["Black", "White", "Blue"]

  /** `Product()`: every field at its declared default. */
  const EmptyProduct := Product(
    "", "", 0, "", "", "", "", "", "", [], "", DEFAULT_SIZES, DEFAULT_COLORS,
    0, 0.0, 0, false, None, None, true, [])

  /** One line of a cart, or of an order's item snapshot (model/CartItem.kt). */
  datatype CartItem = CartItem(
    id: string,
    productId: string,
    productName: string,
    productImageUrl: string,
    price: int,
    quantity: int,
    selectedSize: string,
    selectedColor: string,
    userId: string)

  /** A shipping address (model/Address.kt). */
  datatype Address = Address(
    id: string,
    fullName: string,
    phone: string,
    street: string,
    city: string,
    district: string,
    ward: string,
    isDefault: bool,
    userId: string)

  const EmptyAddress := Address("", "", "", "", "", "", "", false, "")

  /** An order (model/Order.kt). `status` stays a string, as in the store:
      the admin screen shows unknown statuses verbatim. */
  datatype Order = Order(
    id: string,
    userId: string,
    items: seq<CartItem>,
    subtotal: int,
    shippingCost: int,
    tax: int,
    discount: int,
    couponCode: string,
    totalAmount: int,
    shippingAddress: Address,
    deliveryType: string,
    pickupTime: Option<int>,
    orderNotes: string,
    status: string,
    isProcessed: bool,
    paymentMethod: string,
    paymentStatus: string,
    trackingNumber: string,
    createdAt: Option<int>,
    confirmedAt: Option<int>,
    packedAt: Option<int>,
    shippedAt: Option<int>,
    deliveredAt: Option<int>,
    cancelledAt: Option<int>,
    orderDate: string,
    canCancel: bool,
    canReturn: bool)

  /** A product review (model/Review.kt). */
  datatype Review = Review(
    id: string,
    productId: string,
    userId: string,
    userName: string,
    rating: int,
    comment: string,
    createdAt: Option<int>)

  /** A user profile document (model/User.kt). */
  datatype User = User(
    id: string,
    email: string,
    name: string,
    phone: string,
    role: string,
    avatarUrl: string)

  const STATUS_PENDING := "pending"
  const STATUS_CONFIRMED := "confirmed"
  const STATUS_DELIVERED := "delivered"
}

=== FILE: numbers.dfy ===
/** Kotlin integer conversions: 32-bit `Int` wrap-around, `toIntOrNull`,
    `toDoubleOrNull` (on integer text) and `toString`. */
module Numbers {
  import opened Wrappers

  const INT_MIN: int := -0x8000_0000
  const INT_MAX: int := 0x7FFF_FFFF
  const TWO_32: int := 0x1_0000_0000

  predicate InInt32(x: int) {
    INT_MIN <= x <= INT_MAX
  }

  /** Two's-complement truncation to 32 bits: Kotlin `Long.toInt()` and the
      result of `Int` addition or subtraction. */
  function Wrap32(x: int): (r: int)
    ensures InInt32(r)
    ensures (r - x) % TWO_32 == 0
    ensures InInt32(x) ==> r == x
  {
    (x - INT_MIN) % TWO_32 + INT_MIN
  }

  /** Wrapping after every addition is the same as wrapping once at the end. */
  lemma Wrap32Add(a: int, b: int)
    ensures Wrap32(Wrap32(a) + b) == Wrap32(a + b)
  {
    var k := (Wrap32(a) - a) / TWO_32;
    assert Wrap32(a) + b == (a + b) + k * TWO_32;
    Wrap32Shift(a + b, k);
  }

  lemma {:induction false} Wrap32Shift(x: int, k: int)
    ensures Wrap32(x + k * TWO_32) == Wrap32(x)
    decreases if k < 0 then -k else k
  {
    if k > 0 {
      Wrap32Shift(x, k - 1);
      assert x + k * TWO_32 == (x + (k - 1) * TWO_32) + TWO_32;
    } else if k < 0 {
      Wrap32Shift(x, k + 1);
      assert x + (k + 1) * TWO_32 == (x + k * TWO_32) + TWO_32;
    }
  }

  predicate IsDigit(c: char) {
    '0' <= c <= '9'
  }

  predicate AllDigits(s: string) {
    forall i :: 0 <= i < |s| ==> IsDigit(s[i])
  }

  /** The value of a string of decimal digits. */
  function DigitsValue(s: string): nat
    requires AllDigits(s)
  {
    if |s| == 0 then 0
    else DigitsValue(s[..|s| - 1]) * 10 + (s[|s| - 1] as int - '0' as int)
  }

  /** An optionally signed decimal integer: one leading `+` or `-`, then at
      least one ASCII digit, nothing else. */
  function ParseInteger(s: string): (r: Option<int>)
    ensures |s| == 0 ==> r.None?
    ensures r.Some? ==> exists i :: 0 <= i < |s| && IsDigit(s[i])
  {
    if |s| == 0 then None
    else if s[0] == '-' || s[0] == '+' then
      if |s| > 1 && AllDigits(s[1..]) then
        var v: int := DigitsValue(s[1..]);
        assert IsDigit(s[1..][0]);
        Some(if s[0] == '-' then -v else v)
      else None
    else if AllDigits(s) then Some(DigitsValue(s))
    else None
  }

  /** Kotlin `toIntOrNull()`: `null` for text that is not an integer or lies
      outside the 32-bit range. */
  function ToIntOrNull(s: string): (r: Option<int>)
    ensures r.Some? ==> InInt32(r.value) && ParseInteger(s) == r
    ensures ParseInteger(s).Some? && InInt32(ParseInteger(s).value) ==> r == ParseInteger(s)
  {
    match ParseInteger(s)
    case Some(v) => if InInt32(v) then Some(v) else None
    case None => None
  }

  /** Decimal rendering of a natural number, most significant digit first. */
  function NatToString(n: nat): (s: string)
    ensures |s| > 0 && AllDigits(s)
    ensures DigitsValue(s) == n
  {
    var d := [(n % 10 + '0' as int) as char];
    if n < 10 then d
    else
      var p := NatToString(n / 10);
      var s := p + d;
      assert s[..|s| - 1] == p;
      s
  }

  /** Kotlin `Int.toString()`. */
  function IntToString(n: int): (s: string)
    ensures ParseInteger(s) == Some(n)
  {
    if n < 0 then
      var s := "-" + NatToString(-n);
      assert s[1..] == NatToString(-n);
      s
    else NatToString(n)
  }

  /** Rendering a 32-bit value and reading it back with `toIntOrNull` is the identity. */
  lemma IntRoundTrip(n: int)
    requires InInt32(n)
    ensures ToIntOrNull(IntToString(n)) == Some(n)
  {
  }
}

=== FILE: orderstatus.dfy ===
/** The admin order screen (AdminOrderManagementScreen.kt): which status
    buttons an order card offers, what pressing one writes to the order, the
    status filter over the order list, and the status labels. */
module OrderStatus {
  import opened Wrappers
  import opened Model
  import opened Seqs
  import opened Sorting

  /** The two values a button passes to `onStatusChange`. */
  datatype StatusChange = StatusChange(newStatus: string, isProcessed: bool)

  /** The status the lifecycle moves an order on to, if any: the reference
      against which the card's buttons are checked. */
  function NextStatus(status: string): Option<string> {
    if status == STATUS_PENDING then Some(STATUS_CONFIRMED)
    else if status == STATUS_CONFIRMED then Some(STATUS_DELIVERED)
    else None
  }

  /** The buttons of an order card, left to right: "Xác nhận" on a pending
      order, "Đã giao" on a confirmed one, and "Đánh dấu đã xử lý" on any
      order not yet processed. */
  function Actions(o: Order): (r: seq<StatusChange>)
    ensures forall a :: a in r ==> a.isProcessed
    ensures forall a :: a in r ==> a.newStatus == o.status || Some(a.newStatus) == NextStatus(o.status)
    ensures (exists a :: a in r && a.newStatus != o.status) <==> NextStatus(o.status).Some?
    ensures NextStatus(o.status).Some? ==> StatusChange(NextStatus(o.status).value, true) in r
    ensures StatusChange(o.status, true) in r <==> !o.isProcessed
    ensures |r| == (if NextStatus(o.status).Some? then 1 else 0) + (if o.isProcessed then 0 else 1)
  {
    (if o.status == STATUS_PENDING then [StatusChange(STATUS_CONFIRMED, true)] else [])
    + (if o.status == STATUS_CONFIRMED then [StatusChange(STATUS_DELIVERED, true)] else [])
    + (if !o.isProcessed then [StatusChange(o.status, true)] else [])
  }

  /** `onStatusChange` on its success path: the status and processed flag are
      written, then moving to "confirmed" stamps `confirmedAt` and moving to
      "delivered" stamps `deliveredAt` with the current time. */
  function Apply(o: Order, a: StatusChange, now: int): (r: Order)
    ensures r.status == a.newStatus && r.isProcessed == a.isProcessed
    ensures r.confirmedAt == (if a.newStatus == STATUS_CONFIRMED then Some(now) else o.confirmedAt)
    ensures r.deliveredAt == (if a.newStatus == STATUS_DELIVERED then Some(now) else o.deliveredAt)
    ensures r.(status := o.status, isProcessed := o.isProcessed,
               confirmedAt := o.confirmedAt, deliveredAt := o.deliveredAt) == o
  {
    var written := o.(status := a.newStatus, isProcessed := a.isProcessed);
    if a.newStatus == STATUS_CONFIRMED then written.(confirmedAt := Some(now))
    else if a.newStatus == STATUS_DELIVERED then written.(deliveredAt := Some(now))
    else written
  }

  /** The states an order placed by the checkout can reach through the card's
      buttons: pending (processed or not) with no stamps, confirmed and
      processed with a confirmation stamp, or delivered and processed with
      a delivery stamp no earlier than the confirmation stamp. */
  predicate Consistent(o: Order) {
    || (o.status == STATUS_PENDING && o.confirmedAt.None? && o.deliveredAt.None?)
    || (o.status == STATUS_CONFIRMED && o.isProcessed && o.confirmedAt.Some? && o.deliveredAt.None?)
    || (o.status == STATUS_DELIVERED && o.isProcessed && o.confirmedAt.Some? && o.deliveredAt.Some?
        && o.confirmedAt.value <= o.deliveredAt.value)
  }

  /** The clock does not run backwards past the stamps already on the order. */
  predicate NotBefore(o: Order, now: int) {
    (o.confirmedAt.Some? ==> o.confirmedAt.value <= now)
    && (o.deliveredAt.Some? ==> o.deliveredAt.value <= now)
  }

  /** Every offered button keeps an order consistent, and a consistent order
      that is not pending is processed. */
  lemma ActionPreserves(o: Order, a: StatusChange, now: int)
    requires Consistent(o) && NotBefore(o, now)
    requires a in Actions(o)
    ensures Consistent(Apply(o, a, now))
    ensures Apply(o, a, now).status == STATUS_PENDING || Apply(o, a, now).isProcessed
  {
    var r := Apply(o, a, now);
    if o.status == STATUS_PENDING {
      assert a.newStatus == STATUS_PENDING || a.newStatus == STATUS_CONFIRMED;
    } else if o.status == STATUS_CONFIRMED {
      assert a.newStatus == STATUS_DELIVERED;
    }
  }

  /** A freshly placed order is consistent, and has exactly the confirm and
      mark-processed buttons. */
  lemma NewOrderActions(o: Order)
    requires o.status == STATUS_PENDING && !o.isProcessed
    requires o.confirmedAt.None? && o.deliveredAt.None?
    ensures Consistent(o)
    ensures Actions(o) == [StatusChange(STATUS_CONFIRMED, true), StatusChange(STATUS_PENDING, true)]
  {
  }

  /** From a consistent order, a button stamps `confirmedAt` only when it
      confirms a pending order and stamps `deliveredAt` only when it delivers
      a confirmed one; every other press leaves both stamps alone. */
  lemma StampsOnlyOnAdvance(o: Order, a: StatusChange, now: int)
    requires Consistent(o)
    requires a in Actions(o)
    ensures Apply(o, a, now).confirmedAt != o.confirmedAt ==>
      o.status == STATUS_PENDING && a.newStatus == STATUS_CONFIRMED
    ensures Apply(o, a, now).deliveredAt != o.deliveredAt ==>
      o.status == STATUS_CONFIRMED && a.newStatus == STATUS_DELIVERED
  {
    if o.status == STATUS_CONFIRMED {
      assert a.newStatus == STATUS_DELIVERED;
    }
  }

  /** A press of the card's `button`-th button (0-based, in the order
      `Actions` lists them) at time `time`. */
  datatype Click = Click(button: nat, time: int)

  /** An admin's clicks on one card, in order; a click on a button the card
      does not show does nothing. */
  function PressRun(o: Order, clicks: seq<Click>): (r: Order)
    decreases |clicks|
  {
    if |clicks| == 0 then o
    else
      var acts := Actions(o);
      var c := clicks[0];
      var next := if c.button < |acts| then Apply(o, acts[c.button], c.time) else o;
      PressRun(next, clicks[1..])
  }

  predicate Nondecreasing(clicks: seq<Click>) {
    forall i, j :: 0 <= i < j < |clicks| ==> clicks[i].time <= clicks[j].time
  }

  /** Any run of clicks on any of the offered buttons, at non-decreasing
      times, keeps the order consistent: it is delivered only after it was
      confirmed, with the delivery stamp no earlier than the confirmation. */
  lemma {:induction false} PressRunConsistent(o: Order, clicks: seq<Click>)
    requires Consistent(o)
    requires |clicks| > 0 ==> NotBefore(o, clicks[0].time)
    requires Nondecreasing(clicks)
    ensures Consistent(PressRun(o, clicks))
    decreases |clicks|
  {
    if |clicks| > 0 {
      var acts := Actions(o);
      var c := clicks[0];
      var next := if c.button < |acts| then Apply(o, acts[c.button], c.time) else o;
      if c.button < |acts| {
        ActionPreserves(o, acts[c.button], c.time);
      }
      assert NotBefore(next, c.time);
      if |clicks| > 1 {
        assert c.time <= clicks[1].time;
      }
      PressRunConsistent(next, clicks[1..]);
    }
  }

  /** `orderBy("createdAt", DESCENDING)`, newest first, extended to orders
      without a timestamp (last) so that it is total; the listed orders all
      carry one. */
  predicate NewerOrEqual(a: Order, b: Order) {
    match (a.createdAt, b.createdAt)
    case (_, None) => true
    case (None, Some(_)) => false
    case (Some(x), Some(y)) => x >= y
  }

  lemma NewerOrEqualOrder()
    ensures TotalPreorder(NewerOrEqual)
  {
  }

  /** The status chip's filter: a document without `createdAt` is not
      returned by a query ordered on that field. */
  predicate Shown(o: Order, selected: Option<string>) {
    o.createdAt.Some? && (selected.None? || o.status == selected.value)
  }

  /** The query of the screen. `orders` lists the collection by descending
      document id, the order in which the store breaks ties of a descending
      `orderBy`, so the stable sort places equal creation times as the store
      does. */
  function ListOrders(orders: seq<Order>, selected: Option<string>): (r: seq<Order>)
    ensures forall o :: multiset(r)[o] == (if Shown(o, selected) then multiset(orders)[o] else 0)
    ensures forall i :: 0 <= i < |r| ==> r[i].createdAt.Some?
    ensures selected.Some? ==> forall i :: 0 <= i < |r| ==> r[i].status == selected.value
    ensures forall i, j :: 0 <= i < j < |r| ==> r[i].createdAt.value >= r[j].createdAt.value
  {
    var kept := Filter(orders, (o: Order) => Shown(o, selected));
    NewerOrEqualOrder();
    SortBySorted(kept, NewerOrEqual);
    ListOrdersShown(kept, selected);
    SortBy(kept, NewerOrEqual)
  }

  lemma ListOrdersShown(kept: seq<Order>, selected: Option<string>)
    requires forall i :: 0 <= i < |kept| ==> Shown(kept[i], selected)
    ensures forall i :: 0 <= i < |SortBy(kept, NewerOrEqual)| ==> Shown(SortBy(kept, NewerOrEqual)[i], selected)
  {
    var sorted := SortBy(kept, NewerOrEqual);
    forall i | 0 <= i < |sorted|
      ensures Shown(sorted[i], selected)
    {
      var o := sorted[i];
      assert multiset(sorted)[o] > 0;
      assert o in multiset(kept);
      assert kept[IndexOf(kept, o)] == o;
    }
  }

  /** Orders with equal creation times keep their input order, descending
      document id. */
  lemma ListOrdersStable(orders: seq<Order>, selected: Option<string>, o: Order)
    ensures Ties(ListOrders(orders, selected), NewerOrEqual, o)
         == Ties(Filter(orders, (x: Order) => Shown(x, selected)), NewerOrEqual, o)
  {
    NewerOrEqualOrder();
    SortByStable(Filter(orders, (x: Order) => Shown(x, selected)), NewerOrEqual, o);
  }

  /** The label on an order card's status badge. */
  function StatusLabel(status: string): string {
    if status == STATUS_PENDING then "Chờ xử lý"
    else if status == STATUS_CONFIRMED then "Đã xác nhận"
    else if status == STATUS_DELIVERED then "Đã giao"
    else status
  }

  /** The filter chips above the list: the status each selects, and its label. */
  const STATUS_CHIPS: seq<(Option<string>, string)> := [
    (None, "Tất cả"),
    (Some(STATUS_PENDING), "Chờ xử lý"),
    (Some(STATUS_CONFIRMED), "Đã xác nhận"),
    (Some(STATUS_DELIVERED), "Đã giao")]

  /** Each status chip carries the label its orders show on their badge, the
      three lifecycle statuses get three different labels, and any other
      status is shown as stored. */
  lemma LabelsAgree()
    ensures forall i :: 0 <= i < |STATUS_CHIPS| && STATUS_CHIPS[i].0.Some? ==>
      StatusLabel(STATUS_CHIPS[i].0.value) == STATUS_CHIPS[i].1
    ensures StatusLabel(STATUS_PENDING) != StatusLabel(STATUS_CONFIRMED)
    ensures StatusLabel(STATUS_CONFIRMED) != StatusLabel(STATUS_DELIVERED)
    ensures StatusLabel(STATUS_PENDING) != StatusLabel(STATUS_DELIVERED)
    ensures forall s :: NextStatus(s).None? && s != STATUS_DELIVERED ==> StatusLabel(s) == s
  {
  }
}

=== FILE: productdetails.dfy ===
/** ProductDetailsScreen.kt: the size and colour preselected on load, the
    add-to-cart guard, the quantity selector, the review eligibility check,
    the review dialog with its rating recomputation, and the favourite
    toggle. */
module ProductDetails {
  import opened Wrappers
  import opened Model
  import opened Numbers
  import opened Text

  /** `list.firstOrNull() ?: ""`. */
  function FirstOrBlank(xs: seq<string>): (r: string)
    ensures |xs| > 0 ==> r == xs[0] && r in xs
    ensures |xs| == 0 ==> r == ""
  {
    if |xs| > 0 then xs[0] else ""
  }

  /** The size and colour selected when the product document arrives. */
  datatype Selection = Selection(size: string, color: string)

  function Preselect(p: Product): (s: Selection)
    ensures |p.sizes| > 0 ==> s.size == p.sizes[0]
    ensures |p.colors| > 0 ==> s.color == p.colors[0]
    ensures |p.sizes| == 0 ==> s.size == ""
    ensures |p.colors| == 0 ==> s.color == ""
  {
    Selection(FirstOrBlank(p.sizes), FirstOrBlank(p.colors))
  }

  /** Both buttons of the bottom bar: a product is loaded and both a size and
      a colour are chosen. */
  predicate AddToCartEnabled(product: Option<Product>, s: Selection) {
    product.Some? && !IsBlank(s.size) && !IsBlank(s.color)
  }

  /** Right after loading, adding to the cart is possible exactly when the
      product's first size and first colour exist and are not blank. */
  lemma PreselectEnables(p: Product)
    ensures AddToCartEnabled(Some(p), Preselect(p)) <==>
      |p.sizes| > 0 && |p.colors| > 0 && !IsBlank(p.sizes[0]) && !IsBlank(p.colors[0])
  {
    if |p.sizes| == 0 {
      assert IsBlank(Preselect(p).size);
    }
    if |p.colors| == 0 {
      assert IsBlank(Preselect(p).color);
    }
  }

  /** The bottom bar's quantity: "−" only above 1, "+" as `Int` `++`. */
  datatype QuantityButton = Less | More

  function QuantityStep(q: int, b: QuantityButton): int {
    match b
    case Less => if q > 1 then q - 1 else q
    case More => Wrap32(q + 1)
  }

  function QuantityAfter(q: int, bs: seq<QuantityButton>): int
    decreases |bs|
  {
    if |bs| == 0 then q else QuantityAfter(QuantityStep(q, bs[0]), bs[1..])
  }

  /** Started at `q` in 1..k, the selector stays in 1..k+n after n presses,
      as long as k+n stays within `Int`. */
  lemma {:induction false} QuantityBounded(q: int, k: int, bs: seq<QuantityButton>)
    requires 1 <= q <= k && k + |bs| <= INT_MAX
    ensures 1 <= QuantityAfter(q, bs) <= k + |bs|
    decreases |bs|
  {
    if |bs| > 0 {
      QuantityBounded(QuantityStep(q, bs[0]), k + 1, bs[1..]);
    }
  }

  /** The selector starts at 1 and never shows less than 1 (for fewer than
      2^31 − 1 presses, after which `Int` would wrap). */
  lemma QuantityNeverBelowOne(bs: seq<QuantityButton>)
    requires |bs| < INT_MAX
    ensures QuantityAfter(1, bs) >= 1
  {
    QuantityBounded(1, 1, bs);
  }

  const MS_PER_DAY: int := 86_400_000
  const REVIEW_WINDOW_DAYS: int := 7

  /** `TimeUnit.MILLISECONDS.toDays`: division truncating toward zero. */
  function DaysIn(ms: int): (d: int)
    ensures ms >= 0 ==> d * MS_PER_DAY <= ms < (d + 1) * MS_PER_DAY
    ensures ms < 0 ==> (d - 1) * MS_PER_DAY < ms <= d * MS_PER_DAY
  {
    if ms >= 0 then ms / MS_PER_DAY else -((-ms) / MS_PER_DAY)
  }

  /** Line `it` of order `o` lets `userId` review `productId` at time `now`:
      the user's delivered order holds the product and was delivered at most
      seven whole days ago. */
  predicate EligibleLine(o: Order, it: CartItem, userId: string, productId: string, now: int) {
    && o.userId == userId && o.status == STATUS_DELIVERED
    && it.productId == productId
    && o.deliveredAt.Some? && DaysIn(now - o.deliveredAt.value) <= REVIEW_WINDOW_DAYS
  }

  ghost predicate MayReview(orders: seq<Order>, reviews: seq<Review>, userId: string, productId: string, now: int) {
    && !IsBlank(userId) && !IsBlank(productId)
    && (exists o, it :: o in orders && it in o.items && EligibleLine(o, it, userId, productId, now))
    && !(exists r :: r in reviews && r.userId == userId && r.productId == productId)
  }

  function AnyEligibleLine(o: Order, items: seq<CartItem>, userId: string, productId: string, now: int): (b: bool)
    ensures b <==> exists it :: it in items && EligibleLine(o, it, userId, productId, now)
  {
    if |items| == 0 then false
    else
      EligibleLine(o, items[0], userId, productId, now) || AnyEligibleLine(o, items[1..], userId, productId, now)
  }

  function AnyEligibleOrder(orders: seq<Order>, userId: string, productId: string, now: int): (b: bool)
    ensures b <==> exists o, it :: o in orders && it in o.items && EligibleLine(o, it, userId, productId, now)
  {
    if |orders| == 0 then false
    else
      AnyEligibleLine(orders[0], orders[0].items, userId, productId, now)
      || AnyEligibleOrder(orders[1..], userId, productId, now)
  }

  function HasReviewed(reviews: seq<Review>, userId: string, productId: string): (b: bool)
    ensures b <==> exists r :: r in reviews && r.userId == userId && r.productId == productId
  {
    if |reviews| == 0 then false
    else
      (reviews[0].userId == userId && reviews[0].productId == productId)
      || HasReviewed(reviews[1..], userId, productId)
  }

  /** `canReview` once every query has answered: the nested `forEach` over
      the user's delivered orders and their lines, gated by the reviews
      query. */
  function CanReview(orders: seq<Order>, reviews: seq<Review>, userId: string, productId: string, now: int): (b: bool)
    ensures b <==> MayReview(orders, reviews, userId, productId, now)
  {
    !IsBlank(userId) && !IsBlank(productId)
      && AnyEligibleOrder(orders, userId, productId, now)
      && !HasReviewed(reviews, userId, productId)
  }

  /** A delivery stamped in the future counts as zero or negative days and
      so still lets the user review. */
  lemma FutureDeliveryEligible(o: Order, it: CartItem, now: int)
    requires o.status == STATUS_DELIVERED && o.deliveredAt.Some? && o.deliveredAt.value > now
    ensures EligibleLine(o, it, o.userId, it.productId, now)
  {
  }

  /** `doc.getLong("rating")?.toInt()` over the product's review documents,
      dropping the ones without a numeric rating. */
  function PresentRatings(docs: seq<Option<int>>): (rs: seq<int>)
    ensures |rs| <= |docs|
    ensures |rs| == 0 <==> forall d :: d in docs ==> d.None?
    ensures forall i :: 0 <= i < |rs| ==> InInt32(rs[i])
  {
    if |docs| == 0 then []
    else
      var rest := PresentRatings(docs[1..]);
      assert forall d :: d in docs[1..] ==> d in docs;
      assert forall d :: d in docs ==> d == docs[0] || d in docs[1..];
      match docs[0]
      case Some(v) => [Wrap32(v)] + rest
      case None => rest
  }

  /** The ratings of two runs of documents are those of the first run
      followed by those of the second. */
  lemma {:induction false} PresentRatingsAppend(a: seq<Option<int>>, b: seq<Option<int>>)
    ensures PresentRatings(a + b) == PresentRatings(a) + PresentRatings(b)
  {
    if |a| > 0 {
      assert (a + b)[0] == a[0];
      assert (a + b)[1..] == a[1..] + b;
      PresentRatingsAppend(a[1..], b);
    } else {
      assert a + b == b;
    }
  }

  /** A document with a rating contributes it as a 32-bit `Int`; one without
      contributes nothing. */
  lemma PresentRatingsSingle(d: Option<int>)
    ensures PresentRatings([d]) == match d case Some(v) => [Wrap32(v)] case None => []
  {
    assert [d][1..] == [];
  }

  function Sum(xs: seq<int>): int {
    if |xs| == 0 then 0 else xs[0] + Sum(xs[1..])
  }

  /** The fields written back to the product. */
  datatype RatingSummary = RatingSummary(rating: real, reviewCount: nat)

  /** `allReviews.average()` and `allReviews.size`, or no update at all when
      no review carries a rating. */
  function RatingUpdate(docs: seq<Option<int>>): (r: Option<RatingSummary>)
    ensures r.None? <==> forall d :: d in docs ==> d.None?
    ensures r.Some? ==> r.value.reviewCount == |PresentRatings(docs)| > 0
    ensures r.Some? ==> r.value.rating * (r.value.reviewCount as real) == Sum(PresentRatings(docs)) as real
  {
    var rs := PresentRatings(docs);
    if |rs| == 0 then None
    else Some(RatingSummary(Sum(rs) as real / |rs| as real, |rs|))
  }

  lemma {:induction false} SumBounds(xs: seq<int>, lo: int, hi: int)
    requires forall i :: 0 <= i < |xs| ==> lo <= xs[i] <= hi
    ensures |xs| * lo <= Sum(xs) <= |xs| * hi
  {
    if |xs| > 0 {
      SumBounds(xs[1..], lo, hi);
    }
  }

  /** When every stored rating is a star count 1..5, the recomputed rating is
      between 1 and 5. */
  lemma RatingWithinStars(docs: seq<Option<int>>)
    requires forall d :: d in docs && d.Some? ==> 1 <= d.value <= 5
    requires exists d :: d in docs && d.Some?
    ensures RatingUpdate(docs).Some?
    ensures 1.0 <= RatingUpdate(docs).value.rating <= 5.0
  {
    var rs := PresentRatings(docs);
    PresentInRange(docs);
    SumBounds(rs, 1, 5);
    MeanOfStars(|rs|, Sum(rs));
  }

  /** The mean of `n` star counts summing to `s` is between 1 and 5. */
  lemma MeanOfStars(n: int, s: int)
    requires 0 < n && n * 1 <= s <= n * 5
    ensures 1.0 <= s as real / n as real <= 5.0
  {
    var m := s as real / n as real;
    assert m * n as real == s as real;
    MeanBetween(m, n as real, s as real, 1.0, 5.0);
  }

  lemma MeanBetween(m: real, n: real, s: real, lo: real, hi: real)
    requires n > 0.0 && m * n == s && lo * n <= s <= hi * n
    ensures lo <= m <= hi
  {
  }

  lemma {:induction false} PresentInRange(docs: seq<Option<int>>)
    requires forall d :: d in docs && d.Some? ==> 1 <= d.value <= 5
    ensures forall i :: 0 <= i < |PresentRatings(docs)| ==> 1 <= PresentRatings(docs)[i] <= 5
  {
    if |docs| > 0 {
      assert forall d :: d in docs[1..] ==> d in docs;
      PresentInRange(docs[1..]);
    }
  }

  /** The number of stars, as offered by `(1..5).forEach`. */
  type Star = s: int | 1 <= s <= 5 witness 5

  /** `ReviewDialog`'s state. */
  datatype ReviewForm = ReviewForm(rating: int, comment: string, loading: bool)

  const REVIEW_START := ReviewForm(5, "", false)

  datatype ReviewEvent = ClickStar(star: Star) | EditComment(text: string) | Submit | SubmitFailed

  /** The "Gửi" button. */
  predicate SubmitEnabled(f: ReviewForm) {
    !f.loading && !IsBlank(f.comment)
  }

  function ReviewStep(f: ReviewForm, e: ReviewEvent): (g: ReviewForm)
    ensures e.ClickStar? ==> g.rating == e.star
    ensures !e.ClickStar? ==> g.rating == f.rating
    ensures e.Submit? ==> (g.loading <==> f.loading || SubmitEnabled(f))
  {
    match e
    case ClickStar(s) => f.(rating := s)
    case EditComment(t) => f.(comment := t)
    case Submit => if SubmitEnabled(f) then f.(loading := true) else f
    case SubmitFailed => f.(loading := false)
  }

  function ReviewRun(f: ReviewForm, es: seq<ReviewEvent>): ReviewForm
    decreases |es|
  {
    if |es| == 0 then f else ReviewRun(ReviewStep(f, es[0]), es[1..])
  }

  /** The rating starts at 5 and only ever holds a star count 1..5. */
  lemma {:induction false} ReviewRatingInStars(f: ReviewForm, es: seq<ReviewEvent>)
    requires 1 <= f.rating <= 5
    ensures 1 <= ReviewRun(f, es).rating <= 5
    decreases |es|
  {
    if |es| > 0 {
      ReviewRatingInStars(ReviewStep(f, es[0]), es[1..]);
    }
  }

  lemma ReviewDialogRating(es: seq<ReviewEvent>)
    ensures 1 <= ReviewRun(REVIEW_START, es).rating <= 5
  {
    ReviewRatingInStars(REVIEW_START, es);
  }

  /** A `favorites` document. */
  datatype Favorite = Favorite(userId: string, productId: string, addedAt: int)

  predicate IsMatch(f: Favorite, userId: string, productId: string) {
    f.userId == userId && f.productId == productId
  }

  function Unfavorite(favs: seq<Favorite>, userId: string, productId: string): (r: seq<Favorite>)
    ensures forall f :: f in r <==> f in favs && !IsMatch(f, userId, productId)
  {
    if |favs| == 0 then []
    else
      var rest := Unfavorite(favs[1..], userId, productId);
      assert forall f :: f in favs <==> f == favs[0] || f in favs[1..];
      if IsMatch(favs[0], userId, productId) then rest else [favs[0]] + rest
  }

  /** The heart button (shown only to a signed-in user): when the product is
      a favourite every matching record is deleted and the flag clears,
      otherwise one record is added and the flag sets. */
  function ToggleFavorite(favs: seq<Favorite>, isFavorite: bool, userId: string, productId: string, now: int)
    : (r: (seq<Favorite>, bool))
    ensures IsBlank(userId) ==> r == (favs, isFavorite)
    ensures !IsBlank(userId) ==> r.1 == !isFavorite
    ensures !IsBlank(userId) && isFavorite ==>
      forall f :: f in r.0 <==> f in favs && !IsMatch(f, userId, productId)
    ensures !IsBlank(userId) && !isFavorite ==> r.0 == favs + [Favorite(userId, productId, now)]
  {
    if IsBlank(userId) then (favs, isFavorite)
    else if isFavorite then (Unfavorite(favs, userId, productId), false)
    else (favs + [Favorite(userId, productId, now)], true)
  }

  /** The flag matches the store: it is set exactly when a matching record
      exists. */
  ghost predicate FlagAgrees(favs: seq<Favorite>, isFavorite: bool, userId: string, productId: string) {
    isFavorite <==> exists f :: f in favs && IsMatch(f, userId, productId)
  }

  /** The toggle keeps the flag in agreement with the records. */
  lemma ToggleKeepsFlag(favs: seq<Favorite>, isFavorite: bool, userId: string, productId: string, now: int)
    requires FlagAgrees(favs, isFavorite, userId, productId)
    ensures FlagAgrees(ToggleFavorite(favs, isFavorite, userId, productId, now).0,
      ToggleFavorite(favs, isFavorite, userId, productId, now).1, userId, productId)
  {
    if !IsBlank(userId) && !isFavorite {
      var f := Favorite(userId, productId, now);
      assert f in favs + [f];
    }
  }
}

=== FILE: profile.dfy ===
/** The profile screen (ui/screens/ProfileScreen.kt): the texts shown for the
    user, the guards of the password, email and phone dialogs, and what a
    successful change writes into the user shown. */
module Profile {
  import opened Wrappers
  import opened Model
  import opened Text
  import Register

  /** Shown in place of a blank name, phone or missing email. */
  const NOT_SET := "Chưa cập nhật"

  lemma NotSetNotBlank()
    ensures !IsBlank(NOT_SET)
  {
    assert !IsWhitespace(NOT_SET[0]);
  }

  /** Kotlin `ifBlank`. */
  function IfBlank(s: string, fallback: string): (r: string)
    ensures !IsBlank(s) ==> r == s
    ensures IsBlank(s) ==> r == fallback
  {
    if IsBlank(s) then fallback else s
  }

  /** The name line of the profile card. */
  function NameText(u: User): string {
    IfBlank(u.name, NOT_SET)
  }

  /** The email line: the profile's email, else the signed-in account's
      email, else the placeholder. */
  function EmailText(u: User, authEmail: Option<string>): string {
    "Email: " + IfBlank(u.email, authEmail.GetOr(NOT_SET))
  }

  function PhoneText(u: User): string {
    "Số điện thoại: " + IfBlank(u.phone, NOT_SET)
  }

  /** The name and phone lines never show a blank value, and the email line
      shows a blank value only when the profile's email is blank and the
      account's email is a blank string. */
  lemma DisplayNeverBlank(u: User, authEmail: Option<string>)
    ensures !IsBlank(NameText(u))
    ensures !IsBlank(PhoneText(u)[|"Số điện thoại: "|..])
    ensures IsBlank(EmailText(u, authEmail)[|"Email: "|..]) <==>
      IsBlank(u.email) && authEmail.Some? && IsBlank(authEmail.value)
  {
    NotSetNotBlank();
    assert PhoneText(u)[|"Số điện thoại: "|..] == IfBlank(u.phone, NOT_SET);
    assert EmailText(u, authEmail)[|"Email: "|..] == IfBlank(u.email, authEmail.GetOr(NOT_SET));
  }

  const MSG_MISMATCH := "Mật khẩu xác nhận không khớp"
  const MSG_SHORT := "Mật khẩu phải có ít nhất 6 ký tự"

  /** What the "Đổi mật khẩu" button does with the typed passwords: report
      an error and stop, or start reauthentication. */
  datatype PasswordClick = Refuse(message: string) | Reauthenticate(newPassword: string)

  function ChangePasswordClick(newPassword: string, confirmPassword: string): (r: PasswordClick)
    ensures r.Reauthenticate? <==>
      newPassword == confirmPassword && |newPassword| >= Register.MIN_PASSWORD_LENGTH
    ensures r.Reauthenticate? ==> r.newPassword == newPassword
    ensures newPassword != confirmPassword ==> r == Refuse(MSG_MISMATCH)
  {
    if newPassword != confirmPassword then Refuse(MSG_MISMATCH)
    else if |newPassword| < Register.MIN_PASSWORD_LENGTH then Refuse(MSG_SHORT)
    else Reauthenticate(newPassword)
  }

  /** The dialog lets through exactly the non-blank passwords the
      registration form accepts, but where both rules fail it names the
      mismatch, while the registration form names the length. */
  lemma PasswordRulesAgree(f: Register.RegisterForm)
    requires !IsBlank(f.name) && !IsBlank(f.email) && !IsBlank(f.password)
    ensures ChangePasswordClick(f.password, f.confirmPassword).Reauthenticate?
        <==> Register.Validate(f).None?
    ensures f.password != f.confirmPassword && |f.password| < Register.MIN_PASSWORD_LENGTH ==>
      ChangePasswordClick(f.password, f.confirmPassword) == Refuse(MSG_MISMATCH)
      && Register.Validate(f) == Some(Register.MSG_SHORT)
  {
  }

  /** Whether the "Đổi email" button can be pressed. */
  predicate EmailButtonEnabled(isLoading: bool, newEmail: string, password: string) {
    !isLoading && !IsBlank(newEmail) && !IsBlank(password)
  }

  /** What the phone dialog's "Lưu" button does: report an error, or write
      the typed phone (as typed, not trimmed). */
  datatype PhoneClick = PhoneError(message: string) | UpdatePhone(phone: string)

  const MSG_PHONE := "Vui lòng nhập số điện thoại"

  function ChangePhoneClick(newPhone: string): (r: PhoneClick)
    ensures r.UpdatePhone? <==> !IsBlank(newPhone)
    ensures r.UpdatePhone? ==> r.phone == newPhone
    ensures r.PhoneError? ==> r.message == MSG_PHONE
  {
    if IsBlank(newPhone) then PhoneError(MSG_PHONE) else UpdatePhone(newPhone)
  }

  /** `onSuccess` of the email dialog: only the email of the shown user changes. */
  function EmailChanged(u: User, newEmail: string): (r: User)
    ensures r.email == newEmail
    ensures r.(email := u.email) == u
  {
    u.(email := newEmail)
  }

  /** `onSuccess` of the phone dialog: only the phone of the shown user changes. */
  function PhoneChanged(u: User, newPhone: string): (r: User)
    ensures r.phone == newPhone
    ensures r.(phone := u.phone) == u
  {
    u.(phone := newPhone)
  }

  /** After an email change the button allowed, the card shows the new email;
      the other lines are as before. */
  lemma EmailChangeShown(u: User, authEmail: Option<string>, newEmail: string, password: string)
    requires EmailButtonEnabled(false, newEmail, password)
    ensures EmailText(EmailChanged(u, newEmail), authEmail) == "Email: " + newEmail
    ensures NameText(EmailChanged(u, newEmail)) == NameText(u)
    ensures PhoneText(EmailChanged(u, newEmail)) == PhoneText(u)
  {
  }

  /** After a phone change the button let through, the card shows the typed
      phone; the other lines are as before. */
  lemma PhoneChangeShown(u: User, authEmail: Option<string>, newPhone: string)
    requires ChangePhoneClick(newPhone).UpdatePhone?
    ensures PhoneText(PhoneChanged(u, ChangePhoneClick(newPhone).phone)) == "Số điện thoại: " + newPhone
    ensures NameText(PhoneChanged(u, newPhone)) == NameText(u)
    ensures EmailText(PhoneChanged(u, newPhone), authEmail) == EmailText(u, authEmail)
  {
  }

  /** The email shown as current in the email dialog. */
  function CurrentEmail(u: User, authEmail: Option<string>): (r: string)
    ensures !IsBlank(u.email) ==> r == u.email
    ensures IsBlank(u.email) ==> r == authEmail.GetOr("")
  {
    IfBlank(u.email, authEmail.GetOr(""))
  }

  /** The dialog's current email is what the card shows, except that the card
      shows the placeholder where the dialog shows nothing. */
  lemma CurrentEmailMatchesCard(u: User, authEmail: Option<string>)
    ensures (!IsBlank(u.email) || authEmail.Some?) ==>
      EmailText(u, authEmail) == "Email: " + CurrentEmail(u, authEmail)
    ensures IsBlank(u.email) && authEmail.None? ==>
      EmailText(u, authEmail) == "Email: " + NOT_SET && CurrentEmail(u, authEmail) == ""
  {
  }
}

=== FILE: register.dfy ===
/** Account creation (RegisterScreen.kt): the ordered validation of the form,
    the sign-up request, the user document written after it, and the error
    and loading state the screen shows. */
module Register {
  import opened Wrappers
  import opened Model
  import opened Text

  datatype RegisterForm = RegisterForm(
    name: string,
    email: string,
    password: string,
    confirmPassword: string,
    phone: string)

  const MIN_PASSWORD_LENGTH := 6

  const MSG_NAME := "Vui lòng nhập tên của bạn."
  const MSG_EMAIL := "Vui lòng nhập email."
  const MSG_PASSWORD := "Vui lòng nhập mật khẩu."
  const MSG_SHORT := "Mật khẩu phải có ít nhất 6 ký tự."
  const MSG_MISMATCH := "Mật khẩu xác nhận không khớp."

  /** The five checks of `handleRegister`, in order: whether each one fails
      on the form, and the message it reports. */
  function Checks(f: RegisterForm): seq<(bool, string)> {
    [ (IsBlank(f.name), MSG_NAME),
      (IsBlank(f.email), MSG_EMAIL),
      (IsBlank(f.password), MSG_PASSWORD),
      (|f.password| < MIN_PASSWORD_LENGTH, MSG_SHORT),
      (f.password != f.confirmPassword, MSG_MISMATCH) ]
  }

  /** Check `i` fails and every check before it passes. */
  predicate FailsFirstAt(checks: seq<(bool, string)>, i: int) {
    0 <= i < |checks| && checks[i].0 && forall j :: 0 <= j < i ==> !checks[j].0
  }

  /** The message of the first failing check, if any. */
  function FirstFailure(checks: seq<(bool, string)>): (r: Option<string>)
    ensures r.None? <==> forall i :: 0 <= i < |checks| ==> !checks[i].0
    ensures r.Some? ==> exists i :: FailsFirstAt(checks, i) && checks[i].1 == r.value
  {
    if |checks| == 0 then None
    else if checks[0].0 then
      assert FailsFirstAt(checks, 0);
      Some(checks[0].1)
    else
      var rest := FirstFailure(checks[1..]);
      FirstFailureShift(checks, rest);
      rest
  }

  lemma FirstFailureShift(checks: seq<(bool, string)>, rest: Option<string>)
    requires |checks| > 0 && !checks[0].0
    requires rest.Some? ==> exists i :: FailsFirstAt(checks[1..], i) && checks[1..][i].1 == rest.value
    ensures rest.Some? ==> exists i :: FailsFirstAt(checks, i) && checks[i].1 == rest.value
  {
    if rest.Some? {
      var i :| FailsFirstAt(checks[1..], i) && checks[1..][i].1 == rest.value;
      assert forall j :: 1 <= j < i + 1 ==> checks[j] == checks[1..][j - 1];
      assert FailsFirstAt(checks, i + 1);
    }
  }

  /** The `when` of `handleRegister`: the message it sets, or none when every
      check passes. */
  function Validate(f: RegisterForm): (r: Option<string>)
    ensures r.None? <==>
      (!IsBlank(f.name) && !IsBlank(f.email) && !IsBlank(f.password)
       && |f.password| >= MIN_PASSWORD_LENGTH && f.password == f.confirmPassword)
  {
    if IsBlank(f.name) then Some(MSG_NAME)
    else if IsBlank(f.email) then Some(MSG_EMAIL)
    else if IsBlank(f.password) then Some(MSG_PASSWORD)
    else if |f.password| < MIN_PASSWORD_LENGTH then Some(MSG_SHORT)
    else if f.password != f.confirmPassword then Some(MSG_MISMATCH)
    else None
  }

  /** The message reported is that of the first failing check in the fixed
      order: a later check is never reported while an earlier one fails. */
  lemma ValidateReportsFirst(f: RegisterForm)
    ensures Validate(f) == FirstFailure(Checks(f))
  {
    var cs := Checks(f);
    assert cs[1..] == [cs[1], cs[2], cs[3], cs[4]];
    assert cs[1..][1..] == [cs[2], cs[3], cs[4]];
    assert cs[1..][1..][1..] == [cs[3], cs[4]];
    assert cs[1..][1..][1..][1..] == [cs[4]];
    assert cs[1..][1..][1..][1..][1..] == [];
  }

  /** What the screen shows: the error, and whether the spinner runs. */
  datatype RegisterState = RegisterState(errorMessage: Option<string>, isLoading: bool)

  /** The sign-up call `createUserWithEmailAndPassword`. */
  datatype SignUp = SignUp(email: string, password: string)

  /** `handleRegister`: the screen state when it returns, and the sign-up it
      starts. The length check reads the password as typed, the sign-up
      sends it trimmed. */
  function HandleRegister(f: RegisterForm): (r: (RegisterState, Option<SignUp>))
    ensures r.1.Some? <==> Validate(f).None?
    ensures r.0.errorMessage == Validate(f)
    ensures r.0.isLoading <==> r.1.Some?
    ensures r.1.Some? ==> r.1.value == SignUp(Trim(f.email), Trim(f.password))
    ensures r.1.Some? ==> !IsBlank(r.1.value.email) && !IsBlank(r.1.value.password)
  {
    match Validate(f)
    case Some(message) => (RegisterState(Some(message), false), None)
    case None =>
      TrimBlank(f.email);
      TrimBlank(f.password);
      (RegisterState(None, true), Some(SignUp(Trim(f.email), Trim(f.password))))
  }

  /** The document written to `users/{uid}` after a successful sign-up, read
      back as a `User`: trimmed name, email and phone, role "user". */
  function UserRecord(f: RegisterForm, uid: string): (u: User)
    ensures u.id == uid && u.role == "user" && u.avatarUrl == ""
    ensures IsTrimmed(u.name) && IsTrimmed(u.email) && IsTrimmed(u.phone)
    ensures u.name == Trim(f.name) && u.email == Trim(f.email) && u.phone == Trim(f.phone)
  {
    User(uid, Trim(f.email), Trim(f.name), Trim(f.phone), "user", "")
  }

  /** The failure callbacks: the sign-up failing, or the user document not
      being written. */
  datatype Failure = SignUpFailed(reason: string) | WriteFailed(reason: string)

  function OnFailure(s: RegisterState, e: Failure): (r: RegisterState)
    ensures r.errorMessage.Some? && !r.isLoading
  {
    match e
    case SignUpFailed(reason) => RegisterState(Some("Đăng ký thất bại: " + reason), false)
    case WriteFailed(reason) => RegisterState(Some("Lỗi tạo tài khoản: " + reason), false)
  }

  /** An error on screen never comes with a running spinner. */
  predicate ErrorStopsLoading(s: RegisterState) {
    s.errorMessage.Some? ==> !s.isLoading
  }

  /** Every way the screen state changes keeps an error from showing beside
      the spinner. */
  lemma RegisterKeepsErrorStopsLoading(f: RegisterForm, s: RegisterState, e: Failure)
    ensures ErrorStopsLoading(HandleRegister(f).0)
    ensures ErrorStopsLoading(OnFailure(s, e))
  {
  }

  /** The password check as the rest of the form reads it: the trimmed
      password that is sent must have the minimum length. */
  function ValidateTrimmed(f: RegisterForm): (r: Option<string>)
    ensures r.None? <==> Validate(f).None? && |Trim(f.password)| >= MIN_PASSWORD_LENGTH
  {
    match Validate(f)
    case Some(message) => Some(message)
    case None => if |Trim(f.password)| < MIN_PASSWORD_LENGTH then Some(MSG_SHORT) else None
  }

  /** `handleRegister` with the length check on the password that is sent. */
  function HandleRegisterTrimmed(f: RegisterForm): (r: (RegisterState, Option<SignUp>))
    ensures r.1.Some? <==> ValidateTrimmed(f).None?
    ensures r.0.errorMessage == ValidateTrimmed(f) && (r.0.isLoading <==> r.1.Some?)
    ensures r.1.Some? ==> r.1.value == SignUp(Trim(f.email), Trim(f.password))
    ensures r.1.Some? ==> |r.1.value.password| >= MIN_PASSWORD_LENGTH
  {
    match ValidateTrimmed(f)
    case Some(message) => (RegisterState(Some(message), false), None)
    case None => (RegisterState(None, true), Some(SignUp(Trim(f.email), Trim(f.password))))
  }

  /** A trimmed password of five characters followed by a space passes every
      check, and the sign-up receives the five characters alone. */
  lemma PaddedPasswordSent(f: RegisterForm, p: string)
    requires !IsBlank(f.name) && !IsBlank(f.email)
    requires |p| == MIN_PASSWORD_LENGTH - 1 && !IsBlank(p) && IsTrimmed(p)
    requires f.password == p + " " && f.confirmPassword == f.password
    ensures HandleRegister(f).1 == Some(SignUp(Trim(f.email), p))
    ensures |p| < MIN_PASSWORD_LENGTH
  {
    assert !IsBlank(f.password) by {
      var k :| 0 <= k < |p| && !IsWhitespace(p[k]);
      assert f.password[k] == p[k];
    }
    assert TrimStart(f.password) == f.password;
    assert f.password[..|f.password| - 1] == p;
    assert TrimEnd(f.password) == TrimEnd(p);
  }

  /** As written, the password "abcde " passes the length check and is sent
      as "abcde", one character short of the minimum. */
  lemma ShortPasswordSent()
    ensures HandleRegister(RegisterForm("An", "an@shop.vn", "abcde ", "abcde ", "")).1
         == Some(SignUp("an@shop.vn", "abcde"))
  {
    var f := RegisterForm("An", "an@shop.vn", "abcde ", "abcde ", "");
    assert !IsWhitespace(f.name[0]) && !IsWhitespace(f.email[0]);
    assert !IsWhitespace("abcde"[0]) && !IsWhitespace("abcde"[4]);
    assert f.password == "abcde" + " ";
    assert IsTrimmed(f.email);
    PaddedPasswordSent(f, "abcde");
  }

  /** With the corrected check, every password sent has the minimum length,
      and forms the original accepts with an unpadded password are accepted
      alike. */
  lemma TrimmedCheckAgrees(f: RegisterForm)
    requires IsTrimmed(f.password)
    ensures HandleRegisterTrimmed(f) == HandleRegister(f)
  {
  }
}

=== FILE: router.dfy ===
/** The navigation of `ThigiuakiApp` (MainActivity.kt): the `Screen` sealed
    class as a state machine, with the callbacks each screen is given as its
    events, and the cart line the add-to-cart callback writes. */
module Router {
  import opened Wrappers
  import opened Model

  datatype Screen =
    | RoleSelection
    | AdminLogin
    | CustomerLogin
    | Register
    | AdminManager
    | CustomerHome
    | ProductDetails(productId: string)
    | Cart
    | Checkout
    | OrderHistory
    | Wishlist
    | Message(orderId: string, otherUserId: string, otherUserName: string)

  /** The callbacks the screens invoke. */
  datatype Event =
    | AdminSelected
    | CustomerSelected
    | LoginSuccess(role: string)
    | RegisterClick
    | RegisterSuccess
    | Back
    | Logout
    | OpenProduct(productId: string)
    | OpenCheckout
    | OpenWishlist
    | OpenMessage(orderId: string, otherUserId: string, otherUserName: string)
    | AddToCart(product: Product, size: string, color: string)
    | OrderPlaced

  const START: Screen := RoleSelection

  /** The screen the "back" callback of a screen leads to, for the screens
      that are given one. */
  function BackOf(s: Screen): Option<Screen> {
    match s
    case AdminLogin => Some(RoleSelection)
    case CustomerLogin => Some(RoleSelection)
    case Register => Some(CustomerLogin)
    case ProductDetails(_) => Some(CustomerHome)
    case Checkout => Some(Cart)
    case Message(_, _, _) => Some(OrderHistory)
    case Wishlist => Some(CustomerHome)
    case _ => None
  }

  /** The line `onAddToCart` adds to the `cart` collection: one unit of the
      product in the chosen size and colour, for the signed-in user. */
  function NewCartLine(p: Product, size: string, color: string, userId: string): (c: CartItem)
    ensures c.quantity == 1 && c.userId == userId && c.id == ""
    ensures c.productId == p.id && c.productName == p.name
    ensures c.productImageUrl == p.imageUrl && c.price == p.price
    ensures c.selectedSize == size && c.selectedColor == color
  {
    CartItem("", p.id, p.name, p.imageUrl, p.price, 1, size, color, userId)
  }

  /** One callback on the current screen, given the cart the listener last
      loaded and the signed-in user: the next screen, and the cart line
      written, if any. A callback the current screen is not given changes
      nothing. */
  function Step(s: Screen, e: Event, cart: seq<CartItem>, user: Option<string>): (Screen, Option<CartItem>) {
    match (s, e)
    case (RoleSelection, AdminSelected) => (AdminLogin, None)
    case (RoleSelection, CustomerSelected) => (CustomerLogin, None)
    case (AdminLogin, LoginSuccess(role)) => (if role == "admin" then AdminManager else CustomerHome, None)
    case (CustomerLogin, LoginSuccess(_)) => (CustomerHome, None)
    case (CustomerLogin, RegisterClick) => (Register, None)
    case (Register, RegisterSuccess) => (CustomerHome, None)
    case (AdminManager, Logout) => (RoleSelection, None)
    case (CustomerHome, Logout) => (RoleSelection, None)
    case (CustomerHome, OpenProduct(id)) => (ProductDetails(id), None)
    case (Cart, OpenProduct(id)) => (ProductDetails(id), None)
    case (Wishlist, OpenProduct(id)) => (ProductDetails(id), None)
    case (CustomerHome, OpenCheckout) => (if |cart| > 0 then Checkout else s, None)
    case (Cart, OpenCheckout) => (if |cart| > 0 then Checkout else s, None)
    case (CustomerHome, OpenWishlist) => (Wishlist, None)
    case (CustomerHome, OpenMessage(o, u, n)) => (Message(o, u, n), None)
    case (OrderHistory, OpenMessage(o, u, n)) => (Message(o, u, n), None)
    case (ProductDetails(_), AddToCart(p, size, color)) =>
      (match user
       case None => (s, None)
       case Some(uid) => (CustomerHome, Some(NewCartLine(p, size, color, uid))))
    case (Checkout, OrderPlaced) => (CustomerHome, None)
    case (_, Back) => (BackOf(s).GetOr(s), None)
    case _ => (s, None)
  }

  /** The callbacks that leave the screen and write nothing. */
  lemma StepEdges(s: Screen, cart: seq<CartItem>, user: Option<string>)
    ensures Step(AdminManager, Logout, cart, user).0 == RoleSelection
    ensures Step(CustomerHome, Logout, cart, user).0 == RoleSelection
    ensures forall role ::
      Step(AdminLogin, LoginSuccess(role), cart, user).0 == (if role == "admin" then AdminManager else CustomerHome)
    ensures forall role :: Step(CustomerLogin, LoginSuccess(role), cart, user).0 == CustomerHome
    ensures Step(Checkout, OrderPlaced, cart, user).0 == CustomerHome
    ensures BackOf(s).Some? ==> Step(s, Back, cart, user) == (BackOf(s).value, None)
  {
  }

  /** Checkout is entered only with a non-empty cart; with an empty one the
      checkout callbacks leave the screen as it is. */
  lemma CheckoutNeedsCart(s: Screen, e: Event, cart: seq<CartItem>, user: Option<string>)
    ensures Step(s, e, cart, user).0 == Checkout && s != Checkout ==> |cart| > 0
    ensures e == OpenCheckout && |cart| == 0 ==> Step(s, e, cart, user).0 == s
  {
  }

  /** Add-to-cart from a product page writes exactly the new line and goes
      home when a user is signed in, and does nothing otherwise; no other
      callback writes. */
  lemma AddToCartWrites(s: Screen, e: Event, cart: seq<CartItem>, user: Option<string>)
    ensures Step(s, e, cart, user).1.Some? <==> s.ProductDetails? && e.AddToCart? && user.Some?
    ensures s.ProductDetails? && e.AddToCart? && user.Some? ==>
      Step(s, e, cart, user) == (CustomerHome, Some(NewCartLine(e.product, e.size, e.color, user.value)))
    ensures s.ProductDetails? && e.AddToCart? && user.None? ==> Step(s, e, cart, user) == (s, None)
  {
  }

  /** The admin manager is entered only from the admin login with role
      "admin"; the cart and order-history screens only by going back. */
  lemma GuardedEntries(s: Screen, e: Event, cart: seq<CartItem>, user: Option<string>)
    ensures Step(s, e, cart, user).0 == AdminManager && s != AdminManager ==>
      s == AdminLogin && e == LoginSuccess("admin")
    ensures Step(s, e, cart, user).0 == Cart && s != Cart ==> s == Checkout && e == Back
    ensures Step(s, e, cart, user).0 == OrderHistory && s != OrderHistory ==> s.Message? && e == Back
  {
  }

  /** What the app sees at each step: the callback, the cart last loaded and
      the signed-in user. */
  datatype Input = Input(event: Event, cart: seq<CartItem>, user: Option<string>)

  /** The screen after a run of callbacks from the start screen. */
  function Run(inputs: seq<Input>): Screen {
    if |inputs| == 0 then START
    else
      var last := inputs[|inputs| - 1];
      Step(Run(inputs[..|inputs| - 1]), last.event, last.cart, last.user).0
  }

  /** The cart lines a run writes, in order. */
  function Writes(inputs: seq<Input>): (w: seq<CartItem>)
    ensures |w| <= |inputs|
  {
    if |inputs| == 0 then []
    else
      var last := inputs[|inputs| - 1];
      var before := inputs[..|inputs| - 1];
      var written := Step(Run(before), last.event, last.cart, last.user).1;
      Writes(before) + (if written.Some? then [written.value] else [])
  }

  /** A run that reaches the admin manager has logged in with role "admin". */
  lemma {:induction false} AdminNeedsAdminRole(inputs: seq<Input>)
    requires Run(inputs) == AdminManager
    ensures exists i :: 0 <= i < |inputs| && inputs[i].event == LoginSuccess("admin")
  {
    var before := inputs[..|inputs| - 1];
    var last := inputs[|inputs| - 1];
    if Run(before) == AdminManager {
      AdminNeedsAdminRole(before);
      var i :| 0 <= i < |before| && before[i].event == LoginSuccess("admin");
      assert inputs[i] == before[i];
    } else {
      GuardedEntries(Run(before), last.event, last.cart, last.user);
    }
  }

  /** Every line a run writes is one unit for a signed-in user. */
  lemma {:induction false} WritesAreSingleUnits(inputs: seq<Input>)
    ensures forall k :: 0 <= k < |Writes(inputs)| ==> Writes(inputs)[k].quantity == 1
    ensures forall k :: 0 <= k < |Writes(inputs)| ==>
      exists i :: 0 <= i < |inputs| && inputs[i].user == Some(Writes(inputs)[k].userId)
  {
    if |inputs| > 0 {
      var before := inputs[..|inputs| - 1];
      var last := inputs[|inputs| - 1];
      WritesAreSingleUnits(before);
      var w := Writes(inputs);
      var step := Step(Run(before), last.event, last.cart, last.user);
      AddToCartWrites(Run(before), last.event, last.cart, last.user);
      assert w == Writes(before) + (if step.1.Some? then [step.1.value] else []);
      forall k | 0 <= k < |w|
        ensures w[k].quantity == 1
        ensures exists i :: 0 <= i < |inputs| && inputs[i].user == Some(w[k].userId)
      {
        if k < |Writes(before)| {
          assert w[k] == Writes(before)[k];
          var i :| 0 <= i < |before| && before[i].user == Some(Writes(before)[k].userId);
          assert inputs[i] == before[i];
          assert inputs[i].user == Some(w[k].userId);
        } else {
          assert w[k] == step.1.value;
          var j := |inputs| - 1;
          assert inputs[j].user == Some(w[k].userId);
        }
      }
    } else {
      assert Writes(inputs) == [];
    }
  }
}

=== FILE: seqs.dfy ===
/** Sequence helpers mirroring the Kotlin collection operations the screens
    use: `filter`, `take`, `distinct`, `flatMap` and `indexOf`. */
module Seqs {

  /** Kotlin `filter`: keeps the elements satisfying `p`, in their original order. */
  function Filter<T(!new)>(s: seq<T>, p: T -> bool): (r: seq<T>)
    ensures |r| <= |s|
    ensures forall i :: 0 <= i < |r| ==> p(r[i])
    ensures forall x {:trigger multiset(r)[x]} ::
      multiset(r)[x] == (if p(x) then multiset(s)[x] else 0)
  {
    if |s| == 0 then []
    else
      var rest := Filter(s[1..], p);
      assert s == [s[0]] + s[1..];
      if p(s[0]) then [s[0]] + rest else rest
  }

  /** Membership in a filtered sequence, derived from the multiset contract. */
  lemma FilterMembership<T(!new)>(s: seq<T>, p: T -> bool, x: T)
    ensures x in Filter(s, p) <==> x in s && p(x)
  {
    var r := Filter(s, p);
    assert x in r <==> multiset(r)[x] > 0;
    assert x in s <==> multiset(s)[x] > 0;
  }

  lemma {:induction false} FilterAppend<T(!new)>(a: seq<T>, b: seq<T>, p: T -> bool)
    ensures Filter(a + b, p) == Filter(a, p) + Filter(b, p)
  {
    if |a| == 0 {
      assert a + b == b;
    } else {
      assert (a + b)[1..] == a[1..] + b;
      FilterAppend(a[1..], b, p);
    }
  }

  /** A predicate that holds of every element leaves the sequence unchanged. */
  lemma {:induction false} FilterAll<T(!new)>(s: seq<T>, p: T -> bool)
    requires forall i :: 0 <= i < |s| ==> p(s[i])
    ensures Filter(s, p) == s
  {
    if |s| > 0 {
      FilterAll(s[1..], p);
    }
  }

  /** Kotlin `filter` keeps relative order: any relation holding between all
      ordered pairs of the input holds between all ordered pairs of the output. */
  lemma {:induction false} FilterKeepsOrder<T(!new)>(s: seq<T>, p: T -> bool, before: (T, T) -> bool)
    requires forall i, j :: 0 <= i < j < |s| ==> before(s[i], s[j])
    ensures forall i, j :: 0 <= i < j < |Filter(s, p)| ==> before(Filter(s, p)[i], Filter(s, p)[j])
  {
    if |s| > 0 {
      var rest := Filter(s[1..], p);
      FilterKeepsOrder(s[1..], p, before);
      if p(s[0]) {
        forall j | 0 <= j < |rest|
          ensures before(s[0], rest[j])
        {
          assert multiset(rest)[rest[j]] > 0;
          assert rest[j] in s[1..];
          var k :| 0 <= k < |s[1..]| && s[1..][k] == rest[j];
          assert s[k + 1] == rest[j];
        }
        var r := Filter(s, p);
        assert r == [s[0]] + rest;
        forall i, j | 0 <= i < j < |r|
          ensures before(r[i], r[j])
        {
          assert r[j] == rest[j - 1];
          if i > 0 {
            assert r[i] == rest[i - 1];
          }
        }
      } else {
        assert Filter(s, p) == rest;
      }
    }
  }

  /** Kotlin `take(n)`. */
  function Take<T>(s: seq<T>, n: nat): (r: seq<T>)
    ensures |r| == (if n < |s| then n else |s|)
    ensures r <= s
    ensures multiset(r) <= multiset(s)
  {
    if n < |s| then
      assert s == s[..n] + s[n..];
      s[..n]
    else s
  }

  /** Kotlin `flatMap` after `map`: concatenation of the inner sequences. */
  function Flatten<T(!new)>(ss: seq<seq<T>>): (r: seq<T>)
    ensures forall x :: x in r <==> exists i :: 0 <= i < |ss| && x in ss[i]
  {
    if |ss| == 0 then []
    else
      var rest := Flatten(ss[..|ss| - 1]);
      assert forall i :: 0 <= i < |ss| - 1 ==> ss[..|ss| - 1][i] == ss[i];
      rest + ss[|ss| - 1]
  }

  predicate NoDuplicates<T(==)>(s: seq<T>) {
    forall i, j :: 0 <= i < j < |s| ==> s[i] != s[j]
  }

  /** Kotlin `indexOf`: the position of the first occurrence of `x`, or
      `|s|` (in place of Kotlin's -1) when there is none. */
  function IndexOf<T(==)>(s: seq<T>, x: T): (k: nat)
    ensures k <= |s|
    ensures k < |s| <==> x in s
    ensures k < |s| ==> s[k] == x
    ensures forall i :: 0 <= i < k ==> s[i] != x
  {
    if |s| == 0 then 0
    else if s[0] == x then 0
    else 1 + IndexOf(s[1..], x)
  }

  /** Kotlin `distinct`: keeps the first occurrence of every value. */
  function Distinct<T(==,!new)>(s: seq<T>): (r: seq<T>)
    ensures NoDuplicates(r)
    ensures forall x :: x in r <==> x in s
    ensures forall i, j :: 0 <= i < j < |r| ==> IndexOf(s, r[i]) < IndexOf(s, r[j])
  {
    if |s| == 0 then []
    else
      var init := s[..|s| - 1];
      var last := s[|s| - 1];
      var d := Distinct(init);
      IndexOfInit(s, init);
      if last in d then d
      else
        DistinctSnoc(s, d, d + [last]);
        d + [last]
  }

  /** Positions of values already in all but the last element are found
      there. */
  lemma IndexOfInit<T>(s: seq<T>, init: seq<T>)
    requires |s| > 0 && init == s[..|s| - 1]
    ensures forall x :: x in init ==> x in s && IndexOf(s, x) == IndexOf(init, x)
  {
    forall x | x in init
      ensures x in s && IndexOf(s, x) == IndexOf(init, x)
    {
      var k := IndexOf(init, x);
      assert s[k] == x;
      IndexOfPrefix(s, |s| - 1, x);
    }
  }

  /** A last value not met before is found at the end. */
  lemma IndexOfNewLast<T>(s: seq<T>)
    requires |s| > 0 && s[|s| - 1] !in s[..|s| - 1]
    ensures IndexOf(s, s[|s| - 1]) == |s| - 1
  {
    var n := |s| - 1;
    assert forall i :: 0 <= i < n ==> s[i] == s[..n][i];
  }

  /** Appending a new last value to the distinct values of the rest. */
  lemma DistinctSnoc<T>(s: seq<T>, d: seq<T>, r: seq<T>)
    requires |s| > 0 && s[|s| - 1] !in s[..|s| - 1] && r == d + [s[|s| - 1]]
    requires NoDuplicates(d) && forall x :: x in d <==> x in s[..|s| - 1]
    requires forall i, j :: 0 <= i < j < |d| ==> IndexOf(s, d[i]) < IndexOf(s, d[j])
    ensures NoDuplicates(r)
    ensures forall x :: x in r <==> x in s
    ensures forall i, j :: 0 <= i < j < |r| ==> IndexOf(s, r[i]) < IndexOf(s, r[j])
  {
    var n := |s| - 1;
    var last := s[n];
    SnocBefore(s, d);
    InitLast(s);
    forall i, j | 0 <= i < j < |r|
      ensures r[i] != r[j] && IndexOf(s, r[i]) < IndexOf(s, r[j])
    {
      assert r[i] == d[i];
      if j < |d| {
        assert r[j] == d[j];
      } else {
        assert r[j] == last;
      }
    }
  }

  /** The values of the rest come before a new last value. */
  lemma SnocBefore<T>(s: seq<T>, d: seq<T>)
    requires |s| > 0 && s[|s| - 1] !in s[..|s| - 1]
    requires forall x :: x in d ==> x in s[..|s| - 1]
    ensures IndexOf(s, s[|s| - 1]) == |s| - 1
    ensures forall i :: 0 <= i < |d| ==> d[i] != s[|s| - 1] && IndexOf(s, d[i]) < |s| - 1
  {
    IndexOfInit(s, s[..|s| - 1]);
    IndexOfNewLast(s);
    forall i | 0 <= i < |d|
      ensures d[i] != s[|s| - 1] && IndexOf(s, d[i]) < |s| - 1
    {
      assert d[i] in d;
    }
  }

  /** The values of a non-empty sequence are those before the last, and the last. */
  lemma InitLast<T>(s: seq<T>)
    requires |s| > 0
    ensures forall x :: x in s <==> x in s[..|s| - 1] || x == s[|s| - 1]
  {
    assert s == s[..|s| - 1] + [s[|s| - 1]];
  }

  /** A sequence is its part before position `k`, the element there and the
      part after. */
  lemma SplitAt<T>(s: seq<T>, k: nat)
    requires k < |s|
    ensures s == s[..k] + [s[k]] + s[k + 1..]
  {
  }

  /** Putting the head back in front of the tail, then appending. */
  lemma ConsAppend<T>(s: seq<T>, t: seq<T>)
    requires |s| > 0
    ensures [s[0]] + (s[1..] + t) == s + t
  {
    assert s == [s[0]] + s[1..];
  }

  /** A sequence has no repeats exactly when no value occurs twice in its multiset. */
  lemma {:induction false} MultisetNoDuplicates<T(!new)>(xs: seq<T>)
    requires NoDuplicates(xs)
    ensures forall w :: multiset(xs)[w] <= 1
  {
    if |xs| > 0 {
      assert xs == [xs[0]] + xs[1..];
      MultisetNoDuplicates(xs[1..]);
      assert xs[0] !in xs[1..];
    }
  }

  lemma {:induction false} NoDuplicatesMultiset<T(!new)>(xs: seq<T>)
    requires forall w :: multiset(xs)[w] <= 1
    ensures NoDuplicates(xs)
  {
    if |xs| > 0 {
      assert xs == [xs[0]] + xs[1..];
      assert multiset(xs) == multiset{xs[0]} + multiset(xs[1..]);
      forall w ensures multiset(xs[1..])[w] <= 1 {
        assert multiset(xs)[w] == multiset{xs[0]}[w] + multiset(xs[1..])[w];
      }
      NoDuplicatesMultiset(xs[1..]);
      assert multiset(xs)[xs[0]] == 1 + multiset(xs[1..])[xs[0]];
      assert xs[0] !in xs[1..];
      forall i, j | 0 <= i < j < |xs| ensures xs[i] != xs[j] {
        if i > 0 {
          assert xs[i] == xs[1..][i - 1] && xs[j] == xs[1..][j - 1];
        } else {
          assert xs[j] in xs[1..];
        }
      }
    }
  }

  /** Reordering a sequence without repeats leaves it without repeats. */
  lemma NoDuplicatesPermutation<T(!new)>(a: seq<T>, b: seq<T>)
    requires NoDuplicates(a) && multiset(a) == multiset(b)
    ensures NoDuplicates(b)
  {
    MultisetNoDuplicates(a);
    NoDuplicatesMultiset(b);
  }

  lemma {:induction false} IndexOfPrefix<T>(s: seq<T>, n: nat, x: T)
    requires n <= |s| && x in s[..n]
    ensures IndexOf(s, x) == IndexOf(s[..n], x)
  {
    if s[0] != x {
      assert s[..n][1..] == s[1..][..n - 1];
      IndexOfPrefix(s[1..], n - 1, x);
    }
  }
}

=== FILE: sorting.dfy ===
/** Stable sorting, the semantics of Kotlin's `sortedBy` and
    `sortedByDescending`. Both are stable sorts, and a stable sort's output
    is determined by its input and the ordering alone, so insertion sort is
    a faithful model of them. */
module Sorting {
  import Seqs

  /** `le` is total and transitive: the comparator of a key selector. */
  ghost predicate TotalPreorder<T(!new)>(le: (T, T) -> bool) {
    && (forall a, b :: le(a, b) || le(b, a))
    && (forall a, b, c :: le(a, b) && le(b, c) ==> le(a, c))
  }

  predicate SortedBy<T>(s: seq<T>, le: (T, T) -> bool) {
    forall i, j :: 0 <= i < j < |s| ==> le(s[i], s[j])
  }

  /** `x` and `y` have equal sort keys. */
  predicate Tied<T>(le: (T, T) -> bool, x: T, y: T) {
    le(x, y) && le(y, x)
  }

  /** The elements of `s` whose key equals the key of `x`, in their order in `s`.
      A sort is stable when it leaves every such subsequence unchanged. */
  function Ties<T>(s: seq<T>, le: (T, T) -> bool, x: T): (r: seq<T>)
    ensures |r| <= |s|
  {
    if |s| == 0 then []
    else (if Tied(le, s[0], x) then [s[0]] else []) + Ties(s[1..], le, x)
  }

  /** Places `x` in front of the first element it does not exceed. */
  function Insert<T>(x: T, s: seq<T>, le: (T, T) -> bool): (r: seq<T>)
    ensures |r| == |s| + 1
    ensures multiset(r) == multiset(s) + multiset{x}
  {
    if |s| == 0 || le(x, s[0]) then [x] + s
    else
      assert s == [s[0]] + s[1..];
      [s[0]] + Insert(x, s[1..], le)
  }

  /** Stable sort of `s` by the ordering `le`. */
  function SortBy<T>(s: seq<T>, le: (T, T) -> bool): (r: seq<T>)
    ensures |r| == |s|
    ensures multiset(r) == multiset(s)
  {
    if |s| == 0 then []
    else
      assert s == [s[0]] + s[1..];
      Insert(s[0], SortBy(s[1..], le), le)
  }

  lemma {:induction false} InsertSorted<T(!new)>(x: T, s: seq<T>, le: (T, T) -> bool)
    requires TotalPreorder(le)
    requires SortedBy(s, le)
    ensures SortedBy(Insert(x, s, le), le)
  {
    if |s| == 0 || le(x, s[0]) {
    } else {
      var rest := Insert(x, s[1..], le);
      InsertSorted(x, s[1..], le);
      forall k | 0 <= k < |rest|
        ensures le(s[0], rest[k])
      {
        assert rest[k] in multiset(s[1..]) + multiset{x};
        if rest[k] != x {
          assert rest[k] in s[1..];
        }
      }
      var r := Insert(x, s, le);
      assert r == [s[0]] + rest;
      forall i, j | 0 <= i < j < |r|
        ensures le(r[i], r[j])
      {
        assert r[j] == rest[j - 1];
        if i > 0 {
          assert r[i] == rest[i - 1];
        }
      }
    }
  }

  /** The sorted output is ordered by `le`. */
  lemma {:induction false} SortBySorted<T(!new)>(s: seq<T>, le: (T, T) -> bool)
    requires TotalPreorder(le)
    ensures SortedBy(SortBy(s, le), le)
  {
    if |s| > 0 {
      SortBySorted(s[1..], le);
      InsertSorted(s[0], SortBy(s[1..], le), le);
    }
  }

  /** `Ties` of a sequence with a known head. */
  lemma TiesCons<T>(h: T, rest: seq<T>, le: (T, T) -> bool, y: T)
    ensures Ties([h] + rest, le, y) == (if Tied(le, h, y) then [h] else []) + Ties(rest, le, y)
  {
    assert ([h] + rest)[1..] == rest;
  }

  /** An element strictly above `z` cannot tie with `y` when `z` does. */
  lemma NotBothTied<T(!new)>(le: (T, T) -> bool, x: T, z: T, y: T)
    requires TotalPreorder(le)
    requires !le(x, z)
    ensures !(Tied(le, z, y) && Tied(le, x, y))
  {
  }

  /** The recursive case of `InsertTies`: `x` passes `s[0]`, and at most one
      of the two ties with `y`. */
  lemma InsertTiesStep<T>(x: T, s: seq<T>, le: (T, T) -> bool, y: T)
    requires |s| > 0 && !le(x, s[0])
    requires !(Tied(le, s[0], y) && Tied(le, x, y))
    requires Ties(Insert(x, s[1..], le), le, y) == (if Tied(le, x, y) then [x] else []) + Ties(s[1..], le, y)
    ensures Ties(Insert(x, s, le), le, y) == (if Tied(le, x, y) then [x] else []) + Ties(s, le, y)
  {
    var rest := Insert(x, s[1..], le);
    var t := Ties(s[1..], le, y);
    var head := if Tied(le, s[0], y) then [s[0]] else [];
    var mid := if Tied(le, x, y) then [x] else [];
    assert Insert(x, s, le) == [s[0]] + rest;
    TiesCons(s[0], rest, le, y);
    SwapEmpty(head, mid, t);
    calc {
      Ties(Insert(x, s, le), le, y);
      head + Ties(rest, le, y);
      head + (mid + t);
      mid + (head + t);
      mid + Ties(s, le, y);
    }
  }

  /** One of `a`, `b` is empty, so they commute in front of `t`. */
  lemma SwapEmpty<T>(a: seq<T>, b: seq<T>, t: seq<T>)
    requires a == [] || b == []
    ensures a + (b + t) == b + (a + t)
  {
    if a == [] {
      assert a + (b + t) == b + t;
      assert a + t == t;
    } else {
      assert b + t == t;
      assert b + (a + t) == a + t;
    }
  }

  lemma {:induction false} InsertTies<T(!new)>(x: T, s: seq<T>, le: (T, T) -> bool, y: T)
    requires TotalPreorder(le)
    ensures Ties(Insert(x, s, le), le, y) == (if Tied(le, x, y) then [x] else []) + Ties(s, le, y)
  {
    if |s| == 0 || le(x, s[0]) {
      TiesCons(x, s, le, y);
    } else {
      InsertTies(x, s[1..], le, y);
      NotBothTied(le, x, s[0], y);
      InsertTiesStep(x, s, le, y);
    }
  }

  /** Stability: elements with equal keys keep their relative input order. */
  lemma {:induction false} SortByStable<T(!new)>(s: seq<T>, le: (T, T) -> bool, y: T)
    requires TotalPreorder(le)
    ensures Ties(SortBy(s, le), le, y) == Ties(s, le, y)
  {
    if |s| > 0 {
      SortByStable(s[1..], le, y);
      InsertTies(s[0], SortBy(s[1..], le), le, y);
    }
  }

  /** Truncating a sorted sequence keeps its best elements: anything left
      out was cut because `k` places were filled by elements ranked at least
      as high. */
  lemma TakeOfSorted<T(!new)>(sorted: seq<T>, k: nat, le: (T, T) -> bool, x: T)
    requires SortedBy(sorted, le)
    requires x in sorted && x !in Seqs.Take(sorted, k)
    ensures |Seqs.Take(sorted, k)| == k
    ensures k > 0 ==> le(Seqs.Take(sorted, k)[k - 1], x)
  {
    var top := Seqs.Take(sorted, k);
    var i :| 0 <= i < |sorted| && sorted[i] == x;
    assert forall j :: 0 <= j < |top| ==> top[j] == sorted[j] && sorted[j] != x;
    assert |top| <= i;
  }
}

=== FILE: text.dfy ===
/** The Kotlin `String` operations the screens rely on: `isBlank`, `trim`,
    `contains(…, ignoreCase = true)`, `split(",")`, `joinToString(",")`
    and `compareTo`. */
module Text {
  import opened Wrappers
  import Seqs

  /** Kotlin `Char.isWhitespace()` on the JVM: Java's `isWhitespace`
      (tab through carriage return, the four information separators, space)
      or `isSpaceChar` (the Unicode space, line and paragraph separators). */
  predicate IsWhitespace(c: char) {
    || ('\t' <= c <= '\r')
    || ('\U{1C}' <= c <= ' ')
    || c == '\U{A0}' || c == '\U{1680}'
    || ('\U{2000}' <= c <= '\U{200A}')
    || c == '\U{2028}' || c == '\U{2029}' || c == '\U{202F}'
    || c == '\U{205F}' || c == '\U{3000}'
  }

  /** Kotlin `isBlank()`: empty or whitespace only. */
  predicate IsBlank(s: string) {
    forall i :: 0 <= i < |s| ==> IsWhitespace(s[i])
  }

  /** Neither end of `s` is whitespace. */
  predicate IsTrimmed(s: string) {
    |s| > 0 ==> !IsWhitespace(s[0]) && !IsWhitespace(s[|s| - 1])
  }

  function TrimStart(s: string): (r: string)
    ensures |r| <= |s| && r == s[|s| - |r|..]
    ensures IsBlank(s[..|s| - |r|])
    ensures |r| > 0 ==> !IsWhitespace(r[0])
  {
    if |s| == 0 || !IsWhitespace(s[0]) then s
    else TrimStart(s[1..])
  }

  function TrimEnd(s: string): (r: string)
    ensures |r| <= |s| && r == s[..|r|]
    ensures IsBlank(s[|r|..])
    ensures |r| > 0 ==> !IsWhitespace(r[|r| - 1])
  {
    if |s| == 0 || !IsWhitespace(s[|s| - 1]) then s
    else TrimEnd(s[..|s| - 1])
  }

  /** Kotlin `trim()`: drops leading and trailing whitespace. */
  function Trim(s: string): (r: string)
    ensures IsTrimmed(r)
    ensures |r| == 0 <==> IsBlank(s)
    ensures IsTrimmed(s) ==> r == s
    ensures forall c :: c in r ==> c in s
  {
    TrimFacts(s);
    TrimEnd(TrimStart(s))
  }

  lemma TrimFacts(s: string)
    ensures IsTrimmed(TrimEnd(TrimStart(s)))
    ensures |TrimEnd(TrimStart(s))| == 0 <==> IsBlank(s)
    ensures IsTrimmed(s) ==> TrimEnd(TrimStart(s)) == s
    ensures forall c :: c in TrimEnd(TrimStart(s)) ==> c in s
  {
    var t := TrimStart(s);
    var r := TrimEnd(t);
    if |r| > 0 {
      assert r[0] == t[0];
    } else {
      // t is blank, and its first character, if any, is not whitespace
      assert |t| == 0;
      assert s == s[..|s|];
    }
    TrimKeepsChars(s);
  }

  lemma TrimKeepsChars(s: string)
    ensures forall c :: c in TrimEnd(TrimStart(s)) ==> c in s
  {
    var t := TrimStart(s);
    var r := TrimEnd(t);
    forall i | 0 <= i < |r|
      ensures r[i] in s
    {
      assert r[i] == t[i];
      assert t[i] == s[|s| - |t| + i];
    }
  }

  /** Trimming a blank string yields the empty string and trimming keeps
      non-blank strings non-blank. */
  lemma TrimBlank(s: string)
    ensures IsBlank(Trim(s)) <==> IsBlank(s)
  {
    var r := Trim(s);
    if |r| > 0 {
      assert !IsWhitespace(r[0]);
    }
  }

  /** ASCII case folding, standing in for Kotlin's `Char.equals(…, ignoreCase = true)`. */
  function Fold(c: char): char {
    if 'A' <= c <= 'Z' then (c as int + 32) as char else c
  }

  predicate MatchesAt(s: string, q: string, i: nat)
    requires i + |q| <= |s|
  {
    forall k :: 0 <= k < |q| ==> Fold(s[i + k]) == Fold(q[k])
  }

  /** `q` occurs in `s`, ignoring case. */
  ghost predicate Occurs(s: string, q: string) {
    exists i: nat :: i + |q| <= |s| && MatchesAt(s, q, i)
  }

  /** Kotlin `indexOf(q, from, ignoreCase = true)`: the first position at or
      after `from` where `q` occurs in `s`, ignoring case. */
  function IndexOfIgnoreCase(s: string, q: string, from: nat): (r: Option<nat>)
    ensures r.Some? ==> from <= r.value && r.value + |q| <= |s| && MatchesAt(s, q, r.value)
    ensures r.Some? ==> forall j :: from <= j < r.value ==> !MatchesAt(s, q, j)
    ensures r.None? ==> forall j: nat :: from <= j && j + |q| <= |s| ==> !MatchesAt(s, q, j)
    decreases |s| - from
  {
    if from + |q| > |s| then None
    else if MatchesAt(s, q, from) then Some(from)
    else IndexOfIgnoreCase(s, q, from + 1)
  }

  /** Kotlin `contains(q, ignoreCase = true)`, which is `indexOf(q, 0, true) >= 0`. */
  predicate ContainsIgnoreCase(s: string, q: string)
    ensures ContainsIgnoreCase(s, q) <==> Occurs(s, q)
  {
    IndexOfIgnoreCase(s, q, 0).Some?
  }

  /** Kotlin `split(",")`: every comma separates two pieces, and empty pieces
      (including a trailing one) are kept. */
  function Split(s: string): (r: seq<string>)
    ensures |r| >= 1
    ensures forall i :: 0 <= i < |r| ==> ',' !in r[i]
    decreases |s|
  {
    if ',' !in s then [s]
    else
      var k := Seqs.IndexOf(s, ',');
      assert ',' !in s[..k];
      [s[..k]] + Split(s[k + 1..])
  }

  /** Kotlin `joinToString(",")`. */
  function Join(xs: seq<string>): string {
    if |xs| == 0 then ""
    else if |xs| == 1 then xs[0]
    else xs[0] + "," + Join(xs[1..])
  }

  /** Splitting and re-joining gives back the text. */
  lemma {:induction false} JoinSplit(s: string)
    ensures Join(Split(s)) == s
    decreases |s|
  {
    if ',' in s {
      var k := Seqs.IndexOf(s, ',');
      JoinSplit(s[k + 1..]);
      assert Split(s)[1..] == Split(s[k + 1..]);
      assert s == s[..k] + "," + s[k + 1..];
    }
  }

  /** Splitting a comma-free piece, a comma and a rest gives the piece, then
      the pieces of the rest. */
  lemma SplitCons(a: string, rest: string)
    requires ',' !in a
    ensures Split(a + "," + rest) == [a] + Split(rest)
  {
    var s := a + "," + rest;
    assert s[|a|] == ',';
    var k := Seqs.IndexOf(s, ',');
    assert forall i :: 0 <= i < |a| ==> s[i] == a[i];
    assert k == |a|;
    assert s[..k] == a;
    assert s[k + 1..] == rest;
  }

  /** Joining a non-empty list of comma-free pieces and splitting again gives
      back the list. */
  lemma {:induction false} SplitJoin(xs: seq<string>)
    requires |xs| > 0
    requires forall i :: 0 <= i < |xs| ==> ',' !in xs[i]
    ensures Split(Join(xs)) == xs
  {
    if |xs| > 1 {
      assert Join(xs) == xs[0] + "," + Join(xs[1..]);
      SplitCons(xs[0], Join(xs[1..]));
      SplitJoin(xs[1..]);
      assert xs == [xs[0]] + xs[1..];
    }
  }

  /** Kotlin `String.compareTo(other) <= 0`: lexicographic order on characters,
      a proper prefix coming first. */
  predicate StrLe(a: string, b: string) {
    if |a| == 0 then true
    else if |b| == 0 then false
    else if a[0] != b[0] then a[0] < b[0]
    else StrLe(a[1..], b[1..])
  }

  lemma {:induction false} StrLeTotal(a: string, b: string)
    ensures StrLe(a, b) || StrLe(b, a)
  {
    if |a| > 0 && |b| > 0 && a[0] == b[0] {
      StrLeTotal(a[1..], b[1..]);
    }
  }

  lemma {:induction false} StrLeTransitive(a: string, b: string, c: string)
    requires StrLe(a, b) && StrLe(b, c)
    ensures StrLe(a, c)
  {
    if |a| > 0 && |b| > 0 && |c| > 0 && a[0] == b[0] && b[0] == c[0] {
      StrLeTransitive(a[1..], b[1..], c[1..]);
    }
  }
}

=== FILE: wrappers.dfy ===
/** Nullable values and fallible results, standing in for Kotlin's `T?`
    and for the early `return` of the screens' validation branches. */
module Wrappers {

  /** `None` is Kotlin's `null`. */
  datatype Option<+T> = None | Some(value: T) {

    /** Kotlin's elvis operator: `x ?: default`. */
    function GetOr(default: T): T {
      match this
      case Some(v) => v
      case None => default
    }
  }

  /** The outcome of an action that is either carried out or refused with a reason. */
  datatype Result<+T, +E> = Ok(value: T) | Err(error: E)
}
